=== FILE: README.md ===
# LightJason AgentSpeak interpreter core, modelled in Dafny

This project models the core of the LightJason AgentSpeak(L++) BDI
interpreter. It covers:

- the term language: literals, raw terms, relocated and evaluate-variables,
  and their hashes, equality and copies;
- unification of a query literal against an agent's beliefs (the hash zip
  and the older unifier with its guard selection);
- plans: building their order-insensitive hash, running their body
  sequentially or in parallel under the `atomic` and `parallel`
  annotations, the delete-goal trigger of a failed plan, and its condition;
- the boolean fuzzy set;
- the belief-base mask store;
- the weighted-difference coherency metric;
- the built-in actions for list symmetric difference, multimap creation,
  applying pairs to a map, map keys, the all-match test and plan removal;
- the blas storage type `SPARSE` / `DENSE`.

Everything is modelled with immutable datatypes and pure functions (a few
methods carry loops). Java exceptions are `Err` values of a `Result`
(`wrappers.dfy`). Java `int` arithmetic is made explicit where it matters:
the plan hash is `bv32` XOR, and the metric wraps and truncates as Java does.

Literals, raw terms and variables are compared by hash code, as in the
source. The hash function itself (Guava's hasher, `String.hashCode`,
`CPath.from`) is an abstract `Host` record of function values. The
properties therefore hold for any hasher, and properties that need a
collision-free one say so in their precondition (`InjectiveDigest`).

Modules: `Wrappers`, `Terms`, `RawTerms`, `Literals`, `Variables`,
`HashUnify`, `Unifier`, `Fuzzy`, `Instantiable`, `Masks`, `Metric`,
`Collections`, `RemovePlan`, `BlasType`, one per file.

An `atomic` plan's result is forced to true before the delete-goal check
(`IBaseInstantiable.java:124-126`, then `CPlan.java:125-126`), so such a plan
never emits the delete-goal trigger, provided the defuzzifier maps a plain
true to true: see `Instantiable.AtomicPlanEmitsNothing`.

## Model

| member | source | states |
|---|---|---|
| Terms.LiteralEqualsCharacterised | src/main/java/org/lightjason/agentspeak/language/CLiteral.java:138-144 | Under a collision-free hasher, two literals are equal exactly when they share functor, both flags and the same number of arguments, and their arguments hash alike position by position. |
| Terms.SwappedArgumentsNotEqual | src/main/java/org/lightjason/agentspeak/language/CLiteral.java:143 | The hash is order-sensitive in the arguments: swapping two arguments with different hashes gives an unequal literal. |
| Terms.SameLiteralShapeStructureHash | src/main/java/org/lightjason/agentspeak/language/CLiteral.java:146-151 | The structure hash sees only the shape: literals with the same negation, functor and argument shapes have the same structure hash, whatever the values. |
| Terms.SameShapeStructureHash | src/main/java/org/lightjason/agentspeak/language/CRawTerm.java:218-222 | Terms of the same shape have the same structure hash; raw terms and variables contribute 0. |
| RawTerms.FromValue | src/main/java/org/lightjason/agentspeak/language/CRawTerm.java:85-91 | A raw term built from a plain value holds that value, and its hash is the value's hash, or 0 for null. |
| RawTerms.FromTerm | src/main/java/org/lightjason/agentspeak/language/CRawTerm.java:79-84 | Wrapping a term copies its raw value and functor path, and the wrapper equals the original raw term, literal or allocated variable. |
| RawTerms.ThrowNotAllocated | src/main/java/org/lightjason/agentspeak/language/CRawTerm.java:178-186 | It succeeds with the term itself exactly when the term holds a value; otherwise it is an illegal-state error. |
| RawTerms.DeepCopy | src/main/java/org/lightjason/agentspeak/language/CRawTerm.java:204-209 | The copy holds the same value and hash, and it equals the original in both directions. |
| Literals.Strip | src/main/java/org/lightjason/agentspeak/language/CLiteral.java:181 | Removing the marker characters leaves no `@` or `~` and keeps every other character with its count. |
| Literals.StripAppend | src/main/java/org/lightjason/agentspeak/language/CLiteral.java:181 | Stripping distributes over concatenation. |
| Literals.StripIdentity | src/main/java/org/lightjason/agentspeak/language/CLiteral.java:181 | A name without markers is stripped to itself. |
| Literals.FromString | src/main/java/org/lightjason/agentspeak/language/CLiteral.java:178-184 | The literal's at-flag is set iff the name contains `@`, its negation iff it contains `~`. Its functor is the path parsed from the name with every `@` and `~` removed, and its arguments are those given. |
| Literals.FromStringRoundTrip | src/main/java/org/lightjason/agentspeak/language/CLiteral.java:442-446 | Printing the flags and the functor, then reading them back with the same arguments, gives the original literal. |
| Literals.Unify | src/main/java/org/lightjason/agentspeak/language/CLiteral.java:326-346 | Unifying keeps both flags, the functor and the arity. A variable missing from the context becomes the empty raw term, and one whose context variable is allocated becomes a raw term of that variable's value and name. One whose context variable is unbound is replaced by that context variable. A nested literal is unified recursively, and raw terms are kept as they are. |
| Literals.Allocate | src/main/java/org/lightjason/agentspeak/language/CLiteral.java:350-372 | Allocating agrees with unifying on every argument's raw value. A variable argument whose name is in the context becomes that context variable itself, allocated or not, and one whose name is missing becomes the empty raw term. Other arguments are unified as usual, and any variable left in the result is one of the context's. |
| Literals.AllocateThenUnify | src/main/java/org/lightjason/agentspeak/language/CLiteral.java:350-372 | Unifying an allocated literal gives the same literal as unifying the original, for every literal and well-formed context. |
| Literals.UnifyIdempotent | src/main/java/org/lightjason/agentspeak/language/CLiteral.java:326-346 | Unifying twice against the same context is unifying once. |
| Literals.UnifyArgIdempotent | src/main/java/org/lightjason/agentspeak/language/CLiteral.java:333-343 | The same holds argument by argument, including nested literals. |
| Literals.UnifyHasVariable | src/main/java/org/lightjason/agentspeak/language/CLiteral.java:319-322 | After unifying, the literal has a variable exactly when some argument names an unallocated context variable or is an evaluate-variable, at any depth. |
| Literals.UnifyArgHasVariable | src/main/java/org/lightjason/agentspeak/language/CLiteral.java:333-343 | The same characterisation for a single argument. |
| Literals.UnifyStructureHash | src/main/java/org/lightjason/agentspeak/language/CLiteral.java:146-151 | Two contexts that leave the same names unbound give unified literals with the same structure hash. |
| Literals.UnifySameShape | src/main/java/org/lightjason/agentspeak/language/CLiteral.java:326-346 | Such contexts also give unified literals of the same shape. |
| Literals.Functor | src/main/java/org/lightjason/agentspeak/language/CLiteral.java:376-379 | The functor is the last segment of the functor path. |
| Literals.FunctorPath | src/main/java/org/lightjason/agentspeak/language/CLiteral.java:383-386 | The functor path is everything before the functor, so the path plus the functor gives the full name back. |
| Literals.EmptyValues | src/main/java/org/lightjason/agentspeak/language/CLiteral.java:295-298 | A literal has no values exactly when it has no arguments; such a literal has no variable and is unchanged by unification. |
| Literals.GroupRestFunctors | src/main/java/org/lightjason/agentspeak/language/CLiteral.java:127-129 | The arguments kept under a functor key all have that functor; the other arguments have none of it. |
| Literals.GroupRestSplit | src/main/java/org/lightjason/agentspeak/language/CLiteral.java:127-129 | One functor's arguments and the remaining arguments together are a permutation of all of them. |
| Literals.GroupAppend | src/main/java/org/lightjason/agentspeak/language/CLiteral.java:127-129 | Both parts keep argument order: selecting from a concatenation concatenates the selections. |
| Literals.Grouped | src/main/java/org/lightjason/agentspeak/language/CLiteral.java:125-131 | The values of the functor-keyed multimap are a permutation of the arguments. |
| Literals.GroupedOrder | src/main/java/org/lightjason/agentspeak/language/CLiteral.java:125-131 | The multimap lists the arguments of each functor together, the functors in order of first appearance, each group in argument order. |
| Literals.FirstFunctors | src/main/java/org/lightjason/agentspeak/language/CLiteral.java:125-131 | The multimap's keys: each functor of an argument exactly once. |
| Literals.GroupedDistinctFunctors | src/main/java/org/lightjason/agentspeak/language/CLiteral.java:125-131 | When all arguments have different functors the multimap keeps their order. |
| Literals.ShallowCopy | src/main/java/org/lightjason/agentspeak/language/CLiteral.java:417-430 | The copy keeps both flags and prefixes the functor when a prefix is given. Its arguments are the groups of each functor in order of first appearance, which is a permutation of the arguments. |
| Literals.ShallowCopySuffix | src/main/java/org/lightjason/agentspeak/language/CLiteral.java:434-440 | The copy's functor is the last segment alone. Flags are kept, and the arguments are regrouped by functor in order of first appearance. |
| Literals.DeepCopyTerm | src/main/java/org/lightjason/agentspeak/language/CRawTerm.java:204-209 | As written: a copied raw term or variable keeps its hash. A copied nested literal keeps flags, functor and arity, but is itself regrouped. |
| Literals.DeepCopyArgs | src/main/java/org/lightjason/agentspeak/language/CLiteral.java:463 | As written: copying arguments keeps their number and which ones are literals. Every non-literal keeps its hash, and every literal keeps its flags, functor and arity. |
| Literals.DeepCopy | src/main/java/org/lightjason/agentspeak/language/CLiteral.java:456-471 | As written: flags are kept, the functor is prefixed when a prefix is given, and the arity is kept. Argument `i` is a copy of the grouped multimap's argument `i`: a non-literal keeps its hash, and a literal keeps its flags, functor and arity. |
| Literals.DeepCopySuffix | src/main/java/org/lightjason/agentspeak/language/CLiteral.java:475-481 | As written: the functor is cut to its last segment, and flags and arity are kept. Argument `i` is a copy of grouped argument `i`: a non-literal keeps its hash, and a literal keeps its flags, functor and arity. |
| Literals.DeepCopyOrdered | src/main/java/org/lightjason/agentspeak/language/CLiteral.java:456-471 | Corrected: every argument keeps its place and hash at every depth. A copy without prefix therefore has the original's hash and equals it. |
| Literals.DeepCopyOrderedTerm | src/main/java/org/lightjason/agentspeak/language/CRawTerm.java:204-209 | Corrected: a copied argument of any kind keeps its hash, and a non-literal is copied as the written version copies it. |
| Literals.DeepCopyOrderedArgs | src/main/java/org/lightjason/agentspeak/language/CLiteral.java:463 | Corrected: copying arguments in place keeps each one's hash. |
| Literals.GroupedABA | src/main/java/org/lightjason/agentspeak/language/CLiteral.java:125-131 | Arguments `a, b, a` with two functors come out of the multimap as `a, a, b`. |
| Literals.CopyReordersArguments | src/main/java/org/lightjason/agentspeak/language/CLiteral.java:423 | For arguments `1, 2, 1` the copies list `1, 1, 2`. |
| Literals.DeepCopyNotEqual | src/main/java/org/lightjason/agentspeak/language/CLiteral.java:458-464 | Under a collision-free hasher, that literal's deep copy as written is not equal to it. |
| Literals.NestedDeepCopyNotEqual | src/main/java/org/lightjason/agentspeak/language/CLiteral.java:456-471 | The reordering reaches nested literals: a literal wrapping one whose copy is unequal is itself unequal to its copy as written, while the corrected copy equals it. |
| Variables.RelocateOf | src/main/java/org/lightjason/agentspeak/language/variable/CRelocateMutexVariable.java:57-61 | The relocate variable takes the target's current value, is named by the target's last segment, and refers to the target by its name in the enclosing context. |
| Variables.RelocateNamed | src/main/java/org/lightjason/agentspeak/language/variable/CRelocateMutexVariable.java:68-72 | The same with an explicit name. |
| Variables.RelocateTarget | src/main/java/org/lightjason/agentspeak/language/variable/CRelocateMutexVariable.java:87-94 | Relocating writes through the reference: a constant target is left as it is, any other target is set to the relocate variable's current value, and every other context variable is untouched. |
| Variables.RelocateAfterSet | src/main/java/org/lightjason/agentspeak/language/variable/CRelocateMutexVariable.java:87-94 | After a set, relocating carries the new value to a non-constant target and ignores it for a constant. |
| Variables.Set | src/main/java/org/lightjason/agentspeak/language/variable/CRelocateMutexVariable.java:93 | Setting changes the value only. |
| Variables.ShallowCopy | src/main/java/org/lightjason/agentspeak/language/variable/CRelocateMutexVariable.java:97-104 | The copy keeps target and value and prefixes the name when a prefix is given. |
| Variables.ShallowCopySuffix | src/main/java/org/lightjason/agentspeak/language/variable/CRelocateMutexVariable.java:126-131 | The copy keeps its full name and the reference, and reads the target's current value through it. |
| Variables.ShallowCopySuffixReadsTarget | src/main/java/org/lightjason/agentspeak/language/variable/CRelocateMutexVariable.java:87-131 | A value set on the relocate variable is not seen by its suffix copy until `relocate()` writes it to a non-constant target; then the copy holds it. |
| Variables.DeepCopyAsWritten | src/main/java/org/lightjason/agentspeak/language/variable/CRelocateMutexVariable.java:113-124 | As written: the prefix is appended AFTER the name. |
| Variables.DeepCopyPrefixReversed | src/main/java/org/lightjason/agentspeak/language/variable/CRelocateMutexVariable.java:118-120 | With name `x` and prefix `p` the written deep copy is named `x/p` where the shallow copy is named `p/x`. |
| Variables.DeepCopy | src/main/java/org/lightjason/agentspeak/language/variable/CRelocateMutexVariable.java:113-124 | Corrected: the deep copy agrees with the shallow copy, and is the variable itself without prefix. |
| Variables.DeepCopySuffix | src/main/java/org/lightjason/agentspeak/language/variable/CRelocateMutexVariable.java:106-111 | The copy is named by the last segment of the name and keeps target and value. |
| Variables.ReplaceFromContext | src/main/java/org/lightjason/agentspeak/language/variable/CVariableEvaluate.java:92 | Resolving a variable succeeds exactly when the context has its name, with the context's variable; otherwise it is an illegal-argument error. |
| Variables.FromLiteral | src/main/java/org/lightjason/agentspeak/language/variable/CVariableEvaluate.java:209-219 | The literal keeps its flags and functor. Without parameters its arguments are its own, unified against the context; with parameters they are the parameters, unified against the context. |
| Variables.EvaluateLiteral | src/main/java/org/lightjason/agentspeak/language/variable/CVariableEvaluate.java:88-104 | Evaluation fails for a missing name and for an unallocated variable. A text value yields the literal named by the text: its flags follow the markers, and its arguments are the parameters unified against the context. A literal value yields that literal with the parameters, when the template holds a literal. A non-literal value is then a cast error; every other case is an illegal state. |
| Variables.EvaluateIsUnified | src/main/java/org/lightjason/agentspeak/language/variable/CVariableEvaluate.java:197-219 | An evaluated literal is already unified: unifying it again against the context changes nothing. |
| Variables.VariableParameters | src/main/java/org/lightjason/agentspeak/language/variable/CVariableEvaluate.java:112-114 | The variable parameters are exactly the parameters that are variables. A single parameter gives itself when it is a variable, and nothing otherwise. |
| Variables.VariableParametersAppend | src/main/java/org/lightjason/agentspeak/language/variable/CVariableEvaluate.java:112-114 | The variable parameters of a concatenation are those of each part in order, so they come in parameter order. |
| Variables.Variables | src/main/java/org/lightjason/agentspeak/language/variable/CVariableEvaluate.java:106-116 | The template variable comes first, followed by the variable parameters in parameter order: any split of the parameters splits the rest of the list the same way. |
| HashUnify.AllBindings | src/main/java/lightjason/agent/unify/CHash.java:47-52 | One binding per variable position of the zipped streams, no more than either side. |
| HashUnify.Zip | src/main/java/lightjason/agent/unify/CHash.java:44-55 | The zip succeeds iff every zipped pair matches (a variable target, or equal hashes). On success it has bound every variable position. |
| HashUnify.ZipBindingsPrefix | src/main/java/lightjason/agent/unify/CHash.java:44-55 | Whatever the outcome, the bindings made are a prefix of all the bindings. |
| HashUnify.ZipFailureKeepsEarlierBindings | src/main/java/lightjason/agent/unify/CHash.java:44-55 | `allMatch` stops at the first mismatch: the bindings made are exactly those before it. |
| HashUnify.Add | src/main/java/lightjason/agent/unify/CHash.java:50 | Adding to the variable set keeps names distinct: an already present name leaves the set unchanged. |
| HashUnify.AddAll | src/main/java/lightjason/agent/unify/CHash.java:50 | Adding many keeps the old entries first and contains exactly the old and new names. Every entry comes from one side, and each name holds its old value when it had one, else the value of its first new binding. |
| HashUnify.Unify | src/main/java/lightjason/agent/unify/CHash.java:40-56 | The result is true iff all pairs match; the caller's set only grows and keeps distinct names. |
| HashUnify.NoConsistencyCheck | src/main/java/lightjason/agent/unify/CHash.java:47-52 | The same variable on two target positions unifies with two different values; only the first binding is kept, each target position being its own variable object. |
| HashUnify.ExactBindings | src/main/java/lightjason/agent/CUnifier.java:239-258 | The exact unifier returns distinct variable names, and returns something only when every pair matched. Every binding it returns is one a zipped position made, and each name holds the value of its first variable position. |
| HashUnify.QueryVariableBindsSourceTerm | src/main/java/lightjason/agent/CUnifier.java:239-258 | When every pair matched, a target variable is bound to the source term at its first position. |
| Unifier.FlattenTerm | src/main/java/lightjason/agent/CUnifier.java:198 | Flattening a term leaves no literal; a non-literal is its own flattening. |
| Unifier.FlattenArgs | src/main/java/lightjason/agent/CUnifier.java:198 | Flattened arguments contain no literal. |
| Unifier.FlattenArgsAppend | src/main/java/lightjason/agent/CUnifier.java:198 | Flattening distributes over concatenation. |
| Unifier.FlattenArgsFlat | src/main/java/lightjason/agent/CUnifier.java:198 | Literal-free arguments flatten to themselves. |
| Unifier.FlattenLiterals | src/main/java/lightjason/agent/CUnifier.java:199 | Flattened annotations contain no literal. |
| Unifier.Candidates | src/main/java/lightjason/agent/CUnifier.java:190-191 | The candidates are exactly the beliefs with the query's negation and functor. |
| Unifier.BindingsFor | src/main/java/lightjason/agent/CUnifier.java:195-200 | The bindings for a candidate have distinct names, each made by the value zip or the annotation zip. A name holds its value binding when it has one, else its annotation binding. |
| Unifier.QueryVariableBindsCandidateArgument | src/main/java/lightjason/agent/CUnifier.java:195-200 | For flat literals whose positions all match, a query variable is bound to the candidate's argument at the variable's first position. |
| Unifier.UnifyExact | src/main/java/lightjason/agent/CUnifier.java:188-204 | Each result has exactly the requested number of bindings and comes from a candidate whose value and annotation hashes match the query. |
| Unifier.UnifyRecursive | src/main/java/lightjason/agent/CUnifier.java:218-225 | The unfinished recursive step yields one empty set per candidate when 0 variables are asked for, and nothing otherwise. |
| Unifier.UnifyAll | src/main/java/lightjason/agent/CUnifier.java:170-177 | The exact results are used when there are any, and the recursive stage's otherwise. Every result has the requested size. |
| Unifier.ZeroCountAcceptsAnyCandidate | src/main/java/lightjason/agent/CUnifier.java:170-177 | With 0 variables asked for, any belief with the query's head makes unification produce a result. |
| Unifier.OtherHeadIgnored | src/main/java/lightjason/agent/CUnifier.java:190-191 | A belief with a different head never changes the result. |
| Unifier.UpdateContext | src/main/java/lightjason/agent/CUnifier.java:151-155 | Writing bindings succeeds iff every bound name is in the context, keeps its names and leaves unbound names alone; a missing name is a null-pointer error. |
| Unifier.UpdateContextWrites | src/main/java/lightjason/agent/CUnifier.java:153 | Every bound name receives the bound value and keeps its variable name. |
| Unifier.Passes | src/main/java/lightjason/agent/CUnifier.java:131 | A guard passes iff it returned the single value true, and fails for any other count or for the single value false. A single null value is a null-pointer error, and a single non-boolean value a cast error. |
| Unifier.FirstPassing | src/main/java/lightjason/agent/CUnifier.java:118-134 | It finds the first set whose guard passes, with all earlier ones failing, or reports that none passes, or a check error. |
| Unifier.SequentialUnifyAsWritten | src/main/java/lightjason/agent/CUnifier.java:100-142 | As written: no result gives false with the context unchanged, and true commits one of the results. With a guard, 0 variables asked for never gives true. |
| Unifier.SequentialUnify | src/main/java/lightjason/agent/CUnifier.java:100-142 | Corrected: true commits the first set whose guard passes (the first set without a guard), false means no set passed. |
| Unifier.AsWrittenOnlyLosesMatches | src/main/java/lightjason/agent/CUnifier.java:133-138 | When the written version commits, the corrected one commits the same context. When the written version fails with an error, so does the corrected one. When the corrected one says false, both agree. |
| Unifier.GuardedZeroCountRejected | src/main/java/lightjason/agent/CUnifier.java:133-138 | With one matching ground belief, 0 variables and an always-true guard, the written version answers false and the corrected one true. |
| Unifier.ParallelUnify | src/main/java/lightjason/agent/CUnifier.java:56-98 | A false answer leaves the context unchanged. |
| Unifier.FirstError | src/main/java/lightjason/agent/CUnifier.java:74-88 | No error is reported exactly when every set's guard check succeeds. |
| Unifier.ParallelAgreesWithSequential | src/main/java/lightjason/agent/CUnifier.java:56-142 | When no guard check fails, the parallel and sequential versions give the same answer and context. |
| Fuzzy.Success | src/main/java/org/lightjason/agentspeak/language/newfuzzy/set/EBoolean.java:64-67 | Success is one value, `TRUE` with weight 1. |
| Fuzzy.Fail | src/main/java/org/lightjason/agentspeak/language/newfuzzy/set/EBoolean.java:70-73 | Failure is one value, `FALSE` with weight 1. |
| Fuzzy.SuccessFailReceiverIndependent | src/main/java/org/lightjason/agentspeak/language/newfuzzy/set/EBoolean.java:64-73 | Neither depends on the constant they are called on, and they differ. |
| Instantiable.AnnotationMap | src/main/java/org/lightjason/agentspeak/language/instantiable/IBaseInstantiable.java:82 | The map is keyed by exactly the annotation ids, and a repeated id keeps the last annotation with it. |
| Instantiable.NewBase | src/main/java/org/lightjason/agentspeak/language/instantiable/IBaseInstantiable.java:78-83 | The base keeps body and hash, and maps each annotation id to an annotation with that id. |
| Instantiable.ExecuteSequential | src/main/java/org/lightjason/agentspeak/language/instantiable/IBaseInstantiable.java:137-153 | The results stop at the first failing step, and all earlier results pass. A non-empty body gives at least one result, the first step's value on the given context. |
| Instantiable.ExecuteParallel | src/main/java/org/lightjason/agentspeak/language/instantiable/IBaseInstantiable.java:163-168 | Every step runs: one result per step, the first being the first step's value on the given context. |
| Instantiable.ExecuteParallelAppend | src/main/java/org/lightjason/agentspeak/language/instantiable/IBaseInstantiable.java:163-168 | Running a concatenation lists the first part's results, then the second part's results on the context the first part left. |
| Instantiable.ExecuteSequentialAppend | src/main/java/org/lightjason/agentspeak/language/instantiable/IBaseInstantiable.java:137-153 | When every step of a first part passes, the sequential run of a concatenation continues with the second part on the context the first part left. |
| Instantiable.SequentialIsPrefix | src/main/java/org/lightjason/agentspeak/language/instantiable/IBaseInstantiable.java:120-122 | The sequential results are a prefix of the parallel ones. The two agree when all but the last step pass. |
| Instantiable.Execute | src/main/java/org/lightjason/agentspeak/language/instantiable/IBaseInstantiable.java:111-127 | `parallel` selects the parallel run. `atomic` forces the result to true; otherwise the result is the collected step results. |
| Instantiable.FoldPermutation | src/main/java/org/lightjason/agentspeak/language/instantiable/plan/CPlan.java:102 | A reduction with a commutative monoid gives the same result for any permutation of its inputs. |
| Instantiable.FoldAppend | src/main/java/org/lightjason/agentspeak/language/instantiable/plan/CPlan.java:102 | Such a reduction of a concatenation combines the reductions of its parts. |
| Instantiable.XorIsCommutativeMonoid | src/main/java/org/lightjason/agentspeak/language/instantiable/plan/CPlan.java:102 | 32-bit XOR with 0 is a commutative monoid. |
| Instantiable.XorAllPermutation | src/main/java/org/lightjason/agentspeak/language/instantiable/plan/CPlan.java:95-102 | The XOR of hash codes does not depend on their order. |
| Instantiable.XorAllCancels | src/main/java/org/lightjason/agentspeak/language/instantiable/plan/CPlan.java:95-102 | Two equal hash codes anywhere cancel out. |
| Instantiable.PlanHashOrderInsensitive | src/main/java/org/lightjason/agentspeak/language/instantiable/plan/CPlan.java:88-103 | Reordering annotations does not change the plan hash, nor does swapping the trigger's and condition's hashes. |
| Instantiable.MapHashMultiset | src/main/java/org/lightjason/agentspeak/language/instantiable/plan/CPlan.java:101 | Permuted annotations have permuted hash codes. |
| Instantiable.NewPlan | src/main/java/org/lightjason/agentspeak/language/instantiable/plan/CPlan.java:75-107 | For distinct annotations, as a Java set holds them, the plan keeps trigger and body, takes the empty condition when none is given, keys every annotation's id, and its hash is the XOR of the trigger, condition, step and annotation hashes. |
| Instantiable.PlansEqualUnderReordering | src/main/java/org/lightjason/agentspeak/language/instantiable/IBaseInstantiable.java:92-95 | Two plans built from the same trigger, condition and body with the same annotations in any order are equal under `equals`. |
| Instantiable.ExecutePlan | src/main/java/org/lightjason/agentspeak/language/instantiable/plan/CPlan.java:116-129 | A plan runs like its base. When the result defuzzifies to false, it emits exactly one delete-goal trigger with the event literal unified against the context after the run; otherwise it emits none. |
| Instantiable.AtomicPlanEmitsNothing | src/main/java/org/lightjason/agentspeak/language/instantiable/plan/CPlan.java:122-126 | An atomic plan never emits the delete-goal trigger when true defuzzifies to true. |
| Instantiable.Condition | src/main/java/org/lightjason/agentspeak/language/instantiable/plan/CPlan.java:133-155 | The condition holds iff the expression succeeds with the single return value true; a single non-boolean value is a cast error. |
| Masks.Empty | src/main/java/lightjason/beliefbase/IMask.java:38 | The empty store is well formed. |
| Masks.AddDirs | src/main/java/lightjason/beliefbase/IMask.java:54 | Adding missing directories creates exactly the prefixes of the path not yet present, by the generator, and keeps existing masks. |
| Masks.PrefixesClosed | src/main/java/lightjason/beliefbase/IMask.java:54 | The prefixes of a path are closed under taking the parent directory. |
| Masks.AddMask | src/main/java/lightjason/beliefbase/IMask.java:41-69 | Adding a mask fails for the empty path, and without a generator when the parent is missing. Otherwise the mask is stored under the path with the right parent and name, and nothing else changes but generated directories. |
| Masks.AddGenerated | src/main/java/lightjason/beliefbase/IMask.java:58 | With a generator, adding succeeds for every non-empty path, which then holds a mask. |
| Masks.AddLiteral | src/main/java/lightjason/beliefbase/IMask.java:78 | The literal is stored under its functor alongside the literals there, other entries are kept, and only missing directories are generated. |
| Masks.GetLiteral | src/main/java/lightjason/beliefbase/IMask.java:152 | It answers the non-empty literal set under the path, or nothing when no literal is there. |
| Masks.GetMask | src/main/java/lightjason/beliefbase/IMask.java:160 | It answers a view of the mask with its path and parent, or nothing when no mask is there. |
| Masks.GetLiterals | src/main/java/lightjason/beliefbase/IMask.java:137 | It lists exactly the (path, literal) entries at or below the path. |
| Masks.GetMasks | src/main/java/lightjason/beliefbase/IMask.java:169 | It maps exactly the masks at or below the path to their payloads. |
| Masks.GetName | src/main/java/lightjason/beliefbase/IMask.java:190 | A mask's name is the last segment of its path, empty for the root. |
| Masks.AddedMaskListed | src/main/java/lightjason/beliefbase/IMask.java:169 | A mask just added is listed with its template under every prefix of its path, and the root lists every mask. |
| Masks.Clone | src/main/java/lightjason/beliefbase/IMask.java:128 | A clone keeps its path and takes the new parent. |
| Masks.HasParent | src/main/java/lightjason/beliefbase/IMask.java:204 | It holds exactly when the view has a parent. |
| Masks.Prune | src/main/java/lightjason/beliefbase/IMask.java:112 | Pruning removes exactly the masks below the path and the literals below it (the literal at the path too, unless strict), and keeps the rest. |
| Masks.RemoveLiteral | src/main/java/lightjason/beliefbase/IMask.java:103 | It reports whether the literal was present, removes it, keeps the other literals and masks, and changes nothing when absent. |
| Masks.RemoveMask | src/main/java/lightjason/beliefbase/IMask.java:112 | It removes the subtree only when that mask is stored at the path, and reports whether it did. |
| Masks.RemovePath | src/main/java/lightjason/beliefbase/IMask.java:120 | It reports whether anything was at the path, and afterwards nothing is. |
| Masks.RemoveTwice | src/main/java/lightjason/beliefbase/IMask.java:103-120 | A second removal of the same thing reports false. |
| Masks.AddThenRemoveLiteral | src/main/java/lightjason/beliefbase/IMask.java:78-103 | A literal just added is removed with true. |
| Masks.AddThenGetMask | src/main/java/lightjason/beliefbase/IMask.java:58-160 | A mask just added is found at its path. |
| Metric.Wrap | src/main/java/lightjason/coherency/metric/CWeightedDifference.java:100-102 | The result lies in the `int` range, is congruent to the exact value modulo 2^32, and equals it when it fits. |
| Metric.Quot | src/main/java/lightjason/coherency/metric/CWeightedDifference.java:102 | Division truncates toward zero. |
| Metric.Roots | src/main/java/lightjason/coherency/metric/CWeightedDifference.java:73-79 | No paths means the root alone; otherwise the given paths. |
| Metric.CollectLiterals | src/main/java/lightjason/coherency/metric/CWeightedDifference.java:72-83 | The collected literals are exactly those stored at or below some searched path. |
| Metric.Collect | src/main/java/lightjason/coherency/metric/CWeightedDifference.java:68-83 | The hash set holds exactly the hashes of the collected literals. |
| Metric.Distance | src/main/java/lightjason/coherency/metric/CWeightedDifference.java:85-103 | The distance is a division-by-zero error exactly when the two sets do not intersect. |
| Metric.Calculate | src/main/java/lightjason/coherency/metric/CWeightedDifference.java:64-104 | The metric is the distance of the two agents' collected literal sets; it fails exactly when they share none. |
| Metric.UnionMinusSide | src/main/java/lightjason/coherency/metric/CWeightedDifference.java:100-101 | The union minus one side's size is the size of what only the other side holds. |
| Metric.DistanceSymmetric | src/main/java/lightjason/coherency/metric/CWeightedDifference.java:85-103 | The distance is symmetric in the two agents. |
| Metric.DistanceIdentical | src/main/java/lightjason/coherency/metric/CWeightedDifference.java:85-103 | Identical non-empty sets are at distance 0. |
| Metric.DistanceExact | src/main/java/lightjason/coherency/metric/CWeightedDifference.java:99-103 | For unions of at most 32767 literals nothing overflows. The distance is then the truncated symmetric-difference size times the union size over the intersection size, and never negative. |
| Collections.FlattenItems | src/main/java/org/lightjason/agentspeak/action/builtin/collection/list/CSymmetricDifference.java:82 | Flattening arguments that are plain values gives the values back in order. |
| Collections.Windowed | src/main/java/org/lightjason/agentspeak/action/builtin/collection/multimap/CCreate.java:77-79 | Window `j` exists iff it fits, and it is the slice of the given size starting at `j * step`. |
| Collections.WindowedShift | src/main/java/org/lightjason/agentspeak/action/builtin/collection/multimap/CCreate.java:77-79 | The windows are the first window followed by the windows of the rest after one step. |
| Collections.PairsRoundTrip | src/main/java/org/lightjason/agentspeak/action/buildin/collection/IMapApplyMultiple.java:73-79 | Disjoint pairs of an even-length list, concatenated, give the list back. |
| Collections.InsertBy | src/main/java/org/lightjason/agentspeak/action/builtin/collection/list/CSymmetricDifference.java:86 | Insertion keeps the list sorted by hash and adds exactly one element. |
| Collections.SortBy | src/main/java/org/lightjason/agentspeak/action/builtin/collection/list/CSymmetricDifference.java:86 | Sorting by hash code gives a sorted permutation. |
| Collections.SortByDistinct | src/main/java/org/lightjason/agentspeak/action/builtin/collection/list/CSymmetricDifference.java:86 | Sorting keeps the elements distinct. |
| Collections.OddOccurrences | src/main/java/org/lightjason/agentspeak/action/builtin/collection/list/CSymmetricDifference.java:83-85 | The result lists, once each, exactly the values occurring an odd number of times. |
| Collections.SymmetricDifference | src/main/java/org/lightjason/agentspeak/action/builtin/collection/list/CSymmetricDifference.java:78-99 | The action succeeds with one list: exactly the values occurring an odd number of times, distinct and sorted by hash code. |
| Collections.SymmetricDifferenceOfTwoSets | src/main/java/org/lightjason/agentspeak/action/builtin/collection/list/CSymmetricDifference.java:82-88 | For two duplicate-free lists a value occurs an odd number of times iff it is in exactly one of them: the classic symmetric difference. |
| Collections.Entries | src/main/java/org/lightjason/agentspeak/action/builtin/collection/multimap/CCreate.java:79 | The multimap holds exactly one entry per window, first value as key. |
| Collections.EntriesOfWindows | src/main/java/org/lightjason/agentspeak/action/builtin/collection/multimap/CCreate.java:77-79 | The entries of the windows are exactly the pairs at window starts. |
| Collections.CreateMultimapAsWritten | src/main/java/org/lightjason/agentspeak/action/builtin/collection/multimap/CCreate.java:69-82 | As written: an odd number of values fails. Otherwise the multimap holds every pair of ADJACENT values. |
| Collections.CreateMultimap | src/main/java/org/lightjason/agentspeak/action/builtin/collection/multimap/CCreate.java:69-82 | Corrected: an odd number of values fails. Otherwise the multimap holds exactly the disjoint (key, value) pairs. |
| Collections.CreateMultimapOverlaps | src/main/java/org/lightjason/agentspeak/action/builtin/collection/multimap/CCreate.java:78 | For `a, b, c, d` the written multimap holds `(b, c)`, which the corrected one does not when `b != c`. |
| Collections.MapApplyMultiple | src/main/java/org/lightjason/agentspeak/action/buildin/collection/IMapApplyMultiple.java:62-82 | An even number of values fails and applies nothing. Otherwise the target gets one call per disjoint (key, value) pair after it, in order. |
| Collections.MapApplyRoundTrip | src/main/java/org/lightjason/agentspeak/action/buildin/collection/IMapApplyMultiple.java:73-79 | The keys and values applied, put back in order, are exactly the values after the target. |
| Collections.InsertUnique | src/main/java/org/lightjason/agentspeak/action/builtin/collection/map/CKeys.java:76-80 | Inserting into a strictly increasing list keeps it strictly increasing and adds exactly the new key. |
| Collections.SortedDistinct | src/main/java/org/lightjason/agentspeak/action/builtin/collection/map/CKeys.java:78-79 | A set of keys becomes a strictly increasing list of exactly those keys. |
| Collections.Keys | src/main/java/org/lightjason/agentspeak/action/builtin/collection/map/CKeys.java:72-88 | The action succeeds with one list: exactly the keys of any of the maps, sorted, without duplicates. |
| Collections.AllEqualTo | src/main/java/org/lightjason/agentspeak/action/builtin/bool/CAllMatch.java:74 | It holds iff every element equals the given one. |
| Collections.AllMatch | src/main/java/org/lightjason/agentspeak/action/builtin/bool/CAllMatch.java:65-80 | The action succeeds with one boolean: whether every value equals the first (true for no values). |
| Collections.AllMatchAtMostOneValue | src/main/java/org/lightjason/agentspeak/action/builtin/bool/CAllMatch.java:69-77 | The answer is true iff the arguments hold at most one distinct value. |
| RemovePlan.LiteralOf | src/main/java/org/lightjason/agentspeak/action/builtin/agent/CRemovePlan.java:94-106 | A literal value is used as is, a text is parsed, and anything else gives no literal. |
| RemovePlan.TriggerOf | src/main/java/org/lightjason/agentspeak/action/builtin/agent/CRemovePlan.java:80 | A non-text trigger name is a cast error and an unknown name an illegal-argument error. A success comes from a text naming that trigger type. |
| RemovePlan.RemoveOne | src/main/java/org/lightjason/agentspeak/action/builtin/agent/CRemovePlan.java:92-109 | Removal answers true iff a literal was obtained and plans exist for that trigger; it removes exactly those, and nothing otherwise. |
| RemovePlan.Process | src/main/java/org/lightjason/agentspeak/action/builtin/agent/CRemovePlan.java:76-80 | No pairs succeed without change. Whatever the outcome, including an error, the plans left are a sub-index of the old ones, and the only possible errors are those of reading the trigger type. |
| RemovePlan.Execute | src/main/java/org/lightjason/agentspeak/action/builtin/agent/CRemovePlan.java:75-81 | Fewer than two values remove nothing and succeed. Any run, including one aborted by an error, only removes entries and keeps the index valid. |
| RemovePlan.ProcessSucceeds | src/main/java/org/lightjason/agentspeak/action/builtin/agent/CRemovePlan.java:75-109 | The action answers true iff every pair in turn names plans still present; the index then lost exactly the named plans. |
| RemovePlan.LaterPairsUntouched | src/main/java/org/lightjason/agentspeak/action/builtin/agent/CRemovePlan.java:80 | `allMatch` short-circuits: once a pair answers false or throws, later pairs are never processed. |
| RemovePlan.ProcessAppend | src/main/java/org/lightjason/agentspeak/action/builtin/agent/CRemovePlan.java:80 | After pairs that all succeeded, the remaining pairs run on the plans those left. |
| RemovePlan.ErrorKeepsEarlierRemovals | src/main/java/org/lightjason/agentspeak/action/builtin/agent/CRemovePlan.java:80 | An unreadable trigger type after removable pairs aborts with its error, and the plans those pairs removed stay removed. |
| RemovePlan.SamePairTwiceFails | src/main/java/org/lightjason/agentspeak/action/builtin/agent/CRemovePlan.java:108 | Naming the same plans twice answers false, since the second removal finds nothing. |
| BlasType.Name | src/main/java/org/lightjason/agentspeak/action/builtin/math/blas/EType.java:39-40 | Every constant's name is a non-empty upper-case word. |
| BlasType.Trim | src/main/java/org/lightjason/agentspeak/action/builtin/math/blas/EType.java:55 | Trimming gives a slice with only blanks cut from both ends, and no blank at either end of the result. |
| BlasType.Upper | src/main/java/org/lightjason/agentspeak/action/builtin/math/blas/EType.java:55 | Upper-casing maps each ASCII lower-case letter to its upper-case letter and keeps every other character. |
| BlasType.Exists | src/main/java/org/lightjason/agentspeak/action/builtin/math/blas/EType.java:64-67 | A name exists iff its trimmed upper-case form is `SPARSE` or `DENSE`. |
| BlasType.From | src/main/java/org/lightjason/agentspeak/action/builtin/math/blas/EType.java:53-56 | Lookup succeeds iff the name exists, with the constant of that name; otherwise it is an illegal-argument error. |
| BlasType.FromName | src/main/java/org/lightjason/agentspeak/action/builtin/math/blas/EType.java:45-56 | Every constant is found under its own name, which exists. |
| BlasType.TrimAround | src/main/java/org/lightjason/agentspeak/action/builtin/math/blas/EType.java:55 | Blanks around a name are removed, and nothing else is. |
| BlasType.FromIgnoresBlanks | src/main/java/org/lightjason/agentspeak/action/builtin/math/blas/EType.java:53-56 | Blanks around a name do not change the lookup. |
| BlasType.FromCaseAndBlanks | src/main/java/org/lightjason/agentspeak/action/builtin/math/blas/EType.java:53-67 | Any name whose upper-case form is a constant's name, with blanks around it, exists and finds that constant. |

## Left out

- I/O, threads and the agent cycle are not modelled. Parallel streams run in list order; where the order could matter (`ParallelUnify`), any set's check error is reported.
- `CCommon`, `CPath`, the parser and the variable classes other than `CRelocateMutexVariable` are not part of this model. `CPath.from`, `toString` and every hash primitive are parameters of the abstract `Host`.
- `CLiteral.parse` and the literal parser are a parameter (`RemovePlan` takes `parse: string -> Option<Literal>`); a parse exception is `None`.
- Variables.ReplaceFromContext: `CCommon.replaceFromContext` is not shown; the model assumes it answers the context variable of the same name and fails with an illegal-argument error otherwise.
- `CLiteral.values(path)` and `orderedvalues(path)`, `compareTo`, `valueassignableto` and `throwvaluenotassignableto` of `CRawTerm`, and `toString` of the variables are not modelled; they are accessors or formatting.
- `variables()` of plans and of `IBaseInstantiable`, `instantiate`, and `CPlan.toString` are not modelled. They rely on `CCommon.flattenrecursive` and `CCommon.instantiate`, which are not shown.
- `CCommon.recursiveterm` is not shown; `Unifier.FlattenTerm` models it as the depth-first expansion of nested literals into their arguments.
- The belief base's value and annotation hashes (`valuehash`, `annotationhash`) belong to the older literal class, which is not shown. They are an abstract `BeliefHashes` parameter of `Unifier.UnifyExact`.
- The source's recursive unification step is an acknowledged stub returning an empty set per candidate; `Unifier.UnifyRecursive` reproduces the stub.
- The minimal argument numbers of the actions are checked by the action framework before `execute` runs and are not modelled.
- Variables.EvaluateLiteral: the template's `valueassignableto(ILiteral)` is modelled as "the template holds a literal value". An unallocated template therefore never takes the literal branch; `CVariable` is not part of this model.
- Unifier.UpdateContext: the context variable receives the bound term's raw value, where the source stores the term itself (`set(i.getTyped())`). The model's values cannot hold a term.
- Unifier.UpdateContext: a missing name gives only the null-pointer error, with no context. The source writes on a parallel stream, so which other writes happen before the exception is unspecified.
- Unifier.UpdateContextWrites: it states the raw value written, for the same reason as `Unifier.UpdateContext`.
- Unifier.BindingsFor: the query is zipped in its own argument order. The source zips `orderedvalues()` of a `deepcopy()` of the older literal class, which is not part of this model; that copy is assumed to keep argument order.
- HashUnify.Zip: `equals` of the older term class, which is not part of this model, is assumed to be hash equality.
- HashUnify.Add: variables of the older variable class, which is not part of this model, are assumed equal exactly when their names are equal.
- RemovePlan.TriggerOf: `ITrigger.EType.from`, which is not part of this model, is assumed to fail with an illegal-argument error on an unknown name.
- Metric.Collect: `equals` of the older literal class held in the source's `HashSet`, which is not part of this model, is assumed to be hash equality, so the set holds literal hashes.
- RemovePlan.KeyOf: `CTrigger.equals`, which is not part of this model, is assumed to identify a trigger by its type and its literal's hash, so plans are keyed by that pair.
- HashUnify.NoConsistencyCheck: each target position is assumed to hold its own variable object, as the query's deep copy gives. If one object sat at two positions, `set` would change it in place and the set would end holding the last value.
- Collections.SymmetricDifference, Collections.AllMatch: null list values are not modelled. The source fails with a null-pointer exception on them: the concurrent multiset rejects a null value, and `allmatch` calls `equals` on the first value.
- Collections.MapApplyMultiple: `CCommon.flatcollection`, which is not part of this model, is modelled like `CCommon.flatten`, expanding nested collections in order.
- Cloning (`Cloner().deepClone`) is the identity on values, because values are immutable in the model.
- The Java `Number` weight of a fuzzy value is modelled as a `real`.
- Collections.Keys: map keys are modelled as integers in their natural order; Java sorts any `Comparable` keys.
- BlasType.Upper, BlasType.Exists, BlasType.From: upper-casing is modelled on ASCII letters only, character by character. `toUpperCase` maps the rest of Unicode too and can change the length (`ß` becomes `SS`).
- `IMask` is an interface without code; the store is a reference model of its documented behaviour, with a mask payload left abstract.
- The metric is the `int` quotient before its conversion to `Double`, which is exact.
- The protonpack `windowed` helper is modelled as yielding full windows only.

## Findings

| source | as written | input that shows it | evidently intended | confidence | as-written member | corrected member |
|---|---|---|---|---|---|---|
| src/main/java/org/lightjason/agentspeak/action/builtin/collection/multimap/CCreate.java:78 | `windowed(values, 2)` uses the default step 1, so every two ADJACENT values form an entry | values `a, b, c, d` give the extra entry `(b, c)` | disjoint (key, value) pairs, as in `IMapApplyMultiple` | not executed | Collections.CreateMultimapAsWritten (counterexample: Collections.CreateMultimapOverlaps) | Collections.CreateMultimap |
| src/main/java/org/lightjason/agentspeak/language/CLiteral.java:456-471 | the copies rebuild their arguments from the functor-grouped multimap, which reorders them (`shallowcopy` at lines 417-430 does the same) | `f(1, 2, 1)` with argument functors `1`, `2`, `1` copies to `f(1, 1, 2)`, which hashes differently and so is not equal | the copy keeps argument order and equals its source | not executed | Literals.DeepCopy (counterexamples: Literals.DeepCopyNotEqual, and Literals.NestedDeepCopyNotEqual one level down) | Literals.DeepCopyOrdered |
| src/main/java/lightjason/agent/CUnifier.java:117-141 | the guarded selection falls back to the empty set, and an empty selection is read as "no match" | one belief equal to a ground query, 0 variables, a guard that always holds: the answer is false | the first set whose guard passes is committed, even an empty one | not executed | Unifier.SequentialUnifyAsWritten (counterexample: Unifier.GuardedZeroCountRejected) | Unifier.SequentialUnify |
| src/main/java/org/lightjason/agentspeak/language/variable/CRelocateMutexVariable.java:115-124 | `deepcopy(prefix)` appends the prefix after the name | name `x`, prefix `p` gives `x/p`, where `shallowcopy` gives `p/x` | the prefix goes in front, as in `shallowcopy` and `CLiteral.deepcopy` | not executed | Variables.DeepCopyAsWritten (counterexample: Variables.DeepCopyPrefixReversed) | Variables.DeepCopy |

=== FILE: blastype.dfy ===
/** The blas matrix storage type, `SPARSE` or `DENSE`, read from a name
    that may carry surrounding blanks and any letter case.

    `String.trim` drops leading and trailing characters up to U+0020;
    upper-casing is modelled on ASCII letters only.
 */
module BlasType {
  import opened Wrappers

  datatype EType = Sparse | Dense

  /** The constant's declared name. */
  function Name(t: EType): (r: string)
    ensures |r| > 0 && forall i :: 0 <= i < |r| ==> 'A' <= r[i] <= 'Z'
  {
    match t
    case Sparse => "SPARSE"
    case Dense => "DENSE"
  }

  /** The set of declared names. */
  const NAMES: set<string> := {Name(Sparse), Name(Dense)}

  predicate IsBlank(c: char) {
    c <= ' '
  }

  /** `String.trim`: blanks removed from both ends. */
  function Trim(s: string): (r: string)
    ensures |r| <= |s|
    ensures r != [] ==> !IsBlank(r[0]) && !IsBlank(r[|r| - 1])
    ensures exists i, j ::
              (&& 0 <= i <= j <= |s| && r == s[i..j]
               && (forall k :: 0 <= k < i ==> IsBlank(s[k]))
               && (forall k :: j <= k < |s| ==> IsBlank(s[k])))
  {
    var a := TrimStart(s);
    var r := TrimEnd(a);
    var i := |s| - |a|;
    assert r == s[i..i + |r|];
    assert forall k :: i + |r| <= k < |s| ==> s[k] == a[k - i];
    r
  }

  function TrimStart(s: string): (r: string)
    ensures |r| <= |s| && r == s[|s| - |r|..]
    ensures r != [] ==> !IsBlank(r[0])
    ensures forall k :: 0 <= k < |s| - |r| ==> IsBlank(s[k])
  {
    if s != [] && IsBlank(s[0]) then TrimStart(s[1..]) else s
  }

  function TrimEnd(s: string): (r: string)
    ensures |r| <= |s| && r == s[..|r|]
    ensures r != [] ==> !IsBlank(r[|r| - 1])
    ensures forall k :: |r| <= k < |s| ==> IsBlank(s[k])
  {
    if s != [] && IsBlank(s[|s| - 1]) then TrimEnd(s[..|s| - 1]) else s
  }

  function UpperChar(c: char): (r: char)
    ensures 'a' <= c <= 'z' ==> 'A' <= r <= 'Z' && r as int == c as int - ('a' as int - 'A' as int)
    ensures !('a' <= c <= 'z') ==> r == c
  {
    if 'a' <= c <= 'z' then (c as int - 32) as char else c
  }

  /** `toUpperCase(Locale.ROOT)` on ASCII letters. */
  function Upper(s: string): (r: string)
    ensures |r| == |s|
    ensures forall i :: 0 <= i < |s| ==> r[i] == UpperChar(s[i])
  {
    seq(|s|, i requires 0 <= i < |s| => UpperChar(s[i]))
  }

  /** The name a lookup actually compares. */
  function Normalise(s: string): string {
    Upper(Trim(s))
  }

  /** `exists(name)`: the normalised name is a declared one. */
  function Exists(s: string): (r: bool)
    ensures r <==> Normalise(s) == "SPARSE" || Normalise(s) == "DENSE"
  {
    Normalise(s) in NAMES
  }

  /** `from(name)`: the constant with the normalised name; `valueOf` throws
      `IllegalArgumentException` for any other name. */
  function From(s: string): (r: Result<EType>)
    ensures r.Ok? <==> Exists(s)
    ensures r.Ok? ==> Name(r.value) == Normalise(s)
    ensures r.Err? ==> r.error == IllegalArgument
  {
    var n := Normalise(s);
    if n == Name(Sparse) then Ok(Sparse)
    else if n == Name(Dense) then Ok(Dense)
    else Err(IllegalArgument)
  }

  /** A name with no blanks at its ends is its own trim. */
  lemma TrimUnblanked(s: string)
    requires s != [] ==> !IsBlank(s[0]) && !IsBlank(s[|s| - 1])
    ensures Trim(s) == s
  {
  }

  /** Upper case is left alone. */
  lemma UpperOfUpper(s: string)
    requires forall i :: 0 <= i < |s| ==> 'A' <= s[i] <= 'Z'
    ensures Upper(s) == s
  {
  }

  /** Every constant is found under its own name. */
  lemma {:induction false} FromName(t: EType)
    ensures From(Name(t)) == Ok(t)
    ensures Exists(Name(t))
  {
    TrimUnblanked(Name(t));
    UpperOfUpper(Name(t));
  }

  /** Distinct constants have distinct names. */
  lemma NameInjective(t: EType, u: EType)
    requires Name(t) == Name(u)
    ensures t == u
  {
  }

  /** Blanks around a name are trimmed away, and nothing else. */
  lemma {:induction false} TrimAround(pre: string, s: string, post: string)
    requires forall k :: 0 <= k < |pre| ==> IsBlank(pre[k])
    requires forall k :: 0 <= k < |post| ==> IsBlank(post[k])
    requires s != [] && !IsBlank(s[0]) && !IsBlank(s[|s| - 1])
    ensures Trim(pre + s + post) == s
  {
    assert pre + s + post == pre + (s + post);
    TrimStartBlanks(pre, s + post);
    TrimEndBlanks(s, post);
  }

  /** A name with blanks around it is found as the bare name. */
  lemma {:induction false} FromIgnoresBlanks(pre: string, s: string, post: string)
    requires forall k :: 0 <= k < |pre| ==> IsBlank(pre[k])
    requires forall k :: 0 <= k < |post| ==> IsBlank(post[k])
    requires s != [] && !IsBlank(s[0]) && !IsBlank(s[|s| - 1])
    ensures From(pre + s + post) == From(s)
  {
    TrimAround(pre, s, post);
    TrimUnblanked(s);
    assert Normalise(pre + s + post) == Normalise(s);
  }

  lemma {:induction false} TrimStartBlanks(pre: string, s: string)
    requires forall k :: 0 <= k < |pre| ==> IsBlank(pre[k])
    requires s != [] ==> !IsBlank(s[0])
    ensures TrimStart(pre + s) == s
    decreases |pre|
  {
    if pre != [] {
      assert (pre + s)[1..] == pre[1..] + s;
      TrimStartBlanks(pre[1..], s);
    } else {
      assert pre + s == s;
    }
  }

  lemma {:induction false} TrimEndBlanks(s: string, post: string)
    requires forall k :: 0 <= k < |post| ==> IsBlank(post[k])
    requires s != [] ==> !IsBlank(s[|s| - 1])
    ensures TrimEnd(s + post) == s
    decreases |post|
  {
    if post != [] {
      var p := post[..|post| - 1];
      assert (s + post)[..|s + post| - 1] == s + p;
      TrimEndBlanks(s, p);
    } else {
      assert s + post == s;
    }
  }

  /** A blank-free name whose upper-case form is a constant's name finds
      that constant. */
  lemma {:induction false} FromUpperForm(s: string, t: EType)
    requires s != [] && !IsBlank(s[0]) && !IsBlank(s[|s| - 1])
    requires |s| == |Name(t)| && forall i :: 0 <= i < |s| ==> UpperChar(s[i]) == Name(t)[i]
    ensures From(s) == Ok(t)
  {
    TrimUnblanked(s);
    assert Upper(s) == Name(t);
  }

  /** Letter case and surrounding blanks do not matter: any name whose
      upper-case form is a constant's name, with blanks around it, finds
      that constant. */
  lemma {:induction false} FromCaseAndBlanks(pre: string, s: string, post: string, t: EType)
    requires forall k :: 0 <= k < |pre| ==> IsBlank(pre[k])
    requires forall k :: 0 <= k < |post| ==> IsBlank(post[k])
    requires s != [] && !IsBlank(s[0]) && !IsBlank(s[|s| - 1])
    requires |s| == |Name(t)| && forall i :: 0 <= i < |s| ==> UpperChar(s[i]) == Name(t)[i]
    ensures From(pre + s + post) == Ok(t)
    ensures Exists(pre + s + post)
  {
    FromIgnoresBlanks(pre, s, post);
    FromUpperForm(s, t);
  }
}

=== FILE: collections.dfy ===
/** The collection actions: symmetric difference of lists, multimap
    creation, applying key/value pairs to one map, the sorted keys of maps,
    and the all-equal test.

    Action arguments are terms that may hold nested collections, which the
    actions flatten first; values are compared with `equals`, modelled as
    equality of the raw values. An action reports success and the values it
    appends to its return list.
 */
module Collections {

  /** An action argument: a single value or a collection of arguments. */
  datatype Arg<T> = Item(value: T) | Many(items: seq<Arg<T>>)

  /** What an action reports: its success flag and the values it appended. */
  datatype Outcome<R> = Outcome(success: bool, returned: seq<R>)

  /** The values of one argument, nested collections expanded in order. */
  function FlattenArg<T>(a: Arg<T>): seq<T>
    decreases a, 0
  {
    match a
    case Item(v) => [v]
    case Many(xs) => Flatten(xs)
  }

  /** `CCommon.flatten`: the values of all arguments, in order. */
  function Flatten<T>(args: seq<Arg<T>>): seq<T>
    decreases args, 1
  {
    if args == [] then [] else FlattenArg(args[0]) + Flatten(args[1..])
  }

  /** Flattening plain values gives the values back. */
  lemma {:induction false} FlattenItems<T>(vs: seq<T>)
    ensures Flatten(seq(|vs|, i requires 0 <= i < |vs| => Item(vs[i]))) == vs
    decreases |vs|
  {
    var args := seq(|vs|, i requires 0 <= i < |vs| => Item(vs[i]));
    if vs != [] {
      assert args[1..] == seq(|vs[1..]|, i requires 0 <= i < |vs[1..]| => Item(vs[1..][i]));
      FlattenItems(vs[1..]);
      assert vs == [vs[0]] + vs[1..];
    }
  }

  // --- windows -----------------------------------------------------------------------------------

  /** `StreamUtils.windowed(s, size, step)`: the full windows of `size`
      consecutive elements, starting at 0, `step`, `2 * step`, … as long as
      a whole window fits. */
  function Windowed<T>(s: seq<T>, size: nat, step: nat): (r: seq<seq<T>>)
    requires size > 0 && step > 0
    ensures forall j: nat :: j < |r| <==> j * step + size <= |s|
    ensures forall j :: 0 <= j < |r| ==> |r[j]| == size && r[j] == s[j * step .. j * step + size]
  {
    var n := if |s| < size then 0 else (|s| - size) / step + 1;
    forall j: nat ensures j < n <==> j * step + size <= |s| {
      if |s| >= size {
        DivBound(|s| - size, step, j);
      }
    }
    seq(n, j requires 0 <= j < n => s[j * step .. j * step + size])
  }

  /** `j` is at most `a / step` exactly when `j * step` is at most `a`. */
  lemma DivBound(a: nat, step: nat, j: nat)
    requires step > 0
    ensures j <= a / step <==> j * step <= a
  {
    var q := a / step;
    assert a == q * step + a % step;
    if j <= q {
      MulLe(j, q, step);
    } else {
      MulLe(q + 1, j, step);
    }
  }

  lemma MulLe(x: nat, y: nat, z: nat)
    requires x <= y
    ensures x * z <= y * z
  {
  }

  lemma ShiftStep(j: int, step: int)
    ensures (j + 1) * step == j * step + step
  {
  }

  /** Dropping the first `step` elements drops exactly one window. */
  lemma WindowedShiftLength<T>(s: seq<T>, size: nat, step: nat)
    requires size > 0 && step > 0 && |s| >= size && |s| >= step
    ensures |Windowed(s, size, step)| == |Windowed(s[step..], size, step)| + 1
  {
    var n := |Windowed(s[step..], size, step)|;
    WindowFits(s, size, step, n);
    WindowFits(s, size, step, n + 1);
    WindowFits(s[step..], size, step, n);
    ShiftStep(n, step);
    if n > 0 {
      WindowFits(s[step..], size, step, n - 1);
      ShiftStep(n - 1, step);
    }
  }

  /** Window `j` exists exactly when it fits. */
  lemma WindowFits<T>(s: seq<T>, size: nat, step: nat, j: nat)
    requires size > 0 && step > 0
    ensures j < |Windowed(s, size, step)| <==> j * step + size <= |s|
  {
  }

  /** The windows after the first are those of the sequence without its
      first `step` elements. */
  lemma WindowedShift<T>(s: seq<T>, size: nat, step: nat)
    requires size > 0 && step > 0 && |s| >= size && |s| >= step
    ensures Windowed(s, size, step) == [s[..size]] + Windowed(s[step..], size, step)
  {
    var w, v := Windowed(s, size, step), Windowed(s[step..], size, step);
    WindowedShiftLength(s, size, step);
    forall j | 0 <= j < |v| ensures w[j + 1] == v[j] {
      ShiftStep(j, step);
    }
    assert w[0] == s[..size] by {
      assert 0 * step == 0;
    }
    assert w == [w[0]] + w[1..];
  }

  /** The concatenation of windows. */
  function Concat<T>(ws: seq<seq<T>>): seq<T> {
    if ws == [] then [] else ws[0] + Concat(ws[1..])
  }

  /** Disjoint pairs of an even-length sequence put back together give the
      sequence. */
  lemma {:induction false} PairsRoundTrip<T>(s: seq<T>)
    requires |s| % 2 == 0
    ensures Concat(Windowed(s, 2, 2)) == s
    decreases |s|
  {
    if |s| >= 2 {
      PairsRoundTrip(s[2..]);
      var w := Windowed(s, 2, 2);
      WindowedShift(s, 2, 2);
      assert w[1..] == Windowed(s[2..], 2, 2);
      assert s == s[..2] + s[2..];
    }
  }

  // --- symmetric difference ----------------------------------------------------------------------

  ghost predicate Distinct<T>(s: seq<T>) {
    forall i, j :: 0 <= i < j < |s| ==> s[i] != s[j]
  }

  predicate SortedBy<T>(key: T -> int, s: seq<T>) {
    forall i, j :: 0 <= i < j < |s| ==> key(s[i]) <= key(s[j])
  }

  /** `x` placed before the first element with a larger key. */
  function InsertBy<T>(key: T -> int, x: T, s: seq<T>): (r: seq<T>)
    requires SortedBy(key, s)
    ensures SortedBy(key, r)
    ensures multiset(r) == multiset(s) + multiset{x}
  {
    if s == [] || key(x) <= key(s[0]) then [x] + s
    else
      var rest := InsertBy(key, x, s[1..]);
      assert s == [s[0]] + s[1..];
      forall i | 0 <= i < |rest| ensures key(s[0]) <= key(rest[i]) {
        assert rest[i] in multiset(rest);
        if rest[i] != x {
          assert rest[i] in multiset(s[1..]);
          var k :| 0 <= k < |s[1..]| && s[1..][k] == rest[i];
          assert s[k + 1] == rest[i];
        }
      }
      SortedCons(key, s[0], rest);
      [s[0]] + rest
  }

  /** A sorted sequence stays sorted under a new least element. */
  lemma SortedCons<T>(key: T -> int, a: T, rest: seq<T>)
    requires SortedBy(key, rest)
    requires forall i :: 0 <= i < |rest| ==> key(a) <= key(rest[i])
    ensures SortedBy(key, [a] + rest)
  {
    var r := [a] + rest;
    forall i, j | 0 <= i < j < |r| ensures key(r[i]) <= key(r[j]) {
      assert r[j] == rest[j - 1];
      if i > 0 { assert r[i] == rest[i - 1]; }
    }
  }

  /** Insertion sort by key: the same elements, ordered by key. */
  function SortBy<T>(key: T -> int, s: seq<T>): (r: seq<T>)
    ensures SortedBy(key, r)
    ensures multiset(r) == multiset(s)
  {
    if s == [] then []
    else
      assert s == [s[0]] + s[1..];
      InsertBy(key, s[0], SortBy(key, s[1..]))
  }

  /** Sorting keeps a sequence free of duplicates. */
  lemma SortByDistinct<T>(key: T -> int, s: seq<T>)
    requires Distinct(s)
    ensures Distinct(SortBy(key, s))
  {
    var r := SortBy(key, s);
    forall i, j | 0 <= i < j < |r| ensures r[i] != r[j] {
      if r[i] == r[j] {
        TwoOccurrences(r, i, j);
        DistinctCount(s, r[i]);
      }
    }
  }

  /** Two positions holding the same value count it twice. */
  lemma TwoOccurrences<T>(r: seq<T>, i: nat, j: nat)
    requires i < j < |r| && r[i] == r[j]
    ensures multiset(r)[r[i]] >= 2
  {
    assert r == r[..i] + [r[i]] + r[i + 1..j] + [r[j]] + r[j + 1..];
  }

  /** An element of a sequence without duplicates occurs at most once. */
  lemma {:induction false} DistinctCount<T>(s: seq<T>, x: T)
    requires Distinct(s)
    ensures multiset(s)[x] <= 1
  {
    if s != [] {
      assert s == [s[0]] + s[1..];
      DistinctCount(s[1..], x);
      if s[0] == x {
        assert x !in s[1..];
      }
    }
  }

  /** Taking one position out of a distinct sequence removes exactly its
      value. */
  lemma RemoveAt<T>(r: seq<T>, k: nat)
    requires Distinct(r) && k < |r|
    ensures Distinct(r[..k] + r[k + 1..])
    ensures forall y :: y in r[..k] + r[k + 1..] <==> y in r && y != r[k]
  {
    var q := r[..k] + r[k + 1..];
    assert forall i :: 0 <= i < |q| ==> q[i] == if i < k then r[i] else r[i + 1];
    assert r == r[..k] + [r[k]] + r[k + 1..];
  }

  /** The elements occurring an odd number of times, each once, in the
      order in which their count last became odd. */
  method OddOccurrences<T(==)>(s: seq<T>) returns (r: seq<T>)
    ensures Distinct(r)
    ensures forall x :: x in r <==> multiset(s)[x] % 2 == 1
  {
    r := [];
    var i := 0;
    while i < |s|
      invariant 0 <= i <= |s|
      invariant Distinct(r)
      invariant forall x :: x in r <==> multiset(s[..i])[x] % 2 == 1
    {
      var x := s[i];
      assert s[..i + 1] == s[..i] + [x];
      if x in r {
        var k :| 0 <= k < |r| && r[k] == x;
        RemoveAt(r, k);
        r := r[..k] + r[k + 1..];
      } else {
        r := r + [x];
      }
      i := i + 1;
    }
    assert s[..i] == s;
  }

  /** CSymmetricDifference: the flattened values occurring an odd number of
      times, each once, sorted by hash code; one list is appended and the
      action succeeds. */
  method SymmetricDifference<T(==)>(hash: T -> int, args: seq<Arg<T>>) returns (o: Outcome<seq<T>>)
    ensures o.success && |o.returned| == 1
    ensures forall x :: x in o.returned[0] <==> multiset(Flatten(args))[x] % 2 == 1
    ensures Distinct(o.returned[0]) && SortedBy(hash, o.returned[0])
  {
    var odd := OddOccurrences(Flatten(args));
    var sorted := SortBy(hash, odd);
    SortByDistinct(hash, odd);
    assert forall x :: x in sorted <==> x in multiset(odd);
    o := Outcome(true, [sorted]);
  }

  /** For two lists without duplicates, a value is in the symmetric
      difference exactly when it is in one of them and not the other. */
  lemma SymmetricDifferenceOfTwoSets<T>(a: seq<T>, b: seq<T>, x: T)
    requires Distinct(a) && Distinct(b)
    ensures multiset(a + b)[x] % 2 == 1 <==> (x in a) != (x in b)
  {
    DistinctCount(a, x);
    DistinctCount(b, x);
    assert multiset(a + b) == multiset(a) + multiset(b);
  }

  // --- multimap creation -------------------------------------------------------------------------

  /** The entries of a multimap built from windows of two; duplicate
      entries collapse, as in a set-multimap. */
  function Entries<T(==)>(pairs: seq<seq<T>>): (r: set<(T, T)>)
    requires forall w :: w in pairs ==> |w| == 2
    ensures forall w :: w in pairs ==> (w[0], w[1]) in r
    ensures forall e :: e in r ==> exists w :: w in pairs && e == (w[0], w[1])
  {
    set w | w in pairs :: (w[0], w[1])
  }

  /** The entries made of the values at positions `i * step` and
      `i * step + 1`, for every window of two that fits. */
  ghost function PairsAt<T>(l: seq<T>, step: nat): set<(T, T)>
    requires step > 0
  {
    set i: nat | i < |l| && i * step + 2 <= |l| :: (l[i * step], l[i * step + 1])
  }

  /** The entries of the windows of two with a step are the pairs at the
      window starts. */
  lemma EntriesOfWindows<T>(l: seq<T>, step: nat)
    requires step > 0
    ensures Entries(Windowed(l, 2, step)) == PairsAt(l, step)
  {
    PairsAtInEntries(l, step);
    EntriesInPairsAt(l, step);
  }

  lemma PairsAtInEntries<T>(l: seq<T>, step: nat)
    requires step > 0
    ensures PairsAt(l, step) <= Entries(Windowed(l, 2, step))
  {
    var ws := Windowed(l, 2, step);
    forall e | e in PairsAt(l, step) ensures e in Entries(ws) {
      var i: nat :| i < |l| && i * step + 2 <= |l| && e == (l[i * step], l[i * step + 1]);
      assert i < |ws|;
      var w := ws[i];
      assert w == l[i * step .. i * step + 2];
      assert w in ws && e == (w[0], w[1]);
    }
  }

  lemma EntriesInPairsAt<T>(l: seq<T>, step: nat)
    requires step > 0
    ensures Entries(Windowed(l, 2, step)) <= PairsAt(l, step)
  {
    var ws := Windowed(l, 2, step);
    forall i | 0 <= i < |ws| ensures (ws[i][0], ws[i][1]) in PairsAt(l, step) {
      WindowInPairsAt(l, step, i);
    }
    forall e | e in Entries(ws) ensures e in PairsAt(l, step) {
      var w :| w in ws && e == (w[0], w[1]);
      var i :| 0 <= i < |ws| && ws[i] == w;
    }
  }

  lemma WindowInPairsAt<T>(l: seq<T>, step: nat, i: nat)
    requires step > 0 && i < |Windowed(l, 2, step)|
    ensures var w := Windowed(l, 2, step)[i]; (w[0], w[1]) in PairsAt(l, step)
  {
    var k := i * step;
    assert k + 2 <= |l|;
    assert i <= k by {
      MulLe(1, step, i);
    }
    var w := Windowed(l, 2, step)[i];
    assert w == l[k .. k + 2];
    assert (l[i * step], l[i * step + 1]) in PairsAt(l, step);
  }

  /** multimap CCreate as written: an odd, non-zero number of values fails;
      otherwise every two ADJACENT values form an entry, because the window
      is taken with the library's default step of 1. */
  function CreateMultimapAsWritten<T(==)>(args: seq<Arg<T>>): (o: Outcome<set<(T, T)>>)
    ensures var l := Flatten(args);
            && (o.success <==> |l| % 2 == 0)
            && |o.returned| == (if o.success then 1 else 0)
            && (o.success ==> o.returned[0] == PairsAt(l, 1))
  {
    var l := Flatten(args);
    if |l| > 0 && |l| % 2 == 1 then Outcome(false, [])
    else
      EntriesOfWindows(l, 1);
      Outcome(true, [Entries(Windowed(l, 2, 1))])
  }

  /** multimap CCreate with disjoint pairs: the value at `2 * i` is the key
      and the one at `2 * i + 1` the value of entry `i`. */
  function CreateMultimap<T(==)>(args: seq<Arg<T>>): (o: Outcome<set<(T, T)>>)
    ensures var l := Flatten(args);
            && (o.success <==> |l| % 2 == 0)
            && |o.returned| == (if o.success then 1 else 0)
            && (o.success ==> o.returned[0] == PairsAt(l, 2))
  {
    var l := Flatten(args);
    if |l| % 2 == 1 then Outcome(false, [])
    else
      EntriesOfWindows(l, 2);
      Outcome(true, [Entries(Windowed(l, 2, 2))])
  }

  /** `a, b, c, d`: the adjacent windows add the entry `(b, c)`, which pairs
      the first entry's value with the second entry's key. */
  lemma CreateMultimapOverlaps<T>(a: T, b: T, c: T, d: T)
    ensures var args := [Item(a), Item(b), Item(c), Item(d)];
            && CreateMultimapAsWritten(args).success
            && (b, c) in CreateMultimapAsWritten(args).returned[0]
            && CreateMultimap(args).success
            && (b != c ==> (b, c) !in CreateMultimap(args).returned[0])
  {
    var args := [Item(a), Item(b), Item(c), Item(d)];
    var l := [a, b, c, d];
    assert Flatten(args) == l by {
      FlattenItems(l);
      assert args == seq(4, i requires 0 <= i < 4 => Item(l[i]));
    }
    assert (l[1 * 1], l[1 * 1 + 1]) in PairsAt(l, 1);
    if b != c {
      forall i: nat | i * 2 + 2 <= |l| ensures (l[i * 2], l[i * 2 + 1]) != (b, c) {
        assert i == 0 || i == 1;
      }
    }
  }

  // --- map apply ---------------------------------------------------------------------------------

  /** IMapApplyMultiple: an even number of values fails without applying
      anything; otherwise the first value is the target and the rest are
      disjoint (key, value) pairs, applied in order. The result lists the
      `apply(target, key, value)` calls made. */
  function MapApplyMultiple<T>(args: seq<Arg<T>>): (r: (bool, seq<(T, T, T)>))
    ensures var l := Flatten(args);
            && (r.0 <==> |l| % 2 == 1)
            && |r.1| == (if r.0 then (|l| - 1) / 2 else 0)
            && forall i :: 0 <= i < |r.1| ==> r.1[i] == (l[0], l[2 * i + 1], l[2 * i + 2])
  {
    var l := Flatten(args);
    if |l| % 2 == 0 then (false, [])
    else
      var ws := Windowed(l[1..], 2, 2);
      assert |ws| == (|l| - 1) / 2 by {
        var n := (|l| - 1) / 2;
        assert n * 2 + 2 > |l[1..]|;
        assert (n - 1) * 2 + 2 <= |l[1..]|;
      }
      (true, seq(|ws|, i requires 0 <= i < |ws| => (l[0], ws[i][0], ws[i][1])))
  }

  /** The keys and values applied, put back in order, are the values after
      the target. */
  lemma MapApplyRoundTrip<T>(args: seq<Arg<T>>)
    requires |Flatten(args)| % 2 == 1
    ensures var calls := MapApplyMultiple(args).1;
            Concat(seq(|calls|, i requires 0 <= i < |calls| => [calls[i].1, calls[i].2])) == Flatten(args)[1..]
  {
    var l := Flatten(args);
    var calls := MapApplyMultiple(args).1;
    var ws := Windowed(l[1..], 2, 2);
    PairsRoundTrip(l[1..]);
    var pairs := seq(|calls|, i requires 0 <= i < |calls| => [calls[i].1, calls[i].2]);
    assert |ws| == |calls| by {
      var n := (|l| - 1) / 2;
      assert n * 2 + 2 > |l[1..]|;
      assert (n - 1) * 2 + 2 <= |l[1..]|;
    }
    forall i | 0 <= i < |ws| ensures pairs[i] == ws[i] {
      assert ws[i] == l[1..][i * 2 .. i * 2 + 2];
    }
    assert pairs == ws;
  }

  // --- keys --------------------------------------------------------------------------------------

  predicate StrictlyIncreasing(s: seq<int>) {
    forall i, j :: 0 <= i < j < |s| ==> s[i] < s[j]
  }

  /** `x` inserted into a strictly increasing sequence, unless present. */
  function InsertUnique(x: int, s: seq<int>): (r: seq<int>)
    requires StrictlyIncreasing(s)
    ensures StrictlyIncreasing(r)
    ensures forall y :: y in r <==> y == x || y in s
  {
    if s == [] || x < s[0] then [x] + s
    else if x == s[0] then s
    else
      var rest := InsertUnique(x, s[1..]);
      assert s == [s[0]] + s[1..];
      assert forall y :: y in [s[0]] + rest <==> y == s[0] || y in rest;
      forall i | 0 <= i < |rest| ensures s[0] < rest[i] {
        assert rest[i] in rest;
        if rest[i] != x {
          var k :| 0 <= k < |s[1..]| && s[1..][k] == rest[i];
          assert s[k + 1] == rest[i];
        }
      }
      IncreasingCons(s[0], rest);
      [s[0]] + rest
  }

  /** A strictly increasing sequence stays so under a new least element. */
  lemma IncreasingCons(a: int, rest: seq<int>)
    requires StrictlyIncreasing(rest)
    requires forall i :: 0 <= i < |rest| ==> a < rest[i]
    ensures StrictlyIncreasing([a] + rest)
  {
    var r := [a] + rest;
    forall i, j | 0 <= i < j < |r| ensures r[i] < r[j] {
      assert r[j] == rest[j - 1];
      if i > 0 { assert r[i] == rest[i - 1]; }
    }
  }

  /** CKeys: the keys of all argument maps (maps are not flattened),
      ascending and without duplicates; one list is appended and the action
      succeeds. */
  method Keys<V>(maps: seq<map<int, V>>) returns (o: Outcome<seq<int>>)
    ensures o.success && |o.returned| == 1
    ensures forall k :: k in o.returned[0] <==> exists i :: 0 <= i < |maps| && k in maps[i]
    ensures StrictlyIncreasing(o.returned[0])
  {
    var all: set<int> := {};
    var i := 0;
    while i < |maps|
      invariant 0 <= i <= |maps|
      invariant forall k :: k in all <==> exists j :: 0 <= j < i && k in maps[j]
    {
      all := all + maps[i].Keys;
      i := i + 1;
    }
    var r := SortedDistinct(all);
    o := Outcome(true, [r]);
  }

  /** The elements of a set of integers in ascending order. */
  method SortedDistinct(all: set<int>) returns (r: seq<int>)
    ensures StrictlyIncreasing(r)
    ensures forall k :: k in r <==> k in all
  {
    r := [];
    var rest := all;
    while rest != {}
      invariant StrictlyIncreasing(r)
      invariant rest <= all
      invariant forall k :: k in all <==> k in rest || k in r
      decreases |rest|
    {
      NonEmptyHasElement(rest);
      var x :| x in rest;
      r := InsertUnique(x, r);
      rest := rest - {x};
    }
  }

  lemma NonEmptyHasElement(s: set<int>)
    requires s != {}
    ensures exists x :: x in s
  {
    if forall x :: x !in s {
      assert false;
    }
  }

  // --- all match ---------------------------------------------------------------------------------

  /** Every value of `s` equals `x`, tested in order with short-circuit. */
  function AllEqualTo<T(==)>(x: T, s: seq<T>): (r: bool)
    ensures r <==> forall i :: 0 <= i < |s| ==> s[i] == x
  {
    assert forall i :: 1 <= i < |s| ==> s[i] == s[1..][i - 1];
    if s == [] then true else s[0] == x && AllEqualTo(x, s[1..])
  }

  /** CAllMatch: one boolean is appended, true exactly when every flattened
      value after the first equals the first (so a single value, or none,
      gives true); the action succeeds. */
  function AllMatch<T(==)>(args: seq<Arg<T>>): (o: Outcome<bool>)
    ensures o.success && |o.returned| == 1
    ensures var l := Flatten(args);
            o.returned[0] <==> forall i :: 1 <= i < |l| ==> l[i] == l[0]
  {
    var l := Flatten(args);
    var r := l == [] || AllEqualTo(l[0], l[1..]);
    assert r <==> forall i :: 1 <= i < |l| ==> l[i] == l[0] by {
      if l != [] {
        if r {
          forall i | 1 <= i < |l| ensures l[i] == l[0] {
            assert l[i] == l[1..][i - 1];
          }
        } else {
          var i :| 0 <= i < |l| - 1 && l[1..][i] != l[0];
          assert l[i + 1] != l[0];
        }
      }
    }
    Outcome(true, [r])
  }

  /** All values match exactly when the arguments hold at most one distinct
      value. */
  lemma AllMatchAtMostOneValue<T>(args: seq<Arg<T>>)
    ensures var l := Flatten(args);
            AllMatch(args).returned[0] <==> |set x | x in l| <= 1
  {
    var l := Flatten(args);
    var vals := set x | x in l;
    if l != [] {
      if AllMatch(args).returned[0] {
        assert vals == {l[0]};
      } else {
        var i :| 1 <= i < |l| && l[i] != l[0];
        assert {l[0], l[i]} <= vals;
        assert |{l[0], l[i]}| == 2;
        SubsetCard({l[0], l[i]}, vals);
      }
    } else {
      assert vals == {};
    }
  }

  lemma SubsetCard<T>(a: set<T>, b: set<T>)
    requires a <= b
    ensures |a| <= |b|
  {
    assert b == a + (b - a);
  }
}

=== FILE: fuzzy.dfy ===
/** EBoolean, the two-valued fuzzy set: its constants, their native value,
    and the fuzzy values it produces. */
module Fuzzy {

  /** The two constants. */
  datatype EBoolean = True | False

  /** A fuzzy value: an element of the set with a membership weight. */
  datatype FuzzyValue = FuzzyValue(element: EBoolean, weight: real)

  /** `raw()`: the native boolean of a constant. */
  function Raw(e: EBoolean): (r: bool)
    ensures r <==> e == True
  {
    e.True?
  }

  /** `value()` of a fuzzy value. */
  function Value(v: FuzzyValue): EBoolean {
    v.element
  }

  /** `fuzzy()` of a fuzzy value. */
  function Weight(v: FuzzyValue): real {
    v.weight
  }

  /** `success()`: `apply(TRUE, 1)`, one value, TRUE with full weight, for
      either constant. */
  function Success(self: EBoolean): (r: seq<FuzzyValue>)
    ensures |r| == 1 && Value(r[0]) == True && Weight(r[0]) == 1.0
    ensures Raw(Value(r[0]))
  {
    [FuzzyValue(True, 1.0)]
  }

  /** `fail()`: `apply(FALSE, 1)`, one value, FALSE with full weight, for
      either constant. */
  function Fail(self: EBoolean): (r: seq<FuzzyValue>)
    ensures |r| == 1 && Value(r[0]) == False && Weight(r[0]) == 1.0
    ensures !Raw(Value(r[0]))
  {
    [FuzzyValue(False, 1.0)]
  }

  /** Success and failure do not depend on the receiving constant and never
      agree. */
  lemma SuccessFailReceiverIndependent(a: EBoolean, b: EBoolean)
    ensures Success(a) == Success(b) && Fail(a) == Fail(b)
    ensures Success(a) != Fail(b)
  {
    assert Success(a)[0].element != Fail(b)[0].element;
  }
}

=== FILE: hashunify.dfy ===
/** The positional zip matcher of the unifier (`unify/CHash` and the
    private `unifyexact(target, source)` of `CUnifier`).

    A query ("target") sequence holding variables is zipped with a source
    sequence. A target variable is set to the paired source term and the
    variable is added to a result set; any other target term must be equal
    to the paired source term. The zip stops at the shorter sequence, and
    `allMatch` stops at the first mismatch.
 */
module HashUnify {
  import opened Wrappers
  import opened Terms

  /** A variable set to a term: the result of `variable.set(term)`. */
  datatype Binding = Binding(name: Path, value: Term)

  /** Target position `i` matches its source term. */
  predicate Matches(h: Host, s: Term, t: Term) {
    t.Var? || TermEquals(h, s, t)
  }

  /** The binding a target variable at a zipped position produces. */
  function BindingAt(s: Term, t: Term): Binding
    requires t.Var?
  {
    Binding(t.variable.name, s)
  }

  /** Reference definition: the bindings of ALL zipped positions whose
      target is a variable, in order. */
  function AllBindings(source: seq<Term>, target: seq<Term>): (r: seq<Binding>)
    ensures |r| <= |source| && |r| <= |target|
  {
    if source == [] || target == [] then []
    else (if target[0].Var? then [BindingAt(source[0], target[0])] else [])
         + AllBindings(source[1..], target[1..])
  }

  /** Zipped length: the shorter of the two. */
  function ZipLength(source: seq<Term>, target: seq<Term>): nat {
    if |source| < |target| then |source| else |target|
  }

  /** The zip with short-circuiting `allMatch`: whether every zipped
      position matched, and the bindings made until the first mismatch. */
  function Zip(h: Host, source: seq<Term>, target: seq<Term>): (r: (bool, seq<Binding>))
    ensures r.0 <==> forall i :: 0 <= i < ZipLength(source, target) ==> Matches(h, source[i], target[i])
    ensures r.0 ==> r.1 == AllBindings(source, target)
    ensures |r.1| <= ZipLength(source, target)
  {
    if source == [] || target == [] then (true, [])
    else if !Matches(h, source[0], target[0]) then (false, [])
    else
      var rest := Zip(h, source[1..], target[1..]);
      assert forall i :: 1 <= i < ZipLength(source, target) ==>
        source[i] == source[1..][i - 1] && target[i] == target[1..][i - 1];
      (rest.0, (if target[0].Var? then [BindingAt(source[0], target[0])] else []) + rest.1)
  }

  /** Whatever the outcome, the bindings made are a prefix of the bindings
      of all positions: failure keeps those made before the mismatch. */
  lemma {:induction false} ZipBindingsPrefix(h: Host, source: seq<Term>, target: seq<Term>)
    ensures Zip(h, source, target).1 <= AllBindings(source, target)
    decreases |source|
  {
    if source != [] && target != [] && Matches(h, source[0], target[0]) {
      ZipBindingsPrefix(h, source[1..], target[1..]);
    }
  }

  /** A failing zip keeps exactly the bindings of the target variables
      before the first mismatch `k`. */
  lemma {:induction false} ZipFailureKeepsEarlierBindings(h: Host, source: seq<Term>, target: seq<Term>, k: nat)
    requires k < ZipLength(source, target)
    requires !Matches(h, source[k], target[k])
    requires forall i :: 0 <= i < k ==> Matches(h, source[i], target[i])
    ensures !Zip(h, source, target).0
    ensures Zip(h, source, target).1 == AllBindings(source[..k], target[..k])
    decreases k
  {
    if k > 0 {
      assert source[1..][..k - 1] == source[1..k] && target[1..][..k - 1] == target[1..k];
      ZipFailureKeepsEarlierBindings(h, source[1..], target[1..], k - 1);
      assert source[..k][1..] == source[1..k] && target[..k][1..] == target[1..k];
    }
  }

  // --- the result set -----------------------------------------------------------------------------

  /** A set of variables: variables are equal by name, so no two members
      share a name. */
  predicate DistinctNames(s: seq<Binding>) {
    forall i, j :: 0 <= i < j < |s| ==> s[i].name != s[j].name
  }

  predicate HasName(s: seq<Binding>, n: Path) {
    exists i :: 0 <= i < |s| && s[i].name == n
  }

  /** The value of the first binding of a name, if any: the value a set of
      variables holds for that name. */
  function Lookup(s: seq<Binding>, n: Path): Option<Term> {
    if s == [] then None
    else if s[0].name == n then Some(s[0].value)
    else Lookup(s[1..], n)
  }

  lemma {:induction false} LookupFound(s: seq<Binding>, n: Path)
    ensures Lookup(s, n).Some? <==> HasName(s, n)
    ensures Lookup(s, n).Some? ==> Binding(n, Lookup(s, n).value) in s
    decreases |s|
  {
    if s != [] {
      LookupFound(s[1..], n);
      if HasName(s, n) && s[0].name != n {
        var i :| 0 <= i < |s| && s[i].name == n;
        assert s[1..][i - 1].name == n;
      }
      if HasName(s[1..], n) {
        var i :| 0 <= i < |s[1..]| && s[1..][i].name == n;
        assert s[i + 1].name == n;
      }
    }
  }

  lemma {:induction false} LookupAppend(s: seq<Binding>, t: seq<Binding>, n: Path)
    ensures Lookup(s + t, n) == if Lookup(s, n).Some? then Lookup(s, n) else Lookup(t, n)
    decreases |s|
  {
    if s != [] {
      assert (s + t)[1..] == s[1..] + t;
      LookupAppend(s[1..], t, n);
    } else {
      assert s + t == t;
    }
  }

  /** `Set.add`: a variable whose name is already present is not added. */
  function Add(s: seq<Binding>, b: Binding): (r: seq<Binding>)
    ensures DistinctNames(s) ==> DistinctNames(r)
    ensures HasName(s, b.name) ==> r == s
    ensures !HasName(s, b.name) ==> r == s + [b]
  {
    if HasName(s, b.name) then s else s + [b]
  }

  /** What one `Set.add` does to names, values and members. */
  lemma AddFacts(s: seq<Binding>, b: Binding)
    ensures forall n :: HasName(Add(s, b), n) <==> HasName(s, n) || b.name == n
    ensures forall n :: (Lookup(Add(s, b), n) ==
      if Lookup(s, n).Some? then Lookup(s, n) else if b.name == n then Some(b.value) else None)
    ensures forall x :: x in Add(s, b) ==> x in s || x == b
  {
    LookupFound(s, b.name);
    if !HasName(s, b.name) {
      assert (s + [b])[|s|] == b;
      forall n | HasName(s, n) ensures HasName(s + [b], n) {
        var i :| 0 <= i < |s| && s[i].name == n;
        assert (s + [b])[i] == s[i];
      }
      forall n ensures Lookup(s + [b], n) ==
        if Lookup(s, n).Some? then Lookup(s, n) else if b.name == n then Some(b.value) else None
      {
        LookupAppend(s, [b], n);
        assert [b][1..] == [];
        assert Lookup([b], n) == if b.name == n then Some(b.value) else Lookup([], n);
      }
    }
  }

  /** A non-empty binding sequence unfolded by its first binding. */
  lemma ConsFacts(bs: seq<Binding>)
    requires bs != []
    ensures forall n :: HasName(bs, n) <==> bs[0].name == n || HasName(bs[1..], n)
    ensures forall n :: Lookup(bs, n) == if bs[0].name == n then Some(bs[0].value) else Lookup(bs[1..], n)
    ensures forall x :: x in bs <==> x == bs[0] || x in bs[1..]
  {
    assert bs == [bs[0]] + bs[1..];
    forall n | HasName(bs, n) ensures bs[0].name == n || HasName(bs[1..], n) {
      var i :| 0 <= i < |bs| && bs[i].name == n;
      if i > 0 { assert bs[1..][i - 1].name == n; }
    }
    forall n | HasName(bs[1..], n) ensures HasName(bs, n) {
      var i :| 0 <= i < |bs[1..]| && bs[1..][i].name == n;
      assert bs[i + 1].name == n;
    }
  }

  /** `addAll` in order: earlier bindings of a name win. */
  function AddAll(s: seq<Binding>, bs: seq<Binding>): (r: seq<Binding>)
    ensures DistinctNames(s) ==> DistinctNames(r)
    ensures s <= r
    ensures forall n :: HasName(r, n) <==> HasName(s, n) || HasName(bs, n)
    ensures forall b :: b in r ==> b in s || b in bs
    ensures forall n :: Lookup(r, n) == if Lookup(s, n).Some? then Lookup(s, n) else Lookup(bs, n)
    decreases |bs|
  {
    if bs == [] then s
    else
      AddFacts(s, bs[0]);
      ConsFacts(bs);
      AddAll(Add(s, bs[0]), bs[1..])
  }

  /** `CHash.unify(variables, source, target)`: the zip outcome, and the
      caller's set with the bindings made added to it. Nothing is rolled back
      on failure, and a variable that occurs twice is bound at each
      occurrence with no check that the two values agree. */
  function Unify(h: Host, variables: seq<Binding>, source: seq<Term>, target: seq<Term>): (r: (bool, seq<Binding>))
    ensures r.0 <==> forall i :: 0 <= i < ZipLength(source, target) ==> Matches(h, source[i], target[i])
    ensures variables <= r.1
    ensures DistinctNames(variables) ==> DistinctNames(r.1)
  {
    var z := Zip(h, source, target);
    (z.0, AddAll(variables, z.1))
  }

  /** `f(X, X)` against `f(a, b)`: the zip succeeds although `X` would have
      to be both `a` and `b`; both bindings are made and the set keeps the
      first. */
  lemma NoConsistencyCheck(h: Host, x: Variable, a: Term, b: Term)
    ensures var z := Zip(h, [a, b], [Var(x), Var(x)]);
            z.0 && z.1 == [Binding(x.name, a), Binding(x.name, b)]
    ensures Unify(h, [], [a, b], [Var(x), Var(x)]) == (true, [Binding(x.name, a)])
  {
    var z := Zip(h, [a, b], [Var(x), Var(x)]);
    assert [a, b][1..] == [b] && [Var(x), Var(x)][1..] == [Var(x)];
    var ba, bb := Binding(x.name, a), Binding(x.name, b);
    assert [ba][0].name == x.name;
    assert Add([ba], bb) == [ba];
    assert [ba, bb][1..] == [bb];
    assert AddAll([ba], [bb]) == AddAll([ba], []) == [ba];
    assert Add([], ba) == [ba];
    assert z.1 == [ba, bb];
    assert AddAll([], [ba, bb]) == AddAll([ba], [bb]);
  }

  /** `CUnifier.unifyexact(target, source)`: the set of bindings when every
      position matched, the empty set otherwise. */
  function ExactBindings(h: Host, target: seq<Term>, source: seq<Term>): (r: seq<Binding>)
    ensures DistinctNames(r)
    ensures |r| > 0 ==> forall i :: 0 <= i < ZipLength(source, target) ==> Matches(h, source[i], target[i])
    ensures forall n :: HasName(r, n) <==>
      (forall i :: 0 <= i < ZipLength(source, target) ==> Matches(h, source[i], target[i]))
      && HasName(AllBindings(source, target), n)
    ensures forall b :: b in r ==> b in AllBindings(source, target)
    ensures forall n :: (Lookup(r, n) ==
      if forall i :: 0 <= i < ZipLength(source, target) ==> Matches(h, source[i], target[i])
      then Lookup(AllBindings(source, target), n) else None)
  {
    var z := Zip(h, source, target);
    if z.0 then AddAll([], z.1) else []
  }

  /** The binding of the first occurrence of a target variable: when every
      position matched, the variable at target position `i` holds the source
      term at position `i`, unless an earlier position bound the same name. */
  lemma {:induction false} AllBindingsLookup(source: seq<Term>, target: seq<Term>, i: nat)
    requires i < ZipLength(source, target) && target[i].Var?
    requires forall j :: 0 <= j < i && target[j].Var? ==> target[j].variable.name != target[i].variable.name
    ensures Lookup(AllBindings(source, target), target[i].variable.name) == Some(source[i])
    decreases i
  {
    var n := target[i].variable.name;
    var head := if target[0].Var? then [BindingAt(source[0], target[0])] else [];
    LookupAppend(head, AllBindings(source[1..], target[1..]), n);
    if i > 0 {
      assert target[1..][i - 1] == target[i];
      AllBindingsLookup(source[1..], target[1..], i - 1);
      if target[0].Var? { assert [BindingAt(source[0], target[0])][1..] == []; }
    }
  }

  /** The exact unifier binds a query variable to the source term at its
      first position. */
  lemma QueryVariableBindsSourceTerm(h: Host, target: seq<Term>, source: seq<Term>, i: nat)
    requires i < ZipLength(source, target) && target[i].Var?
    requires forall j :: 0 <= j < i && target[j].Var? ==> target[j].variable.name != target[i].variable.name
    requires forall j :: 0 <= j < ZipLength(source, target) ==> Matches(h, source[j], target[j])
    ensures Lookup(ExactBindings(h, target, source), target[i].variable.name) == Some(source[i])
    ensures Binding(target[i].variable.name, source[i]) in ExactBindings(h, target, source)
  {
    AllBindingsLookup(source, target, i);
    LookupFound(ExactBindings(h, target, source), target[i].variable.name);
  }
}

=== FILE: instantiable.dfy ===
/** IBaseInstantiable and CPlan: running a body of steps sequentially or in
    full, the atomic and parallel annotations, the plan hash, the delete-goal
    trigger a failed plan emits, and the plan condition.

    Body steps, expressions, the fuzzy collector and the defuzzifier come
    from the agent and are parameters. A step reads and may change the
    execution context, so it maps a context to its fuzzy result and the
    context after it.
 */
module Instantiable {
  import opened Wrappers
  import opened Terms
  import Literals

  /** The agent's fuzzy configuration for a fuzzy type `F`: the
      defuzzifier, the collector of step results, and `CFuzzyValue.from`. */
  datatype FuzzyConfig<!F> = FuzzyConfig(defuzzify: F -> bool, collect: seq<F> -> F, fromBool: bool -> F)

  datatype StepResult<F> = StepResult(value: F, context: Context)

  /** A body step (`IExecution`) with its hash code. */
  datatype Step<F> = Step(run: Context -> StepResult<F>, hash: bv32)

  /** `IAnnotation.EType`: the annotation ids that change execution, and the
      others. */
  datatype AnnotationId = Atomic | Parallel | OtherAnnotation(tag: string)

  datatype Annotation = Annotation(id: AnnotationId, hash: bv32)

  /** `ITrigger.EType`. */
  datatype TriggerType = AddGoal | DeleteGoal | AddBelief | DeleteBelief

  datatype Trigger = Trigger(kind: TriggerType, literal: Literal)

  /** An expression's outcome: whether it succeeded and the raw values it
      put on its return list. */
  datatype ExprResult = ExprResult(success: bool, values: seq<Option<Value>>)

  datatype Expression = Expression(eval: Context -> ExprResult, hash: bv32)

  /** The base of plans and rules: body, annotations keyed by id, and the
      hash fixed at construction. */
  datatype Base<F> = Base(body: seq<Step<F>>, annotations: map<AnnotationId, Annotation>, hash: bv32)

  // --- construction ------------------------------------------------------------------------------

  /** The last annotation with this id in `anns`. */
  predicate LastWithId(anns: seq<Annotation>, i: nat) {
    i < |anns| && forall j :: i < j < |anns| ==> anns[j].id != anns[i].id
  }

  /** The annotations keyed by id; a later annotation replaces an earlier
      one with the same id. */
  function AnnotationMap(anns: seq<Annotation>): (r: map<AnnotationId, Annotation>)
    ensures r.Keys == set a | a in anns :: a.id
    ensures forall i :: 0 <= i < |anns| && LastWithId(anns, i) ==> r[anns[i].id] == anns[i]
    decreases |anns|
  {
    if anns == [] then map[]
    else
      var init, last := anns[..|anns| - 1], anns[|anns| - 1];
      assert anns == init + [last];
      var m := AnnotationMap(init);
      assert forall i :: 0 <= i < |init| && LastWithId(anns, i) ==> LastWithId(init, i);
      m[last.id := last]
  }

  /** The constructor: the hash is given, the body kept in order. */
  function NewBase<F>(body: seq<Step<F>>, anns: seq<Annotation>, hash: bv32): (r: Base<F>)
    ensures r.body == body && r.hash == hash
    ensures forall a :: a in anns ==> a.id in r.annotations
    ensures forall id :: id in r.annotations ==> r.annotations[id] in anns && r.annotations[id].id == id
  {
    var m := AnnotationMap(anns);
    assert forall id :: id in m ==> m[id] in anns && m[id].id == id by {
      forall id | id in m ensures m[id] in anns && m[id].id == id {
        var a :| a in anns && a.id == id;
        var i :| 0 <= i < |anns| && anns[i] == a;
        var k := LastIndex(anns, i);
        assert anns[k].id == id;
      }
    }
    Base(body, m, hash)
  }

  /** The last position holding the id found at position `i`. */
  function LastIndex(anns: seq<Annotation>, i: nat): (k: nat)
    requires i < |anns|
    ensures i <= k < |anns| && anns[k].id == anns[i].id && LastWithId(anns, k)
    decreases |anns| - i
  {
    if forall j :: i < j < |anns| ==> anns[j].id != anns[i].id then i
    else
      var j :| i < j < |anns| && anns[j].id == anns[i].id;
      LastIndex(anns, j)
  }

  /** `equals`: equal hash codes. */
  predicate BaseEquals<F>(a: Base<F>, b: Base<F>) {
    a.hash == b.hash
  }

  // --- execution --------------------------------------------------------------------------------

  /** `executesequential`: steps in order, each on the context the previous
      one left; the recorded results stop right after the first result that
      defuzzifies false. */
  function ExecuteSequential<F>(fz: FuzzyConfig<F>, body: seq<Step<F>>, ctx: Context): (r: (seq<F>, Context))
    ensures |r.0| <= |body|
    ensures forall i :: 0 <= i < |r.0| - 1 ==> fz.defuzzify(r.0[i])
    ensures |r.0| < |body| ==> |r.0| > 0 && !fz.defuzzify(r.0[|r.0| - 1])
    ensures body != [] ==> |r.0| > 0 && r.0[0] == body[0].run(ctx).value
  {
    if body == [] then ([], ctx)
    else
      var s := body[0].run(ctx);
      if !fz.defuzzify(s.value) then ([s.value], s.context)
      else
        var rest := ExecuteSequential(fz, body[1..], s.context);
        ([s.value] + rest.0, rest.1)
  }

  /** `executeparallel`: every step runs and gives one result. */
  function ExecuteParallel<F>(body: seq<Step<F>>, ctx: Context): (r: (seq<F>, Context))
    ensures |r.0| == |body|
    ensures body != [] ==> r.0[0] == body[0].run(ctx).value
  {
    if body == [] then ([], ctx)
    else
      var s := body[0].run(ctx);
      var rest := ExecuteParallel(body[1..], s.context);
      ([s.value] + rest.0, rest.1)
  }

  /** Running a concatenation runs the second part on the context the first
      part left, and lists both parts' results in order. */
  lemma {:induction false} ExecuteParallelAppend<F>(a: seq<Step<F>>, b: seq<Step<F>>, ctx: Context)
    ensures var p := ExecuteParallel(a, ctx);
            var q := ExecuteParallel(b, p.1);
            ExecuteParallel(a + b, ctx) == (p.0 + q.0, q.1)
    decreases |a|
  {
    if a == [] {
      assert a + b == b;
      var q := ExecuteParallel(b, ctx);
      assert ExecuteParallel(a, ctx) == ([], ctx) && [] + q.0 == q.0;
    } else {
      var s := a[0].run(ctx);
      assert (a + b)[0] == a[0] && (a + b)[1..] == a[1..] + b;
      ExecuteParallelAppend(a[1..], b, s.context);
      var p := ExecuteParallel(a[1..], s.context);
      var q := ExecuteParallel(b, p.1);
      assert [s.value] + (p.0 + q.0) == ([s.value] + p.0) + q.0;
    }
  }

  /** The sequential run of a concatenation whose first part passes
      throughout continues with the second part on the context the first
      part left. */
  lemma {:induction false} ExecuteSequentialAppend<F>(fz: FuzzyConfig<F>, a: seq<Step<F>>, b: seq<Step<F>>, ctx: Context)
    requires forall i :: 0 <= i < |a| ==> fz.defuzzify(ExecuteParallel(a, ctx).0[i])
    ensures var p := ExecuteParallel(a, ctx);
            var q := ExecuteSequential(fz, b, p.1);
            ExecuteSequential(fz, a + b, ctx) == (p.0 + q.0, q.1)
    decreases |a|
  {
    if a == [] {
      assert a + b == b;
      var q := ExecuteSequential(fz, b, ctx);
      assert ExecuteParallel(a, ctx) == ([], ctx) && [] + q.0 == q.0;
    } else {
      var s := a[0].run(ctx);
      var p := ExecuteParallel(a[1..], s.context);
      assert ExecuteParallel(a, ctx).0 == [s.value] + p.0;
      assert fz.defuzzify(s.value) by {
        assert ExecuteParallel(a, ctx).0[0] == s.value;
      }
      forall i | 0 <= i < |a[1..]| ensures fz.defuzzify(p.0[i]) {
        assert p.0[i] == ExecuteParallel(a, ctx).0[i + 1];
      }
      assert (a + b)[0] == a[0] && (a + b)[1..] == a[1..] + b;
      ExecuteSequentialAppend(fz, a[1..], b, s.context);
      var q := ExecuteSequential(fz, b, p.1);
      assert [s.value] + (p.0 + q.0) == ([s.value] + p.0) + q.0;
    }
  }

  /** The sequential results are a prefix of the full results, and are all
      of them exactly when no step but possibly the last fails. */
  lemma {:induction false} SequentialIsPrefix<F>(fz: FuzzyConfig<F>, body: seq<Step<F>>, ctx: Context)
    ensures ExecuteSequential(fz, body, ctx).0 <= ExecuteParallel(body, ctx).0
    ensures (forall i :: 0 <= i < |body| - 1 ==> fz.defuzzify(ExecuteParallel(body, ctx).0[i]))
            ==> ExecuteSequential(fz, body, ctx) == ExecuteParallel(body, ctx)
    decreases |body|
  {
    if body != [] {
      var s := body[0].run(ctx);
      SequentialIsPrefix(fz, body[1..], s.context);
      var p := ExecuteParallel(body, ctx).0;
      var rest := ExecuteParallel(body[1..], s.context).0;
      assert p == [s.value] + rest;
      if forall i :: 0 <= i < |body| - 1 ==> fz.defuzzify(p[i]) {
        if |body| > 1 {
          assert fz.defuzzify(p[0]);
          assert forall i :: 0 <= i < |body| - 2 ==> rest[i] == p[i + 1];
          assert ExecuteSequential(fz, body[1..], s.context) == ExecuteParallel(body[1..], s.context);
        } else {
          assert body[1..] == [];
          var none := ExecuteParallel(body[1..], s.context);
          assert none.0 == [] && none.1 == s.context;
          assert [s.value] + none.0 == [s.value];
          assert ExecuteParallel(body, ctx) == ([s.value], s.context);
          assert ExecuteSequential(fz, body, ctx) == ([s.value], s.context);
        }
      }
    }
  }

  /** `execute`: the parallel annotation chooses full execution; the atomic
      annotation makes the value true whatever happened, otherwise the
      collector combines the recorded results. */
  function Execute<F>(fz: FuzzyConfig<F>, b: Base<F>, ctx: Context): (r: (F, Context))
    ensures Atomic in b.annotations ==> r.0 == fz.fromBool(true)
    ensures Parallel in b.annotations ==> r.1 == ExecuteParallel(b.body, ctx).1
    ensures Parallel !in b.annotations ==> r.1 == ExecuteSequential(fz, b.body, ctx).1
    ensures Atomic !in b.annotations ==>
      r.0 == fz.collect(if Parallel in b.annotations then ExecuteParallel(b.body, ctx).0
                        else ExecuteSequential(fz, b.body, ctx).0)
  {
    var results := if Parallel in b.annotations then ExecuteParallel(b.body, ctx) else ExecuteSequential(fz, b.body, ctx);
    (if Atomic in b.annotations then fz.fromBool(true) else fz.collect(results.0), results.1)
  }

  // --- plans ------------------------------------------------------------------------------------

  datatype Plan<F> = Plan(base: Base<F>, trigger: Trigger, condition: Expression)

  /** An associative and commutative operation with a unit. */
  ghost predicate IsCommutativeMonoid<T(!new)>(op: (T, T) -> T, unit: T) {
    && (forall p, q, x :: op(op(p, q), x) == op(p, op(q, x)))
    && (forall p, q :: op(p, q) == op(q, p))
    && (forall p :: op(p, unit) == p)
  }

  /** `reduce(unit, op)` over a stream, as a left fold. */
  function Fold<T>(op: (T, T) -> T, unit: T, s: seq<T>): T
    decreases |s|
  {
    if s == [] then unit else op(Fold(op, unit, s[..|s| - 1]), s[|s| - 1])
  }

  /** Folding a concatenation combines the folds of the parts. */
  lemma {:induction false} FoldAppend<T(!new)>(op: (T, T) -> T, unit: T, a: seq<T>, b: seq<T>)
    requires IsCommutativeMonoid(op, unit)
    ensures Fold(op, unit, a + b) == op(Fold(op, unit, a), Fold(op, unit, b))
    decreases |b|
  {
    if b == [] {
      assert a + b == a;
    } else {
      var b', l := b[..|b| - 1], b[|b| - 1];
      assert (a + b)[..|a + b| - 1] == a + b';
      assert (a + b)[|a + b| - 1] == l;
      FoldAppend(op, unit, a, b');
    }
  }

  /** The fold of a commutative monoid does not depend on the order of the
      elements. */
  lemma {:induction false} FoldPermutation<T(!new)>(op: (T, T) -> T, unit: T, a: seq<T>, b: seq<T>)
    requires IsCommutativeMonoid(op, unit)
    requires multiset(a) == multiset(b)
    ensures Fold(op, unit, a) == Fold(op, unit, b)
    decreases |a|
  {
    if a != [] {
      var x := a[|a| - 1];
      assert x in multiset(b);
      var j :| 0 <= j < |b| && b[j] == x;
      var pre, post := b[..j], b[j + 1..];
      MultisetRemoveLast(a, b, j);
      FoldPermutation(op, unit, a[..|a| - 1], pre + post);
      assert b == (pre + [x]) + post;
      FoldAppend(op, unit, pre + [x], post);
      FoldAppend(op, unit, pre, post);
      assert Fold(op, unit, pre + [x]) == op(Fold(op, unit, pre), x) by {
        assert (pre + [x])[..|pre|] == pre;
      }
    }
  }

  /** Removing the last element of `a` and an equal element of `b` keeps
      two permutations permutations of each other. */
  lemma MultisetRemoveLast<T>(a: seq<T>, b: seq<T>, j: nat)
    requires multiset(a) == multiset(b) && a != [] && j < |b| && b[j] == a[|a| - 1]
    ensures multiset(a[..|a| - 1]) == multiset(b[..j] + b[j + 1..])
  {
    var x := a[|a| - 1];
    assert a == a[..|a| - 1] + [x];
    assert b == b[..j] + [x] + b[j + 1..];
    assert multiset(a[..|a| - 1]) == multiset(a) - multiset{x};
    assert multiset(b[..j] + b[j + 1..]) == multiset(b) - multiset{x};
  }

  /** Java's `^` on `int`. */
  function Xor(p: bv32, q: bv32): bv32 {
    p ^ q
  }

  /** `^` with 0 is a commutative monoid. */
  lemma XorIsCommutativeMonoid()
    ensures IsCommutativeMonoid(Xor, 0)
  {
    forall p: bv32, q: bv32, x: bv32 ensures Xor(Xor(p, q), x) == Xor(p, Xor(q, x)) {
      XorLaws(p, q, x);
    }
    forall p: bv32, q: bv32 ensures Xor(p, q) == Xor(q, p) {
      XorLaws(p, q, 0);
    }
    forall p: bv32 ensures Xor(p, 0) == p {
      XorLaws(p, 0, 0);
    }
  }

  /** Associativity, commutativity, unit and self-inverse of `^`. */
  lemma XorLaws(p: bv32, q: bv32, x: bv32)
    ensures (p ^ q) ^ x == p ^ (q ^ x)
    ensures p ^ q == q ^ p
    ensures p ^ 0 == p && p ^ p == 0
  {
  }

  /** The fold `reduce(0, ^)` over Java ints. */
  function XorAll(s: seq<bv32>): bv32 {
    Fold(Xor, 0, s)
  }

  /** The XOR fold is order-insensitive: any permutation of the parts gives
      the same value. */
  lemma XorAllPermutation(a: seq<bv32>, b: seq<bv32>)
    requires multiset(a) == multiset(b)
    ensures XorAll(a) == XorAll(b)
  {
    XorIsCommutativeMonoid();
    FoldPermutation(Xor, 0, a, b);
  }

  /** Two equal parts cancel out of the XOR fold. */
  lemma XorAllCancels(a: seq<bv32>, x: bv32, b: seq<bv32>, c: seq<bv32>)
    ensures XorAll(a + [x] + b + [x] + c) == XorAll(a + b + c)
  {
    var m := a + b + c;
    XorAllPermutation(a + [x] + b + [x] + c, m + [x, x]);
    XorIsCommutativeMonoid();
    FoldAppend(Xor, 0, m, [x, x]);
    XorAllPair(x);
    XorLaws(XorAll(m), 0, 0);
  }

  lemma XorAllPair(x: bv32)
    ensures XorAll([x, x]) == 0
  {
    assert [x, x][..1] == [x] && [x][..0] == [];
    assert XorAll([x]) == Xor(XorAll([]), x);
    assert XorAll([x, x]) == Xor(XorAll([x]), x);
    XorLaws(0, x, x);
  }

  /** The plan hash: trigger, condition, body steps and annotations. */
  function PlanHash<F>(triggerHash: bv32, condition: Expression, body: seq<Step<F>>, anns: seq<Annotation>): bv32 {
    XorAll([triggerHash, condition.hash]
           + seq(|body|, i requires 0 <= i < |body| => body[i].hash)
           + Hashes(anns))
  }

  /** Listing the same annotations in another order, or swapping trigger
      and condition hash, does not change the plan hash. */
  lemma PlanHashOrderInsensitive<F>(th: bv32, c: Expression, c2: Expression, body: seq<Step<F>>, anns: seq<Annotation>, anns2: seq<Annotation>)
    requires multiset(anns) == multiset(anns2)
    requires c2.hash == th
    ensures PlanHash(th, c, body, anns) == PlanHash(c.hash, c2, body, anns2)
  {
    var bh := seq(|body|, i requires 0 <= i < |body| => body[i].hash);
    MapHashMultiset(anns, anns2);
    XorAllPermutation([th, c.hash] + bh + Hashes(anns), [c.hash, th] + bh + Hashes(anns2));
  }

  lemma {:induction false} MapHashMultiset(a: seq<Annotation>, b: seq<Annotation>)
    requires multiset(a) == multiset(b)
    ensures multiset(Hashes(a)) == multiset(Hashes(b))
    decreases |a|
  {
    if a != [] {
      var x := a[|a| - 1];
      assert x in multiset(b);
      var j :| 0 <= j < |b| && b[j] == x;
      var a', b' := a[..|a| - 1], b[..j] + b[j + 1..];
      MultisetRemoveLast(a, b, j);
      MapHashMultiset(a', b');
      assert Hashes(a) == Hashes(a') + [x.hash];
      assert Hashes(b) == Hashes(b)[..j] + [x.hash] + Hashes(b)[j + 1..];
      assert Hashes(b') == Hashes(b)[..j] + Hashes(b)[j + 1..];
      assert multiset(Hashes(a)) == multiset(Hashes(a')) + multiset{x.hash};
      assert multiset(Hashes(b)) == multiset(Hashes(b')) + multiset{x.hash};
    }
  }

  /** The hash codes of a list of annotations. */
  function Hashes(anns: seq<Annotation>): (r: seq<bv32>)
    ensures |r| == |anns| && forall i :: 0 <= i < |anns| ==> r[i] == anns[i].hash
  {
    seq(|anns|, i requires 0 <= i < |anns| => anns[i].hash)
  }

  /** The annotations arrive as a Java `Set`, so no annotation is listed twice. */
  predicate DistinctAnnotations(anns: seq<Annotation>) {
    forall i, j :: 0 <= i < j < |anns| ==> anns[i] != anns[j]
  }

  /** The plan constructor: without a condition the EMPTY expression is
      used; the hash is the XOR of all parts. */
  function NewPlan<F>(triggerHash: Trigger -> bv32, event: Trigger, condition: Option<Expression>, empty: Expression,
                      body: seq<Step<F>>, anns: seq<Annotation>): (r: Plan<F>)
    requires DistinctAnnotations(anns)
    ensures r.trigger == event
    ensures r.condition == if condition.Some? then condition.value else empty
    ensures r.base.body == body
    ensures r.base.hash == PlanHash(triggerHash(event), r.condition, body, anns)
    ensures forall a :: a in anns ==> a.id in r.base.annotations
  {
    var c := if condition.Some? then condition.value else empty;
    Plan(NewBase(body, anns, PlanHash(triggerHash(event), c, body, anns)), event, c)
  }

  /** `equals` does not see annotation order: two plans built from the same
      trigger, condition and body with the same annotations in any order
      are equal. */
  lemma {:induction false} PlansEqualUnderReordering<F>(triggerHash: Trigger -> bv32, event: Trigger, condition: Option<Expression>,
                                                         empty: Expression, body: seq<Step<F>>, anns: seq<Annotation>, anns2: seq<Annotation>)
    requires DistinctAnnotations(anns) && DistinctAnnotations(anns2)
    requires multiset(anns) == multiset(anns2)
    ensures BaseEquals(NewPlan(triggerHash, event, condition, empty, body, anns).base,
                       NewPlan(triggerHash, event, condition, empty, body, anns2).base)
  {
    var c := if condition.Some? then condition.value else empty;
    var bh := seq(|body|, i requires 0 <= i < |body| => body[i].hash);
    MapHashMultiset(anns, anns2);
    XorAllPermutation([triggerHash(event), c.hash] + bh + Hashes(anns), [triggerHash(event), c.hash] + bh + Hashes(anns2));
  }

  /** `execute` of a plan: the base result, unchanged, and one delete-goal
      trigger carrying the trigger literal unified against the context
      exactly when that result defuzzifies false. */
  function ExecutePlan<F>(fz: FuzzyConfig<F>, p: Plan<F>, ctx: Context): (r: (F, Context, seq<Trigger>))
    ensures (r.0, r.1) == Execute(fz, p.base, ctx)
    ensures |r.2| == if fz.defuzzify(r.0) then 0 else 1
    ensures forall t :: t in r.2 ==> t.kind == DeleteGoal && t.literal == Literals.Unify(p.trigger.literal, r.1)
  {
    var (v, c) := Execute(fz, p.base, ctx);
    (v, c, if fz.defuzzify(v) then [] else [Trigger(DeleteGoal, Literals.Unify(p.trigger.literal, c))])
  }

  /** An atomic plan never emits a delete-goal trigger, provided the
      defuzzifier maps a plain true to true. */
  lemma AtomicPlanEmitsNothing<F>(fz: FuzzyConfig<F>, p: Plan<F>, ctx: Context)
    requires Atomic in p.base.annotations
    requires fz.defuzzify(fz.fromBool(true))
    ensures ExecutePlan(fz, p, ctx).2 == []
  {
  }

  /** `condition`: true iff the expression succeeded with exactly one
      value on its return list and that value is true; a single null value
      fails the unboxing and a single non-boolean value the cast. */
  function Condition<F>(p: Plan<F>, ctx: Context): (r: Result<bool>)
    ensures r == Ok(true) <==> var e := p.condition.eval(ctx); e.success && e.values == [Some(Flag(true))]
    ensures r.Err? <==> var e := p.condition.eval(ctx);
      e.success && |e.values| == 1 && !(e.values[0].Some? && e.values[0].value.Flag?)
  {
    var e := p.condition.eval(ctx);
    if e.success && |e.values| == 1 then
      match e.values[0]
      case None => Err(NullPointer)
      case Some(Flag(b)) => Ok(b)
      case Some(_) => Err(ClassCast)
    else Ok(false)
  }
}

=== FILE: literals.dfy ===
/** CLiteral: construction from a functor string, unification against a
    context, allocation, functor accessors and the copy operations. */
module Literals {
  import opened Wrappers
  import opened Terms
  import RawTerms

  const NEGATION: char := '~'
  const AT: char := '@'

  // --- construction from a string -----------------------------------------------------------------

  /** The functor string with every `@` and `~` removed. */
  function Strip(s: string): (r: string)
    ensures AT !in r && NEGATION !in r
    ensures |r| <= |s|
    ensures forall c :: c != AT && c != NEGATION ==> multiset(r)[c] == multiset(s)[c]
  {
    if s == [] then []
    else
      assert s == [s[0]] + s[1..];
      (if s[0] == AT || s[0] == NEGATION then [] else [s[0]]) + Strip(s[1..])
  }

  /** Stripping distributes over concatenation. */
  lemma {:induction false} StripAppend(a: string, b: string)
    ensures Strip(a + b) == Strip(a) + Strip(b)
    decreases |a|
  {
    if a != [] {
      assert (a + b)[1..] == a[1..] + b;
      StripAppend(a[1..], b);
    } else {
      assert a + b == b;
    }
  }

  /** A string without `@` and `~` is left as it is. */
  lemma {:induction false} StripIdentity(s: string)
    requires AT !in s && NEGATION !in s
    ensures Strip(s) == s
    decreases |s|
  {
    if s != [] {
      StripIdentity(s[1..]);
      assert s == [s[0]] + s[1..];
    }
  }

  /** `CLiteral.from(String, values)`: the at flag is set iff the string
      contains `@`, the negation iff it contains `~`; the functor is parsed
      from the string without those characters. */
  function FromString(h: Host, s: string, args: seq<Term>): (r: Literal)
    ensures r.at <==> AT in s
    ensures r.negated <==> NEGATION in s
    ensures r.args == args
    ensures exists t :: r.functor == h.pathFrom(t) && AT !in t && NEGATION !in t
    ensures r.functor == h.pathFrom(Strip(s))
  {
    Literal(AT in s, NEGATION in s, h.pathFrom(Strip(s)), args)
  }

  /** The flag prefix `toString` writes before the functor: `~` for a
      negated literal, then `@` for one with the at flag. */
  function FlagPrefix(l: Literal): string {
    (if l.negated then [NEGATION] else []) + (if l.at then [AT] else [])
  }

  /** Round trip: the flag prefix followed by the functor text, read back by
      `from`, gives the literal again, provided the functor text contains no
      flag characters and parses back to the same path. */
  lemma FromStringRoundTrip(h: Host, l: Literal)
    requires AT !in PathText(l.functor) && NEGATION !in PathText(l.functor)
    requires h.pathFrom(PathText(l.functor)) == l.functor
    ensures FromString(h, FlagPrefix(l) + PathText(l.functor), l.args) == l
  {
    var p, t := FlagPrefix(l), PathText(l.functor);
    StripAppend(p, t);
    StripIdentity(t);
    assert Strip(p) == [] by {
      if l.negated && l.at {
        assert p == [NEGATION, AT];
        assert p[1..] == [AT];
      } else if l.negated {
        assert p == [NEGATION];
      } else if l.at {
        assert p == [AT];
      }
    }
    assert Strip(p + t) == t;
    assert (AT in p) == l.at && (NEGATION in p) == l.negated;
    assert (AT in p + t) == l.at by {
      assert forall c :: c in p + t <==> c in p || c in t;
    }
    assert (NEGATION in p + t) == l.negated by {
      assert forall c :: c in p + t <==> c in p || c in t;
    }
  }

  // --- unification and allocation -----------------------------------------------------------------

  /** A context variable exists under this name and is not bound. */
  predicate Unbound(ctx: Context, n: Path) {
    n in ctx && !ctx[n].Allocated()
  }

  /** `CRawTerm.from(variable)` for the context variable of this name, which
      may be missing (null). */
  function RawOfContextVariable(ctx: Context, n: Path): Term {
    if n in ctx then Raw(ctx[n].value, ctx[n].name) else RawTerms.Empty
  }

  /** One argument under `unify`: a variable is replaced by a raw term of its
      context variable unless that variable exists and is unbound, in which
      case the context variable stands in; a literal is unified recursively;
      anything else is kept. */
  function UnifyArg(t: Term, ctx: Context): Term
    decreases t
  {
    match t
    case Var(v) => if Unbound(ctx, v.name) then Var(ctx[v.name]) else RawOfContextVariable(ctx, v.name)
    case Lit(l) => Lit(Unify(l, ctx))
    case _ => t
  }

  /** `unify(context)`: a new literal with the same flags, functor and
      argument count, each argument passed through `UnifyArg`. */
  function Unify(l: Literal, ctx: Context): (r: Literal)
    decreases l
    ensures r.at == l.at && r.negated == l.negated && r.functor == l.functor
    ensures |r.args| == |l.args|
    ensures forall i :: 0 <= i < |l.args| && l.args[i].Var? ==>
      (r.args[i].Var? <==> Unbound(ctx, l.args[i].variable.name))
    ensures forall i :: 0 <= i < |l.args| && l.args[i].Var? && Unbound(ctx, l.args[i].variable.name) ==>
      r.args[i] == Var(ctx[l.args[i].variable.name])
    ensures forall i :: 0 <= i < |l.args| && l.args[i].Var? && l.args[i].variable.name in ctx
                        && ctx[l.args[i].variable.name].Allocated() ==>
      var v := ctx[l.args[i].variable.name]; r.args[i] == Raw(v.value, v.name)
    ensures forall i :: 0 <= i < |l.args| && l.args[i].Var? && l.args[i].variable.name !in ctx ==>
      r.args[i] == RawTerms.Empty
    ensures forall i :: 0 <= i < |l.args| && l.args[i].Lit? ==>
      r.args[i].Lit? && r.args[i].literal == Unify(l.args[i].literal, ctx)
    ensures forall i :: 0 <= i < |l.args| && !l.args[i].Var? && !l.args[i].Lit? ==> r.args[i] == l.args[i]
  {
    Literal(l.at, l.negated, l.functor, seq(|l.args|, i requires 0 <= i < |l.args| => UnifyArg(l.args[i], ctx)))
  }

  /** One argument under `allocate`: a variable missing from the context
      becomes `CRawTerm.EMPTY`, otherwise the context variable is inserted;
      a nested literal goes through `unify`, not `allocate`. */
  function AllocateArg(t: Term, ctx: Context): Term {
    match t
    case Var(v) => if v.name in ctx then Var(ctx[v.name]) else RawTerms.Empty
    case Lit(l) => Lit(Unify(l, ctx))
    case _ => t
  }

  /** `allocate(context)`: agrees with `unify` on every argument except a
      variable bound in the context, which is inserted as the variable rather
      than as a raw term; both carry the same value. */
  function Allocate(l: Literal, ctx: Context): (r: Literal)
    ensures r.at == l.at && r.negated == l.negated && r.functor == l.functor
    ensures |r.args| == |l.args|
    ensures forall i :: 0 <= i < |l.args| ==> RawValue(r.args[i]) == RawValue(Unify(l, ctx).args[i])
    ensures forall i :: 0 <= i < |l.args| && !(l.args[i].Var? && l.args[i].variable.name in ctx
                                              && ctx[l.args[i].variable.name].Allocated()) ==>
      r.args[i] == Unify(l, ctx).args[i]
    ensures forall i :: 0 <= i < |l.args| && r.args[i].Var? ==> r.args[i].variable in ctx.Values
    ensures forall i :: 0 <= i < |l.args| && l.args[i].Var? && l.args[i].variable.name in ctx ==>
      r.args[i] == Var(ctx[l.args[i].variable.name])
    ensures forall i :: 0 <= i < |l.args| && l.args[i].Var? && l.args[i].variable.name !in ctx ==>
      r.args[i] == RawTerms.Empty
  {
    Literal(l.at, l.negated, l.functor, seq(|l.args|, i requires 0 <= i < |l.args| => AllocateArg(l.args[i], ctx)))
  }

  /** Unifying an allocated literal gives what unifying the original gives:
      an inserted context variable unifies to itself when unbound and to its
      raw value when allocated, and a nested literal is already unified. */
  lemma {:induction false} AllocateThenUnify(l: Literal, ctx: Context)
    requires WellFormedContext(ctx)
    ensures Unify(Allocate(l, ctx), ctx) == Unify(l, ctx)
  {
    var a := Allocate(l, ctx);
    forall i | 0 <= i < |l.args|
      ensures UnifyArg(a.args[i], ctx) == UnifyArg(l.args[i], ctx)
    {
      match l.args[i]
      case Var(v) =>
        if v.name in ctx {
          assert ctx[v.name].name == v.name;
        }
      case Lit(n) => UnifyIdempotent(n, ctx);
      case Raw(_, _) =>
      case Evaluate(_, _) =>
    }
    assert Unify(a, ctx).args == Unify(l, ctx).args;
  }

  /** Unifying twice changes nothing more: variables left in place are the
      unbound context variables, which unify to themselves. */
  lemma {:induction false} UnifyIdempotent(l: Literal, ctx: Context)
    requires WellFormedContext(ctx)
    ensures Unify(Unify(l, ctx), ctx) == Unify(l, ctx)
    decreases l
  {
    var u := Unify(l, ctx);
    forall i | 0 <= i < |l.args|
      ensures UnifyArg(u.args[i], ctx) == u.args[i]
    {
      UnifyArgIdempotent(l.args[i], ctx);
    }
    assert Unify(u, ctx).args == u.args;
  }

  lemma {:induction false} UnifyArgIdempotent(t: Term, ctx: Context)
    requires WellFormedContext(ctx)
    ensures UnifyArg(UnifyArg(t, ctx), ctx) == UnifyArg(t, ctx)
    decreases t
  {
    match t
    case Var(v) =>
      if Unbound(ctx, v.name) {
        assert ctx[v.name].name == v.name;
      }
    case Lit(l) => UnifyIdempotent(l, ctx);
    case Raw(_, _) =>
    case Evaluate(_, _) =>
  }

  /** After `unify`, a literal still has a variable exactly when it has an
      evaluate-variable somewhere or one of its variables is unbound in the
      context. */
  lemma {:induction false} UnifyHasVariable(l: Literal, ctx: Context)
    ensures LiteralHasVariable(Unify(l, ctx)) <==>
      HasEvaluate(l) || exists n :: n in VarNames(l) && Unbound(ctx, n)
    decreases l
  {
    var u := Unify(l, ctx);
    forall i | 0 <= i < |l.args|
      ensures TermHasVariable(u.args[i]) <==>
        TermHasEvaluate(l.args[i]) || exists n :: n in TermVarNames(l.args[i]) && Unbound(ctx, n)
    {
      UnifyArgHasVariable(l.args[i], ctx);
    }
    if LiteralHasVariable(u) {
      var i :| 0 <= i < |u.args| && TermHasVariable(u.args[i]);
      if !TermHasEvaluate(l.args[i]) {
        var n :| n in TermVarNames(l.args[i]) && Unbound(ctx, n);
        assert n in VarNames(l);
      }
    }
    if exists n :: n in VarNames(l) && Unbound(ctx, n) {
      var n :| n in VarNames(l) && Unbound(ctx, n);
      var i :| 0 <= i < |l.args| && n in TermVarNames(l.args[i]);
      assert TermHasVariable(u.args[i]);
    }
  }

  lemma {:induction false} UnifyArgHasVariable(t: Term, ctx: Context)
    ensures TermHasVariable(UnifyArg(t, ctx)) <==>
      TermHasEvaluate(t) || exists n :: n in TermVarNames(t) && Unbound(ctx, n)
    decreases t
  {
    match t
    case Var(v) =>
      assert TermVarNames(t) == {v.name};
    case Lit(l) => UnifyHasVariable(l, ctx);
    case Raw(_, _) =>
    case Evaluate(_, _) =>
  }

  /** Grounding through two contexts that agree on which variables stay
      unbound yields literals of one shape, hence of one structure hash. */
  lemma {:induction false} UnifyStructureHash(h: Host, l: Literal, c1: Context, c2: Context)
    requires WellFormedContext(c1) && WellFormedContext(c2)
    requires forall n :: Unbound(c1, n) <==> Unbound(c2, n)
    ensures LiteralStructureHash(h, Unify(l, c1)) == LiteralStructureHash(h, Unify(l, c2))
  {
    UnifySameShape(l, c1, c2);
    SameLiteralShapeStructureHash(h, Unify(l, c1), Unify(l, c2));
  }

  lemma {:induction false} UnifySameShape(l: Literal, c1: Context, c2: Context)
    requires WellFormedContext(c1) && WellFormedContext(c2)
    requires forall n :: Unbound(c1, n) <==> Unbound(c2, n)
    ensures SameLiteralShape(Unify(l, c1), Unify(l, c2))
    decreases l
  {
    forall i | 0 <= i < |l.args|
      ensures SameShape(Unify(l, c1).args[i], Unify(l, c2).args[i])
    {
      assert Unify(l, c1).args[i] == UnifyArg(l.args[i], c1);
      assert Unify(l, c2).args[i] == UnifyArg(l.args[i], c2);
      match l.args[i]
      case Var(v) =>
        if Unbound(c1, v.name) {
          assert c1[v.name].name == v.name == c2[v.name].name;
        }
      case Lit(m) => UnifySameShape(m, c1, c2);
      case Raw(_, _) =>
      case Evaluate(_, _) =>
    }
  }

  // --- functor accessors --------------------------------------------------------------------------

  /** `CPath.suffix()`: the last segment, or the empty string. */
  function Suffix(p: Path): string {
    if |p| == 0 then "" else p[|p| - 1]
  }

  /** `functor()`: the last segment of the functor path. */
  function Functor(l: Literal): (r: string)
    ensures |l.functor| > 0 ==> r == l.functor[|l.functor| - 1] && r in l.functor
  {
    Suffix(l.functor)
  }

  /** `functorpath()`: every segment but the last; together with `functor()`
      it rebuilds the full path `fqnfunctor()`. */
  function FunctorPath(l: Literal): (r: Path)
    ensures |l.functor| > 0 ==> r + [Functor(l)] == l.functor
    ensures |r| == if |l.functor| == 0 then 0 else |l.functor| - 1
  {
    if |l.functor| == 0 then [] else l.functor[..|l.functor| - 1]
  }

  /** `emptyValues()`: the literal has no arguments; such a literal has no
      variable and is its own unification. */
  function EmptyValues(l: Literal): (r: bool)
    ensures r <==> |l.args| == 0
    ensures r ==> !LiteralHasVariable(l) && forall ctx :: Unify(l, ctx) == l
  {
    |l.args| == 0
  }

  // --- copies -------------------------------------------------------------------------------------

  /** The arguments with functor `k`, in argument order: the values the
      multimap keeps under key `k`. */
  function Group(s: seq<Term>, k: Path): (r: seq<Term>)
    ensures |r| <= |s|
  {
    if s == [] then []
    else
      assert s == [s[0]] + s[1..];
      (if Fqn(s[0]) == k then [s[0]] else []) + Group(s[1..], k)
  }

  /** The arguments with any other functor, in argument order. */
  function Rest(s: seq<Term>, k: Path): (r: seq<Term>)
    ensures |r| <= |s|
  {
    if s == [] then []
    else
      assert s == [s[0]] + s[1..];
      (if Fqn(s[0]) == k then [] else [s[0]]) + Rest(s[1..], k)
  }

  /** Every argument of a group has its functor, and no argument of the
      rest has it. */
  lemma {:induction false} GroupRestFunctors(s: seq<Term>, k: Path)
    ensures forall t :: t in Group(s, k) ==> t in s && Fqn(t) == k
    ensures forall t :: t in Rest(s, k) ==> t in s && Fqn(t) != k
    decreases |s|
  {
    if s != [] {
      GroupRestFunctors(s[1..], k);
      assert s == [s[0]] + s[1..];
    }
  }

  /** A group and the rest split the arguments: together they are a
      permutation of them. */
  lemma {:induction false} GroupRestSplit(s: seq<Term>, k: Path)
    ensures |Group(s, k)| + |Rest(s, k)| == |s|
    ensures multiset(Group(s, k)) + multiset(Rest(s, k)) == multiset(s)
    decreases |s|
  {
    if s != [] {
      GroupRestSplit(s[1..], k);
      assert s == [s[0]] + s[1..];
    }
  }

  /** `m_values.values()`: the arguments grouped by functor, the groups in
      order of first appearance, each group in argument order (the order is
      stated by `GroupedOrder`). It is a permutation of the arguments. */
  function Grouped(s: seq<Term>): (r: seq<Term>)
    decreases |s|
    ensures |r| == |s|
    ensures multiset(r) == multiset(s)
  {
    if s == [] then []
    else
      var f := Fqn(s[0]);
      GroupRestSplit(s[1..], f);
      assert s == [s[0]] + s[1..];
      [s[0]] + Group(s[1..], f) + Grouped(Rest(s[1..], f))
  }

  /** Without an argument of functor `k`, the group is empty and the rest is
      everything. */
  lemma {:induction false} GroupNone(s: seq<Term>, k: Path)
    requires forall i :: 0 <= i < |s| ==> Fqn(s[i]) != k
    ensures Group(s, k) == [] && Rest(s, k) == s
    decreases |s|
  {
    if s != [] {
      assert forall i :: 0 <= i < |s[1..]| ==> s[1..][i] == s[i + 1];
      GroupNone(s[1..], k);
      assert s == [s[0]] + s[1..];
    }
  }

  /** Group and rest distribute over concatenation: both keep the argument
      order. */
  lemma {:induction false} GroupAppend(a: seq<Term>, b: seq<Term>, k: Path)
    ensures Group(a + b, k) == Group(a, k) + Group(b, k)
    ensures Rest(a + b, k) == Rest(a, k) + Rest(b, k)
  {
    GroupOnlyAppend(a, b, k);
    RestOnlyAppend(a, b, k);
  }

  lemma {:induction false} GroupOnlyAppend(a: seq<Term>, b: seq<Term>, k: Path)
    ensures Group(a + b, k) == Group(a, k) + Group(b, k)
    decreases |a|
  {
    if a == [] {
      assert a + b == b;
    } else {
      var x, a' := a[0], a[1..];
      assert a == [x] + a' && a + b == [x] + (a' + b);
      GroupOnlyAppend(a', b, k);
      GroupCons(x, a' + b, k);
      GroupCons(x, a', k);
    }
  }

  lemma {:induction false} RestOnlyAppend(a: seq<Term>, b: seq<Term>, k: Path)
    ensures Rest(a + b, k) == Rest(a, k) + Rest(b, k)
    decreases |a|
  {
    if a == [] {
      assert a + b == b;
    } else {
      var x, a' := a[0], a[1..];
      assert a == [x] + a' && a + b == [x] + (a' + b);
      RestOnlyAppend(a', b, k);
      RestCons(x, a' + b, k);
      RestCons(x, a', k);
    }
  }

  /** `Group` unfolded by one argument. */
  lemma GroupCons(x: Term, t: seq<Term>, k: Path)
    ensures Group([x] + t, k) == (if Fqn(x) == k then [x] else []) + Group(t, k)
  {
    assert ([x] + t)[0] == x && ([x] + t)[1..] == t;
  }

  /** `Rest` unfolded by one argument. */
  lemma RestCons(x: Term, t: seq<Term>, k: Path)
    ensures Rest([x] + t, k) == (if Fqn(x) == k then [] else [x]) + Rest(t, k)
  {
    assert ([x] + t)[0] == x && ([x] + t)[1..] == t;
  }

  /** `ks` without `k`, in order. */
  function Without(ks: seq<Path>, k: Path): (r: seq<Path>)
    ensures forall x :: x in r <==> x in ks && x != k
  {
    if ks == [] then []
    else
      assert ks == [ks[0]] + ks[1..];
      (if ks[0] == k then [] else [ks[0]]) + Without(ks[1..], k)
  }

  predicate DistinctPaths(ks: seq<Path>) {
    forall i, j :: 0 <= i < j < |ks| ==> ks[i] != ks[j]
  }

  lemma {:induction false} WithoutDistinct(ks: seq<Path>, k: Path)
    requires DistinctPaths(ks)
    ensures DistinctPaths(Without(ks, k))
    decreases |ks|
  {
    if ks != [] {
      assert DistinctPaths(ks[1..]) by {
        forall i, j | 0 <= i < j < |ks[1..]| ensures ks[1..][i] != ks[1..][j] {
          assert ks[1..][i] == ks[i + 1] && ks[1..][j] == ks[j + 1];
        }
      }
      WithoutDistinct(ks[1..], k);
      var w := Without(ks[1..], k);
      assert ks[0] !in ks[1..] by {
        forall j | 0 <= j < |ks[1..]| ensures ks[1..][j] != ks[0] {
          assert ks[1..][j] == ks[j + 1];
        }
      }
      assert ks[0] !in w;
      var r := Without(ks, k);
      forall i, j | 0 <= i < j < |r| ensures r[i] != r[j] {
        if ks[0] != k && i == 0 {
          assert r[j] == w[j - 1] && r[0] == ks[0];
        } else if ks[0] != k {
          assert r[i] == w[i - 1] && r[j] == w[j - 1];
        }
      }
    }
  }

  lemma {:induction false} WithoutTwice(ks: seq<Path>, k: Path)
    ensures Without(Without(ks, k), k) == Without(ks, k)
    decreases |ks|
  {
    if ks != [] {
      WithoutTwice(ks[1..], k);
      var w := Without(ks, k);
      if ks[0] != k {
        assert w == [ks[0]] + Without(ks[1..], k);
        assert w != [] && w[0] == ks[0] && w[1..] == Without(ks[1..], k);
        assert Without(w, k) == [ks[0]] + Without(w[1..], k);
      } else {
        assert w == Without(ks[1..], k);
      }
    }
  }

  lemma {:induction false} WithoutCommutes(ks: seq<Path>, j: Path, k: Path)
    ensures Without(Without(ks, j), k) == Without(Without(ks, k), j)
    decreases |ks|
  {
    if ks != [] {
      WithoutCommutes(ks[1..], j, k);
      var a, b := Without(ks, j), Without(ks, k);
      if ks[0] != j {
        assert a[0] == ks[0] && a[1..] == Without(ks[1..], j);
      } else {
        assert a == Without(ks[1..], j);
      }
      if ks[0] != k {
        assert b[0] == ks[0] && b[1..] == Without(ks[1..], k);
      } else {
        assert b == Without(ks[1..], k);
      }
    }
  }

  /** Some argument has functor `k`. */
  predicate HasFunctor(s: seq<Term>, k: Path) {
    exists t :: t in s && Fqn(t) == k
  }

  /** The functors of the arguments, each once, in order of first
      appearance. */
  function FirstFunctors(s: seq<Term>): (r: seq<Path>)
    ensures forall k :: k in r <==> HasFunctor(s, k)
    ensures DistinctPaths(r)
  {
    if s == [] then []
    else
      var f := Fqn(s[0]);
      var rest := FirstFunctors(s[1..]);
      var w := Without(rest, f);
      WithoutDistinct(rest, f);
      assert forall k :: HasFunctor(s, k) <==> k == f || HasFunctor(s[1..], k) by {
        assert s == [s[0]] + s[1..];
        forall k | HasFunctor(s, k) ensures k == f || HasFunctor(s[1..], k) {
          var t :| t in s && Fqn(t) == k;
          if t != s[0] { assert t in s[1..]; }
        }
      }
      var r := [f] + w;
      assert f !in w;
      forall i, j | 0 <= i < j < |r| ensures r[i] != r[j] {
        assert r[j] == w[j - 1];
        if i > 0 { assert r[i] == w[i - 1]; }
      }
      r
  }

  /** The groups of the functors `ks`, one after another. */
  function ConcatGroups(s: seq<Term>, ks: seq<Path>): (r: seq<Term>)
  {
    if ks == [] then []
    else Group(s, ks[0]) + ConcatGroups(s, ks[1..])
  }

  /** Dropping the arguments with functor `f` does not change the group of
      any other functor. */
  lemma {:induction false} GroupOfRest(t: seq<Term>, f: Path, k: Path)
    requires k != f
    ensures Group(Rest(t, f), k) == Group(t, k)
    decreases |t|
  {
    if t != [] {
      GroupOfRest(t[1..], f, k);
      var hd := if Fqn(t[0]) == k then [t[0]] else [];
      assert Group(t, k) == hd + Group(t[1..], k);
      if Fqn(t[0]) != f {
        var q := [t[0]] + Rest(t[1..], f);
        assert Rest(t, f) == q;
        assert q[0] == t[0] && q[1..] == Rest(t[1..], f);
        assert Group(q, k) == hd + Group(Rest(t[1..], f), k);
      } else {
        assert Rest(t, f) == Rest(t[1..], f);
      }
    }
  }

  /** Dropping the arguments with functor `f` drops `f` from the first
      functors and keeps the order of the others. */
  lemma {:induction false} FirstFunctorsOfRest(t: seq<Term>, f: Path)
    ensures FirstFunctors(Rest(t, f)) == Without(FirstFunctors(t), f)
    decreases |t|
  {
    if t != [] {
      var g := Fqn(t[0]);
      var rest := FirstFunctors(t[1..]);
      FirstFunctorsOfRest(t[1..], f);
      assert ([g] + Without(rest, g))[1..] == Without(rest, g);
      if g == f {
        assert Rest(t, f) == Rest(t[1..], f);
        WithoutTwice(rest, f);
      } else {
        var q := [t[0]] + Rest(t[1..], f);
        assert Rest(t, f) == q;
        assert q[0] == t[0] && q[1..] == Rest(t[1..], f);
        assert FirstFunctors(q) == [g] + Without(Without(rest, f), g);
        WithoutCommutes(rest, f, g);
      }
    }
  }

  /** Groups read from two argument lists agree when every listed functor
      has the same group in both. */
  lemma {:induction false} ConcatGroupsSame(s: seq<Term>, t: seq<Term>, ks: seq<Path>)
    requires forall i :: 0 <= i < |ks| ==> Group(s, ks[i]) == Group(t, ks[i])
    ensures ConcatGroups(s, ks) == ConcatGroups(t, ks)
    decreases |ks|
  {
    if ks != [] {
      assert forall i :: 0 <= i < |ks[1..]| ==> ks[1..][i] == ks[i + 1];
      ConcatGroupsSame(s, t, ks[1..]);
    }
  }

  /** For a functor of the remaining arguments, which differs from the head
      functor `f`, the group is the same in the whole list as in the rest. */
  lemma GroupOfRestHead(s: seq<Term>, f: Path, k: Path)
    requires s != [] && f == Fqn(s[0])
    requires HasFunctor(Rest(s[1..], f), k)
    ensures Group(s, k) == Group(Rest(s[1..], f), k)
  {
    var t :| t in Rest(s[1..], f) && Fqn(t) == k;
    GroupRestFunctors(s[1..], f);
    assert k != f;
    GroupOfRest(s[1..], f, k);
  }

  /** The order `Grouped` produces: the group of each functor in order of
      first appearance, each group in argument order, which is the order of
      `ImmutableListMultimap.copyOf` applied to a `LinkedListMultimap`. */
  lemma {:induction false} GroupedOrder(s: seq<Term>)
    ensures Grouped(s) == ConcatGroups(s, FirstFunctors(s))
    decreases |s|
  {
    if s != [] {
      var x, t := s[0], s[1..];
      var f := Fqn(x);
      var rest := Rest(t, f);
      GroupedOrder(rest);
      FirstFunctorsOfRest(t, f);
      var ks := FirstFunctors(rest);
      assert FirstFunctors(s) == [f] + ks;
      assert Group(s, f) == [x] + Group(t, f);
      forall i | 0 <= i < |ks| ensures Group(s, ks[i]) == Group(rest, ks[i]) {
        GroupOfRestHead(s, f, ks[i]);
      }
      ConcatGroupsSame(s, rest, ks);
      assert ([f] + ks)[1..] == ks;
    }
  }

  /** Arguments with pairwise different functors keep their order. */
  lemma {:induction false} GroupedDistinctFunctors(s: seq<Term>)
    requires forall i, j :: 0 <= i < j < |s| ==> Fqn(s[i]) != Fqn(s[j])
    ensures Grouped(s) == s
    decreases |s|
  {
    if s != [] {
      var f, t := Fqn(s[0]), s[1..];
      forall i | 0 <= i < |t| ensures Fqn(t[i]) != f {
        assert t[i] == s[i + 1];
      }
      forall i, j | 0 <= i < j < |t| ensures Fqn(t[i]) != Fqn(t[j]) {
        assert t[i] == s[i + 1] && t[j] == s[j + 1];
      }
      GroupNone(t, f);
      GroupedDistinctFunctors(t);
      assert Grouped(s) == [s[0]] + Group(t, f) + Grouped(Rest(t, f));
      assert s == [s[0]] + t;
    }
  }

  /** `shallowcopy(prefix?)`: both flags kept, the functor prefixed when a
      prefix is given, the arguments taken from the grouped multimap. */
  function ShallowCopy(l: Literal, prefix: Option<Path>): (r: Literal)
    ensures r.at == l.at && r.negated == l.negated
    ensures r.functor == if prefix.Some? then prefix.value + l.functor else l.functor
    ensures multiset(r.args) == multiset(l.args)
    ensures r.args == ConcatGroups(l.args, FirstFunctors(l.args))
  {
    GroupedOrder(l.args);
    Literal(l.at, l.negated, if prefix.Some? then prefix.value + l.functor else l.functor, Grouped(l.args))
  }

  /** `shallowcopysuffix()`: the functor cut to its last segment. */
  function ShallowCopySuffix(h: Host, l: Literal): (r: Literal)
    ensures r.at == l.at && r.negated == l.negated
    ensures r.functor == h.pathFrom(Functor(l))
    ensures multiset(r.args) == multiset(l.args)
    ensures r.args == ConcatGroups(l.args, FirstFunctors(l.args))
  {
    GroupedOrder(l.args);
    Literal(l.at, l.negated, h.pathFrom(Suffix(l.functor)), Grouped(l.args))
  }

  /** Two literals with the same flags, functor and number of arguments. */
  predicate SameLiteralHead(a: Literal, b: Literal) {
    a.at == b.at && a.negated == b.negated && a.functor == b.functor && |a.args| == |b.args|
  }

  /** `deepcopy()` of one argument as written: a raw term is rebuilt from
      its value, a variable keeps name, value and kind, a literal is
      deep-copied by its own (reordering) `deepcopy`, and an
      evaluate-variable yields the deep copy of its template variable. A
      copy of anything but a literal keeps its hash. */
  function DeepCopyTerm(h: Host, t: Term): (r: Term)
    decreases t, 0
    ensures !t.Lit? ==> TermHash(h, r) == TermHash(h, t) && !r.Lit?
    ensures t.Lit? ==> r.Lit? && r.literal.at == t.literal.at && r.literal.negated == t.literal.negated
                       && r.literal.functor == t.literal.functor && |r.literal.args| == |t.literal.args|
  {
    match t
    case Raw(v, _) => RawTerms.FromValue(h, v)
    case Var(v) => Var(v)
    case Lit(l) => Lit(DeepCopy(h, l, None))
    case Evaluate(v, _) => Var(v)
  }

  /** Deep copies, as written, of a sequence of arguments of `l`. */
  function DeepCopyArgs(h: Host, s: seq<Term>, ghost l: Literal): (r: seq<Term>)
    requires forall t :: t in s ==> t in l.args
    decreases l, 1, |s|
    ensures |r| == |s|
    ensures forall i :: 0 <= i < |s| ==> (r[i].Lit? <==> s[i].Lit?)
    ensures forall i :: 0 <= i < |s| && !s[i].Lit? ==> TermHash(h, r[i]) == TermHash(h, s[i])
    ensures forall i :: 0 <= i < |s| && s[i].Lit? ==> SameLiteralHead(r[i].literal, s[i].literal)
  {
    if s == [] then []
    else
      assert s[0] in l.args;
      [DeepCopyTerm(h, s[0])] + DeepCopyArgs(h, s[1..], l)
  }

  /** `deepcopy(prefix?)` as written: like `shallowcopy`, with every
      argument of the grouped multimap deep-copied in the grouped order. */
  function DeepCopy(h: Host, l: Literal, prefix: Option<Path>): (r: Literal)
    decreases l, 2
    ensures r.at == l.at && r.negated == l.negated
    ensures r.functor == if prefix.Some? then prefix.value + l.functor else l.functor
    ensures |r.args| == |l.args|
    ensures forall i :: 0 <= i < |l.args| ==> (r.args[i].Lit? <==> Grouped(l.args)[i].Lit?)
    ensures forall i :: 0 <= i < |l.args| && !Grouped(l.args)[i].Lit? ==> TermHash(h, r.args[i]) == TermHash(h, Grouped(l.args)[i])
    ensures forall i :: 0 <= i < |l.args| && Grouped(l.args)[i].Lit? ==>
      SameLiteralHead(r.args[i].literal, Grouped(l.args)[i].literal)
  {
    var g := Grouped(l.args);
    assert forall t :: t in g ==> t in multiset(l.args);
    Literal(l.at, l.negated, if prefix.Some? then prefix.value + l.functor else l.functor, DeepCopyArgs(h, g, l))
  }

  /** `deepcopysuffix()` as written: the functor cut to its last segment and
      the grouped arguments deep-copied in the grouped order. */
  function DeepCopySuffix(h: Host, l: Literal): (r: Literal)
    ensures r.at == l.at && r.negated == l.negated
    ensures r.functor == h.pathFrom(Functor(l))
    ensures |r.args| == |l.args|
    ensures forall i :: 0 <= i < |l.args| ==> (r.args[i].Lit? <==> Grouped(l.args)[i].Lit?)
    ensures forall i :: 0 <= i < |l.args| && !Grouped(l.args)[i].Lit? ==> TermHash(h, r.args[i]) == TermHash(h, Grouped(l.args)[i])
    ensures forall i :: 0 <= i < |l.args| && Grouped(l.args)[i].Lit? ==>
      SameLiteralHead(r.args[i].literal, Grouped(l.args)[i].literal)
  {
    var g := Grouped(l.args);
    assert forall t :: t in g ==> t in multiset(l.args);
    Literal(l.at, l.negated, h.pathFrom(Suffix(l.functor)), DeepCopyArgs(h, g, l))
  }

  /** One argument under the corrected deep copy: as `DeepCopyTerm`, but a
      nested literal is copied in order too, so every copy keeps its hash. */
  function DeepCopyOrderedTerm(h: Host, t: Term): (r: Term)
    decreases t, 0
    ensures TermHash(h, r) == TermHash(h, t)
    ensures !t.Lit? ==> r == DeepCopyTerm(h, t)
  {
    match t
    case Raw(v, _) => RawTerms.FromValue(h, v)
    case Var(v) => Var(v)
    case Lit(l) => Lit(DeepCopyOrdered(h, l, None))
    case Evaluate(v, _) => Var(v)
  }

  /** Corrected deep copies of a sequence of arguments of `l`. */
  function DeepCopyOrderedArgs(h: Host, s: seq<Term>, ghost l: Literal): (r: seq<Term>)
    requires forall t :: t in s ==> t in l.args
    decreases l, 1, |s|
    ensures |r| == |s|
    ensures forall i :: 0 <= i < |s| ==> TermHash(h, r[i]) == TermHash(h, s[i])
  {
    if s == [] then []
    else
      assert s[0] in l.args;
      [DeepCopyOrderedTerm(h, s[0])] + DeepCopyOrderedArgs(h, s[1..], l)
  }

  /** The corrected deep copy: the ordered arguments are copied in place, at
      every depth. Without a prefix the copy has the original's hash, so it
      equals it. */
  function DeepCopyOrdered(h: Host, l: Literal, prefix: Option<Path>): (r: Literal)
    decreases l, 2
    ensures r.at == l.at && r.negated == l.negated
    ensures r.functor == if prefix.Some? then prefix.value + l.functor else l.functor
    ensures |r.args| == |l.args|
    ensures forall i :: 0 <= i < |l.args| ==> TermHash(h, r.args[i]) == TermHash(h, l.args[i])
    ensures prefix.None? ==> LiteralHash(h, r) == LiteralHash(h, l) && LiteralEquals(h, r, l)
  {
    var args := DeepCopyOrderedArgs(h, l.args, l);
    var r := Literal(l.at, l.negated, if prefix.Some? then prefix.value + l.functor else l.functor, args);
    assert prefix.None? ==> LiteralHashInput(h, r) == LiteralHashInput(h, l);
    r
  }

  /** The copies as written reorder arguments: with arguments `1, 2, 1`
      whose functors are `"1"`, `"2"`, `"1"`, both copies list `1, 1, 2`. */
  lemma CopyReordersArguments()
    ensures var a, b := Raw(Some(Atom(1)), ["1"]), Raw(Some(Atom(2)), ["2"]);
            var l := Literal(false, false, ["f"], [a, b, a]);
            ShallowCopy(l, None).args == [a, a, b] != l.args
  {
    var a, b := Raw(Some(Atom(1)), ["1"]), Raw(Some(Atom(2)), ["2"]);
    assert Fqn(a) != Fqn(b) by {
      assert Fqn(a)[0] == "1" && Fqn(b)[0] == "2";
      assert "1"[0] != "2"[0];
    }
    var args := [a, b, a];
    GroupedABA(args);
    assert [a, a, b][1] != args[1];
  }

  /** With two functors, `a, b, a` is grouped as `a, a, b`. */
  lemma {:induction false} GroupedABA(s: seq<Term>)
    requires |s| == 3 && s[2] == s[0] && Fqn(s[0]) != Fqn(s[1])
    ensures Grouped(s) == [s[0], s[0], s[1]]
  {
    var a, b := s[0], s[1];
    var fa, fb := Fqn(a), Fqn(b);
    var t := s[1..];
    var u := t[1..];
    assert |u| == 1 && u[0] == a && u[1..] == [];
    assert Group(u, fa) == [a] && Rest(u, fa) == [];
    assert Group(t, fa) == [a] && Rest(t, fa) == [b];
    var v := Rest(t, fa);
    assert v[0] == b && v[1..] == [];
    assert Grouped(v) == [b];
  }

  /** ... and so a deep copy of that literal is NOT equal to the original
      under a collision-free hasher, against the intent that a copy equals
      its source. */
  lemma DeepCopyNotEqual(h: Host)
    requires InjectiveDigest(h)
    requires h.atomHash(1) != h.atomHash(2)
    ensures var a, b := Raw(Some(Atom(1)), ["1"]), Raw(Some(Atom(2)), ["2"]);
            var l := Literal(false, false, ["f"], [a, b, a]);
            !LiteralEquals(h, DeepCopy(h, l, None), l)
  {
    var a, b := Raw(Some(Atom(1)), ["1"]), Raw(Some(Atom(2)), ["2"]);
    var l := Literal(false, false, ["f"], [a, b, a]);
    CopyReordersArguments();
    var c := DeepCopy(h, l, None);
    assert c.args == DeepCopyArgs(h, [a, a, b], l);
    assert TermHash(h, c.args[1]) == TermHash(h, a) == h.atomHash(1);
    assert TermHash(h, l.args[1]) == TermHash(h, b) == h.atomHash(2);
    LiteralEqualsCharacterised(h, c, l);
  }

  /** The reordering reaches nested literals too: a literal whose only
      argument is a literal its copy does not equal is not equal to its own
      copy, while the corrected copy always is. */
  lemma NestedDeepCopyNotEqual(h: Host, f: Literal)
    requires InjectiveDigest(h)
    requires |f.args| == 1 && f.args[0].Lit?
    requires !LiteralEquals(h, DeepCopy(h, f.args[0].literal, None), f.args[0].literal)
    ensures !LiteralEquals(h, DeepCopy(h, f, None), f)
    ensures LiteralEquals(h, DeepCopyOrdered(h, f, None), f)
  {
    var g := f.args[0].literal;
    var c := DeepCopy(h, f, None);
    assert Grouped(f.args) == f.args by {
      GroupedDistinctFunctors(f.args);
    }
    assert c.args[0] == DeepCopyTerm(h, f.args[0]) by {
      assert DeepCopyArgs(h, f.args, f)[0] == DeepCopyTerm(h, f.args[0]);
    }
    assert TermHash(h, c.args[0]) != TermHash(h, f.args[0]);
    LiteralEqualsCharacterised(h, c, f);
  }
}

=== FILE: masks.dfy ===
/** IMask, the belief-base structure: a tree of named masks, each holding
    literals, addressed by paths relative to the root mask.

    The interface fixes only its doc-comment contracts, so this is a
    reference model of them. The whole tree below one root is kept flat:
    the masks by their path, and the literals by their functor path (the
    path of the mask holding them followed by the literal's name). A mask
    carries a payload `B`, the belief base it stands for, which the
    generator creates for missing intermediate masks.
 */
module Masks {
  import opened Wrappers
  import opened Terms

  datatype Store<B> = Store(masks: map<Path, B>, literals: map<Path, set<Literal>>)

  /** A mask handle: its full path and its parent, if any. */
  datatype View = View(fqn: Path, parent: Option<Path>)

  /** The path of the mask holding path `p`: all but the last segment. */
  function Dir(p: Path): (r: Path)
    requires p != []
    ensures |r| == |p| - 1 && r <= p
  {
    p[..|p| - 1]
  }

  /** Every mask and literal hangs below an existing mask (or the root),
      literal sets are never empty, and a literal is stored under its own
      functor path. */
  ghost predicate Valid<B>(s: Store<B>) {
    && (forall p :: p in s.masks ==> p != [] && (|p| == 1 || Dir(p) in s.masks))
    && (forall p :: p in s.literals ==> p != [] && (|p| == 1 || Dir(p) in s.masks))
    && (forall p :: p in s.literals ==> s.literals[p] != {})
    && (forall p, l :: p in s.literals && l in s.literals[p] ==> l.functor == p)
  }

  function Empty<B>(): (r: Store<B>)
    ensures Valid(r)
  {
    Store(map[], map[])
  }

  /** The non-empty prefixes of `p`, `p` itself included. */
  function Prefixes(p: Path): set<Path> {
    set k | 1 <= k <= |p| :: p[..k]
  }

  /** Every missing non-empty prefix of `p` becomes a mask whose belief base
      the generator creates from its name; existing masks stay as they are. */
  function AddDirs<B>(masks: map<Path, B>, p: Path, gen: string -> B): (r: map<Path, B>)
    ensures r.Keys == masks.Keys + Prefixes(p)
    ensures forall q :: q in masks ==> r[q] == masks[q]
    ensures forall q :: q in r && q !in masks ==> q != [] && r[q] == gen(q[|q| - 1])
    decreases |p|
  {
    if p == [] then
      assert Prefixes(p) == {};
      masks
    else
      var m := AddDirs(masks, Dir(p), gen);
      PrefixesSnoc(p);
      if p in m then m else m[p := gen(p[|p| - 1])]
  }

  /** The prefixes of `p` are those of its directory and `p` itself. */
  lemma PrefixesSnoc(p: Path)
    requires p != []
    ensures Prefixes(p) == Prefixes(Dir(p)) + {p}
  {
    forall q | q in Prefixes(p) ensures q in Prefixes(Dir(p)) + {p} {
      var k :| 1 <= k <= |p| && q == p[..k];
      if k < |p| {
        assert q == Dir(p)[..k];
      } else {
        assert q == p;
      }
    }
    forall q | q in Prefixes(Dir(p)) ensures q in Prefixes(p) {
      var k :| 1 <= k <= |Dir(p)| && q == Dir(p)[..k];
      assert q == p[..k];
    }
    assert p == p[..|p|];
  }

  /** A prefix of a prefix is a prefix. */
  lemma PrefixesClosed(p: Path, q: Path)
    requires q in Prefixes(p) && |q| > 1
    ensures Dir(q) in Prefixes(p)
  {
    var k :| 1 <= k <= |p| && q == p[..k];
    assert Dir(q) == p[..k - 1];
  }

  // --- adding ------------------------------------------------------------------------------------

  /** `add(path, mask[, generator])`: the template's belief base is stored
      at `path` and the returned handle is the stored mask, with the mask
      holding it as parent. Missing intermediate masks are created by the
      generator when one is given; without one they must exist. The empty
      path names no mask. */
  function AddMask<B>(s: Store<B>, path: Path, template: B, gen: Option<string -> B>): (r: Option<(Store<B>, View)>)
    requires Valid(s)
    ensures path == [] ==> r.None?
    ensures gen.Some? && path != [] ==> r.Some?
    ensures r.None? ==> path == [] || (gen.None? && |path| > 1 && Dir(path) !in s.masks)
    ensures r.Some? ==> var (t, v) := r.value;
      && Valid(t)
      && path in t.masks && t.masks[path] == template && t.literals == s.literals
      && v == View(path, Some(Dir(path)))
      && (forall q :: q in s.masks && q != path ==> q in t.masks && t.masks[q] == s.masks[q])
      && (forall q :: q in t.masks ==> q in s.masks || q in Prefixes(path))
  {
    if path == [] then None
    else if gen.None? && |path| > 1 && Dir(path) !in s.masks then None
    else
      var dirs := if gen.Some? then AddDirs(s.masks, Dir(path), gen.value) else s.masks;
      var t := Store(dirs[path := template], s.literals);
      PrefixesSnoc(path);
      assert Valid(t) by {
        forall p | p in t.masks ensures p != [] && (|p| == 1 || Dir(p) in t.masks) {
          if p !in s.masks && p != path && |p| > 1 {
            PrefixesClosed(Dir(path), p);
          }
        }
      }
      Some((t, View(path, Some(Dir(path)))))
  }

  /** `add(path, generator)`: the generator creates the mask itself from its
      name as well as every missing intermediate mask. */
  function AddGenerated<B>(s: Store<B>, path: Path, gen: string -> B): (r: Option<(Store<B>, View)>)
    requires Valid(s)
    ensures r.Some? <==> path != []
    ensures r.Some? ==> Valid(r.value.0) && ContainsMask(r.value.0, path)
                        && r.value.0.masks[path] == gen(path[|path| - 1])
  {
    if path == [] then None else AddMask(s, path, gen(path[|path| - 1]), Some(gen))
  }

  /** `add(literal, generator)`: the literal is stored under its functor
      path; missing masks on the way are created by the generator. */
  function AddLiteral<B>(s: Store<B>, l: Literal, gen: string -> B): (r: Store<B>)
    requires Valid(s) && l.functor != []
    ensures Valid(r)
    ensures ContainsLiteral(r, l.functor) && l in r.literals[l.functor]
    ensures forall p :: p in s.literals && p != l.functor ==> p in r.literals && r.literals[p] == s.literals[p]
    ensures l.functor in s.literals ==> r.literals[l.functor] == s.literals[l.functor] + {l}
    ensures r.literals.Keys == s.literals.Keys + {l.functor}
    ensures forall q :: q in s.masks ==> q in r.masks && r.masks[q] == s.masks[q]
    ensures forall q :: q in r.masks && q !in s.masks ==> q in Prefixes(Dir(l.functor)) && r.masks[q] == gen(q[|q| - 1])
  {
    var p := l.functor;
    var dirs := AddDirs(s.masks, Dir(p), gen);
    var old_ := if p in s.literals then s.literals[p] else {};
    var t := Store(dirs, s.literals[p := old_ + {l}]);
    assert Valid(t) by {
      forall q | q in t.masks ensures q != [] && (|q| == 1 || Dir(q) in t.masks) {
        if q !in s.masks && |q| > 1 {
          PrefixesClosed(Dir(p), q);
        }
      }
      if |p| > 1 {
        assert Dir(p) == Dir(p)[..|Dir(p)|];
        assert Dir(p) in Prefixes(Dir(p));
      }
    }
    t
  }

  // --- queries -----------------------------------------------------------------------------------

  /** `containsMask(path)`. */
  predicate ContainsMask<B>(s: Store<B>, p: Path) {
    p in s.masks
  }

  /** `containsLiteral(path)`. */
  predicate ContainsLiteral<B>(s: Store<B>, p: Path) {
    p in s.literals
  }

  /** `getLiteral(path)`: the literals under the path, or null (`None`) when
      there are none. */
  function GetLiteral<B>(s: Store<B>, p: Path): (r: Option<set<Literal>>)
    requires Valid(s)
    ensures r.None? <==> !ContainsLiteral(s, p)
    ensures r.Some? ==> r.value != {} && forall l :: l in r.value ==> l.functor == p
  {
    if p in s.literals then Some(s.literals[p]) else None
  }

  /** `getMask(path)`: the mask at the path, or null (`None`). */
  function GetMask<B>(s: Store<B>, p: Path): (r: Option<View>)
    requires Valid(s)
    ensures r.None? <==> !ContainsMask(s, p)
    ensures r.Some? ==> r.value.fqn == p && r.value.parent == Some(Dir(p))
  {
    if p in s.masks then Some(View(p, Some(Dir(p)))) else None
  }

  /** `getLiterals(path)`: every (path, literal) stored at or below the
      path; `getLiterals()` is the same with the empty path. */
  function GetLiterals<B>(s: Store<B>, p: Path): (r: set<(Path, Literal)>)
    requires Valid(s)
    ensures forall q, l :: (q, l) in r <==> q in s.literals && p <= q && l in s.literals[q]
  {
    set q, l | q in s.literals && p <= q && l in s.literals[q] :: (q, l)
  }

  /** `getMasks(path)`: every mask at or below the path, by its path;
      `getMasks()` is the same with the empty path. */
  function GetMasks<B>(s: Store<B>, p: Path): (r: map<Path, B>)
    requires Valid(s)
    ensures forall q :: q in r <==> q in s.masks && p <= q
    ensures forall q :: q in r ==> r[q] == s.masks[q]
  {
    map q | q in s.masks && p <= q :: s.masks[q]
  }

  /** `getFQNPath()` and `getName()`: the full path and its last segment. */
  function GetName(v: View): (r: string)
    ensures v.fqn != [] ==> r == v.fqn[|v.fqn| - 1]
    ensures v.fqn == [] ==> r == ""
  {
    if v.fqn == [] then "" else v.fqn[|v.fqn| - 1]
  }

  /** A mask just added is listed by `getMasks` of any prefix of its path,
      and every mask is listed by `getMasks()`. */
  lemma AddedMaskListed<B>(s: Store<B>, path: Path, template: B, gen: string -> B, p: Path)
    requires Valid(s) && path != [] && p <= path
    ensures var r := AddMask(s, path, template, Some(gen));
            r.Some? && path in GetMasks(r.value.0, p) && GetMasks(r.value.0, p)[path] == template
    ensures GetMasks(s, []).Keys == s.masks.Keys
  {
  }

  /** `clone(parent)`: the same mask under another parent. */
  function Clone(v: View, parent: Option<Path>): (r: View)
    ensures r.fqn == v.fqn && r.parent == parent
  {
    View(v.fqn, parent)
  }

  /** `getParent()`. */
  function GetParent(v: View): Option<Path> {
    v.parent
  }

  /** `hasParent()`: exactly when `getParent()` is not null. */
  function HasParent(v: View): (r: bool)
    ensures r <==> GetParent(v).Some?
  {
    v.parent.Some?
  }

  // --- removing ----------------------------------------------------------------------------------

  /** Everything at or below `p` dropped: masks whose path starts with `p`,
      and literals whose path starts with `p` (`strict` keeps the literals
      at exactly `p`, which live beside mask `p`, not in it). */
  function Prune<B>(s: Store<B>, p: Path, strict: bool): (r: Store<B>)
    requires Valid(s) && p != []
    ensures Valid(r)
    ensures forall q :: q in r.masks <==> q in s.masks && !(p <= q)
    ensures forall q :: q in r.masks ==> r.masks[q] == s.masks[q]
    ensures forall q :: q in r.literals <==> q in s.literals && !(p <= q && (q != p || !strict))
    ensures forall q :: q in r.literals ==> r.literals[q] == s.literals[q]
  {
    var t := Store(map q | q in s.masks && !(p <= q) :: s.masks[q],
                   map q | q in s.literals && !(p <= q && (q != p || !strict)) :: s.literals[q]);
    assert Valid(t) by {
      forall q | q in t.masks && |q| > 1 ensures Dir(q) in t.masks {
        assert p <= Dir(q) ==> p <= q;
      }
      forall q | q in t.literals && |q| > 1 ensures Dir(q) in t.masks {
        assert p <= Dir(q) ==> p <= q && q != p;
      }
    }
    t
  }

  /** `remove(literal)`: true exactly when the literal was stored; a path
      left without literals disappears. */
  function RemoveLiteral<B>(s: Store<B>, l: Literal): (r: (bool, Store<B>))
    requires Valid(s)
    ensures Valid(r.1)
    ensures r.0 <==> l.functor in s.literals && l in s.literals[l.functor]
    ensures l.functor !in r.1.literals || l !in r.1.literals[l.functor]
    ensures r.1.masks == s.masks
    ensures forall q :: q != l.functor ==> (q in r.1.literals <==> q in s.literals)
    ensures forall q :: q in r.1.literals && q != l.functor ==> r.1.literals[q] == s.literals[q]
    ensures r.0 ==> forall m :: m in s.literals[l.functor] && m != l ==> l.functor in r.1.literals && m in r.1.literals[l.functor]
    ensures !r.0 ==> r.1 == s
  {
    var p := l.functor;
    if p in s.literals && l in s.literals[p] then
      var rest := s.literals[p] - {l};
      assert forall m :: m in s.literals[p] && m != l ==> m in rest;
      (true, Store(s.masks, if rest == {} then s.literals - {p} else s.literals[p := rest]))
    else (false, s)
  }

  /** `remove(path, mask)`: true exactly when that mask is stored at the
      path; the mask goes with everything inside it. */
  function RemoveMask<B(==)>(s: Store<B>, p: Path, b: B): (r: (bool, Store<B>))
    requires Valid(s)
    ensures Valid(r.1)
    ensures r.0 <==> p in s.masks && s.masks[p] == b
    ensures r.0 ==> r.1 == Prune(s, p, true)
    ensures !r.0 ==> r.1 == s
  {
    if p in s.masks && s.masks[p] == b then (true, Prune(s, p, true)) else (false, s)
  }

  /** `remove(path)`: the literals and the mask at the path; true exactly
      when either existed. */
  function RemovePath<B>(s: Store<B>, p: Path): (r: (bool, Store<B>))
    requires Valid(s)
    ensures Valid(r.1)
    ensures r.0 <==> ContainsMask(s, p) || ContainsLiteral(s, p)
    ensures !ContainsMask(r.1, p) && !ContainsLiteral(r.1, p)
    ensures !r.0 ==> r.1 == s
  {
    if p in s.masks || p in s.literals then
      assert p != [];
      (true, Prune(s, p, false))
    else (false, s)
  }

  /** Removing twice: the second removal finds nothing. */
  lemma RemoveTwice<B>(s: Store<B>, l: Literal, p: Path, b: B)
    requires Valid(s)
    ensures !RemoveLiteral(RemoveLiteral(s, l).1, l).0
    ensures !RemovePath(RemovePath(s, p).1, p).0
    ensures !RemoveMask(RemoveMask(s, p, b).1, p, b).0
  {
    var r := RemoveMask(s, p, b);
    if r.0 {
      assert p <= p;
    }
  }

  /** A literal just added is found by `remove`, and after that the path
      holds exactly what it held before the add, minus that literal. */
  lemma AddThenRemoveLiteral<B>(s: Store<B>, l: Literal, gen: string -> B)
    requires Valid(s) && l.functor != []
    ensures var r := RemoveLiteral(AddLiteral(s, l, gen), l);
            && r.0
            && (forall q :: q in s.literals && q != l.functor ==> q in r.1.literals && r.1.literals[q] == s.literals[q])
            && (l.functor in r.1.literals ==> r.1.literals[l.functor] == s.literals[l.functor] - {l})
  {
  }

  /** A mask just added is found at its path, its parent path too, and
      `getMask` returns the handle `add` returned. */
  lemma AddThenGetMask<B>(s: Store<B>, path: Path, template: B, gen: string -> B)
    requires Valid(s) && path != []
    ensures var r := AddMask(s, path, template, Some(gen));
            && r.Some?
            && GetMask(r.value.0, path) == Some(r.value.1)
            && (|path| > 1 ==> ContainsMask(r.value.0, Dir(path)))
  {
    var r := AddMask(s, path, template, Some(gen));
    var t := r.value.0;
    if |path| > 1 {
      assert Dir(path) in t.masks;
    }
  }
}

=== FILE: metric.dfy ===
/** CWeightedDifference, the coherency metric between two agents: the
    literals of both belief bases are collected, and the distance is
    computed from the sizes of the two sets, their union and their
    intersection, in 32-bit `int` arithmetic with truncating division.

    Literal sets are Java hash sets, and literals are equal exactly when
    their hashes are, so a set of literals is modelled by the set of its
    hashes.
 */
module Metric {
  import opened Wrappers
  import opened Terms
  import Masks

  const TWO_31: int := 0x8000_0000
  const TWO_32: int := 0x1_0000_0000

  /** Java `int` wrap-around of an exact integer result. */
  function Wrap(x: int): (r: int)
    ensures -TWO_31 <= r < TWO_31
    ensures (r - x) % TWO_32 == 0
    ensures -TWO_31 <= x < TWO_31 ==> r == x
  {
    var m := (x + TWO_31) % TWO_32 - TWO_31;
    assert -TWO_31 <= x < TWO_31 ==> (x + TWO_31) % TWO_32 == x + TWO_31;
    m
  }

  /** Java `/` on `int` by a positive divisor: the quotient truncated
      toward zero. */
  function Quot(a: int, b: int): (r: int)
    requires b > 0
    ensures a >= 0 ==> 0 <= r * b <= a < r * b + b
    ensures a < 0 ==> r * b - b < a <= r * b <= 0
  {
    if a >= 0 then
      DivBounds(a, b);
      a / b
    else
      DivBounds(-a, b);
      NegMul((-a) / b, b);
      -((-a) / b)
  }

  lemma DivBounds(n: nat, b: int)
    requires b > 0
    ensures 0 <= (n / b) * b <= n < (n / b) * b + b
  {
    assert n == (n / b) * b + n % b;
  }

  lemma NegMul(q: int, b: int)
    ensures (-q) * b == -(q * b)
  {
  }

  /** The paths searched: the root alone when none is given. */
  function Roots(paths: seq<Path>): (r: set<Path>)
    ensures paths == [] ==> r == {[]}
    ensures paths != [] ==> forall p :: p in r <==> p in paths
  {
    if paths == [] then {[]} else set p | p in paths
  }

  /** The literals one agent contributes: all of them when no path is
      given, otherwise those below any of the paths. */
  function CollectLiterals<B>(store: Masks.Store<B>, paths: seq<Path>): (r: set<Literal>)
    requires Masks.Valid(store)
    ensures forall l :: l in r <==> exists p, q :: p in Roots(paths) && q in store.literals && p <= q && l in store.literals[q]
  {
    var r := set p, e | p in Roots(paths) && e in Masks.GetLiterals(store, p) :: e.1;
    assert forall p, q, l :: p in Roots(paths) && q in store.literals && p <= q && l in store.literals[q] ==>
      (q, l) in Masks.GetLiterals(store, p);
    r
  }

  /** The same literals as a hash set. */
  function Collect<B>(h: Host, store: Masks.Store<B>, paths: seq<Path>): (r: set<int>)
    requires Masks.Valid(store)
    ensures forall x :: x in r <==> exists l :: l in CollectLiterals(store, paths) && x == LiteralHash(h, l)
  {
    set l | l in CollectLiterals(store, paths) :: LiteralHash(h, l)
  }

  /** The distance between two literal sets: the symmetric difference
      weighted by the union and divided by the intersection, each step in
      `int`; an empty intersection is a division by zero. */
  function Distance(a: set<int>, b: set<int>): (r: Result<int>)
    ensures r.Err? <==> a * b == {}
    ensures r.Err? ==> r.error == DivisionByZero
  {
    var u := |a + b|;
    var i := |a * b|;
    if i == 0 then Err(DivisionByZero)
    else Ok(Quot(Wrap(Wrap(Wrap(u - |a|) + Wrap(u - |b|)) * u), i))
  }

  /** `calculate(first, second)`: the distance of the two agents' collected
      literals. */
  function Calculate<B>(h: Host, first: Masks.Store<B>, second: Masks.Store<B>, paths: seq<Path>): (r: Result<int>)
    requires Masks.Valid(first) && Masks.Valid(second)
    ensures r == Distance(Collect(h, first, paths), Collect(h, second, paths))
    ensures r.Err? <==> Collect(h, first, paths) * Collect(h, second, paths) == {}
  {
    Distance(Collect(h, first, paths), Collect(h, second, paths))
  }

  /** The union minus one side is what only the other side holds. */
  lemma UnionMinusSide(a: set<int>, b: set<int>)
    ensures |a + b| - |a| == |b - a|
  {
    assert a + b == a + (b - a);
    assert a * (b - a) == {};
  }

  /** The metric is symmetric in the two agents. */
  lemma DistanceSymmetric(a: set<int>, b: set<int>)
    ensures Distance(a, b) == Distance(b, a)
  {
    var u := |a + b|;
    assert a + b == b + a && a * b == b * a;
    WrapAddComm(Wrap(u - |a|), Wrap(u - |b|));
  }

  lemma WrapAddComm(x: int, y: int)
    ensures Wrap(x + y) == Wrap(y + x)
  {
  }

  /** Identical non-empty literal sets are at distance 0. */
  lemma DistanceIdentical(a: set<int>)
    requires a != {}
    ensures Distance(a, a) == Ok(0)
  {
    assert a + a == a && a * a == a;
  }

  /** Away from overflow (union of at most 32767 literals) the distance is
      the exact, truncated `|A Δ B| * |A ∪ B| / |A ∩ B|`, and never
      negative. */
  lemma DistanceExact(a: set<int>, b: set<int>)
    requires a * b != {} && |a + b| <= 32767
    ensures Distance(a, b) == Ok((|a - b| + |b - a|) * |a + b| / |a * b|)
    ensures Distance(a, b).value >= 0
  {
    var u := |a + b|;
    UnionMinusSide(a, b);
    UnionMinusSide(b, a);
    assert b + a == a + b;
    ProductFits(|b - a|, |a - b|, u);
  }

  /** The weighted numerator stays within `int` for small unions. */
  lemma ProductFits(x: nat, y: nat, u: nat)
    requires x <= u && y <= u && u <= 32767
    ensures x + y < TWO_31 && 0 <= (x + y) * u < TWO_31
  {
    MulMono(x + y, 2 * 32767, u);
    MulMono(u, 32767, 2 * 32767);
  }

  lemma MulMono(x: int, y: int, z: nat)
    requires 0 <= x <= y
    ensures x * z <= y * z
  {
  }
}

=== FILE: rawterms.dfy ===
/** CRawTerm: a term wrapping an opaque host value. */
module RawTerms {
  import opened Wrappers
  import opened Terms

  /** `CRawTerm.EMPTY`: the raw term wrapping null, with the empty functor. */
  const Empty: Term := Raw(None, [])

  /** The constructor applied to a host value: a boxed literal is itself a
      term, so its functor is taken over; any other value gets the path
      parsed from its string form; null gets the empty path. */
  function FromValue(h: Host, v: Option<Value>): (r: Term)
    ensures r.Raw? && r.value == v
    ensures TermHash(h, r) == (if v.None? then 0 else ValueHash(h, v.value))
  {
    match v
    case None => Empty
    case Some(Boxed(l)) => Raw(v, l.functor)
    case Some(x) => Raw(v, h.pathFrom(h.show(x)))
  }

  /** The constructor applied to an existing term: the term's raw value and
      functor are copied, so wrapping never nests one term in another. A term
      that carries its own value (a raw term, a literal, an allocated
      variable) is equal to its wrapper. */
  function FromTerm(h: Host, t: Term): (r: Term)
    ensures r.Raw?
    ensures RawValue(r) == RawValue(t) && Fqn(r) == Fqn(t)
    ensures t.Raw? || t.Lit? || (t.Var? && t.variable.Allocated()) ==> TermEquals(h, r, t)
  {
    var r := Raw(RawValue(t), Fqn(t));
    assert t.Lit? ==> TermHash(h, r) == LiteralHash(h, t.literal) == TermHash(h, t);
    assert t.Var? && t.variable.Allocated() ==> TermHash(h, r) == ValueHash(h, t.variable.value.value);
    r
  }

  /** Wrapping a raw term again changes nothing. */
  lemma FromTermIdempotent(h: Host, t: Term)
    ensures FromTerm(h, FromTerm(h, t)) == FromTerm(h, t)
  {
  }

  /** `allocated()`: the wrapped value is not null. */
  predicate Allocated(t: Term)
    requires t.Raw?
  {
    t.value.Some?
  }

  /** `thrownotallocated()`: the term itself, or an illegal-state error when
      it wraps null. */
  function ThrowNotAllocated(t: Term): (r: Result<Term>)
    requires t.Raw?
    ensures r.Ok? <==> t.value.Some?
    ensures r.Ok? ==> r.value == t
    ensures r.Err? ==> r.error == IllegalState
  {
    if Allocated(t) then Ok(t) else Err(IllegalState)
  }

  /** `deepcopy()` and `deepcopysuffix()`: a new raw term built from the same
      (cloned) value. The copy has the value's hash, so it equals the
      original; its functor is rebuilt from the value. */
  function DeepCopy(h: Host, t: Term): (r: Term)
    requires t.Raw?
    ensures r.Raw? && r.value == t.value
    ensures TermHash(h, r) == TermHash(h, t)
    ensures TermEquals(h, r, t) && TermEquals(h, t, r)
  {
    FromValue(h, t.value)
  }

  /** The raw term class never reports a variable and has structure hash 0;
      the empty raw term is unallocated and hashes to 0. */
  lemma RawTermConstants(h: Host, t: Term)
    requires t.Raw?
    ensures !TermHasVariable(t) && StructureHash(h, t) == 0
    ensures !Allocated(Empty) && TermHash(h, Empty) == 0
  {
  }
}

=== FILE: removeplan.dfy ===
/** CRemovePlan, the agent action removing plans by trigger: the flattened
    arguments are read as disjoint (trigger type, literal) pairs, and for
    each pair, in order, every plan registered under that trigger is
    removed. The action succeeds when every pair removed something and
    stops at the first pair that did not.

    The agent's plans are a multimap from trigger to plans; a trigger is
    identified by its type and its literal's hash code. Reading the
    trigger type from its text (`ITrigger.EType.from`) and parsing a
    literal (`CLiteral.parse`) are parameters.
 */
module RemovePlan {
  import opened Wrappers
  import opened Terms
  import Collections
  import Instantiable

  type TriggerType = Instantiable.TriggerType

  /** A trigger as the plan multimap sees it. */
  type Key = (TriggerType, int)

  /** The agent's plans by trigger; a trigger with no plans has no entry. */
  type PlanIndex<P> = map<Key, seq<P>>

  predicate ValidIndex<P>(plans: PlanIndex<P>) {
    forall k :: k in plans ==> plans[k] != []
  }

  function KeyOf(h: Host, t: TriggerType, l: Literal): Key {
    (t, LiteralHash(h, l))
  }

  /** The literal a pair names: a literal value as given, a string parsed;
      a failed parse or any other value names none (the exception is
      caught and the pair fails). */
  function LiteralOf(v: Value, parse: string -> Option<Literal>): (r: Option<Literal>)
    ensures v.Boxed? ==> r == Some(v.literal)
    ensures v.Text? ==> r == parse(v.text)
    ensures !v.Boxed? && !v.Text? ==> r.None?
  {
    match v
    case Boxed(l) => Some(l)
    case Text(s) => parse(s)
    case _ => None
  }

  /** The trigger type a pair names. Its text is read OUTSIDE the caught
      block, so a value that is not a string, or a string that names no
      trigger type, aborts the action with an error. */
  function TriggerOf(v: Value, triggerFrom: string -> Option<TriggerType>): (r: Result<TriggerType>)
    ensures !v.Text? ==> r == Err(ClassCast)
    ensures v.Text? && triggerFrom(v.text).None? ==> r == Err(IllegalArgument)
    ensures r.Ok? ==> v.Text? && triggerFrom(v.text) == Some(r.value)
  {
    if !v.Text? then Err(ClassCast)
    else if triggerFrom(v.text).None? then Err(IllegalArgument)
    else Ok(triggerFrom(v.text).value)
  }

  /** `remove(trigger, literal, agent)`: all plans under the trigger go;
      true exactly when there were some. */
  function RemoveOne<P>(h: Host, plans: PlanIndex<P>, t: TriggerType, v: Value, parse: string -> Option<Literal>): (r: (bool, PlanIndex<P>))
    requires ValidIndex(plans)
    ensures ValidIndex(r.1)
    ensures r.0 <==> LiteralOf(v, parse).Some? && KeyOf(h, t, LiteralOf(v, parse).value) in plans
    ensures r.0 ==> r.1 == plans - {KeyOf(h, t, LiteralOf(v, parse).value)}
    ensures !r.0 ==> r.1 == plans
  {
    match LiteralOf(v, parse)
    case None => (false, plans)
    case Some(l) =>
      var k := KeyOf(h, t, l);
      (k in plans, plans - {k})
  }

  /** One pair's trigger key, when both its parts can be read. */
  function PairKey(h: Host, w: seq<Value>, triggerFrom: string -> Option<TriggerType>, parse: string -> Option<Literal>): Option<Key>
    requires |w| == 2
  {
    var t := TriggerOf(w[0], triggerFrom);
    var l := LiteralOf(w[1], parse);
    if t.Ok? && l.Some? then Some(KeyOf(h, t.value, l.value)) else None
  }

  /** The outcome of a run: the answer, or the exception that aborted it,
      together with the plans as they stand afterwards. The plans are the
      agent's own, so removals made before an exception stay made. */
  datatype Run<P> = Run(answer: Result<bool>, plans: PlanIndex<P>)

  /** The pairs processed in order with `allMatch`: the first pair that
      removes nothing ends the run with false, a trigger type that cannot be
      read aborts it with an error, and later pairs are never looked at. */
  function Process<P>(h: Host, plans: PlanIndex<P>, pairs: seq<seq<Value>>,
                      triggerFrom: string -> Option<TriggerType>, parse: string -> Option<Literal>): (r: Run<P>)
    requires ValidIndex(plans)
    requires forall w :: w in pairs ==> |w| == 2
    ensures ValidIndex(r.plans) && r.plans.Keys <= plans.Keys
    ensures forall k :: k in r.plans ==> r.plans[k] == plans[k]
    ensures r.answer.Err? ==> r.answer.error == ClassCast || r.answer.error == IllegalArgument
    ensures pairs == [] ==> r == Run(Ok(true), plans)
  {
    if pairs == [] then Run(Ok(true), plans)
    else
      match TriggerOf(pairs[0][0], triggerFrom)
      case Err(e) => Run(Err(e), plans)
      case Ok(t) =>
        var (ok, rest) := RemoveOne(h, plans, t, pairs[0][1], parse);
        if !ok then Run(Ok(false), rest) else Process(h, rest, pairs[1..], triggerFrom, parse)
  }

  /** `execute`: the flattened arguments as disjoint pairs (a trailing odd
      value is ignored), processed in order. */
  function Execute<P>(h: Host, plans: PlanIndex<P>, args: seq<Collections.Arg<Value>>,
                      triggerFrom: string -> Option<TriggerType>, parse: string -> Option<Literal>): (r: Run<P>)
    requires ValidIndex(plans)
    ensures ValidIndex(r.plans) && r.plans.Keys <= plans.Keys
    ensures forall k :: k in r.plans ==> r.plans[k] == plans[k]
    ensures r.answer.Err? ==> r.answer.error == ClassCast || r.answer.error == IllegalArgument
    ensures |Collections.Flatten(args)| < 2 ==> r == Run(Ok(true), plans)
  {
    var pairs := Collections.Windowed(Collections.Flatten(args), 2, 2);
    assert |Collections.Flatten(args)| < 2 ==> pairs == [] by {
      if |pairs| > 0 {
        assert 0 * 2 + 2 <= |Collections.Flatten(args)|;
      }
    }
    Process(h, plans, pairs, triggerFrom, parse)
  }

  /** Every pair can be read, names a trigger that has plans, and no
      trigger is named twice. */
  ghost predicate AllRemovable<P>(h: Host, plans: PlanIndex<P>, pairs: seq<seq<Value>>,
                                  triggerFrom: string -> Option<TriggerType>, parse: string -> Option<Literal>)
    requires forall w :: w in pairs ==> |w| == 2
  {
    && (forall i :: 0 <= i < |pairs| ==> PairKey(h, pairs[i], triggerFrom, parse).Some?)
    && (forall i :: 0 <= i < |pairs| ==> PairKey(h, pairs[i], triggerFrom, parse).value in plans)
    && (forall i, j :: 0 <= i < j < |pairs| ==> PairKey(h, pairs[i], triggerFrom, parse) != PairKey(h, pairs[j], triggerFrom, parse))
  }

  /** The triggers a run of pairs names. */
  ghost function NamedKeys(h: Host, pairs: seq<seq<Value>>,
                           triggerFrom: string -> Option<TriggerType>, parse: string -> Option<Literal>): set<Key>
    requires forall w :: w in pairs ==> |w| == 2
  {
    set i | 0 <= i < |pairs| && PairKey(h, pairs[i], triggerFrom, parse).Some? :: PairKey(h, pairs[i], triggerFrom, parse).value
  }

  /** `AllRemovable` unfolded by one pair: the first pair's trigger has
      plans, and the rest are removable once those plans are gone. */
  lemma AllRemovableCons<P>(h: Host, plans: PlanIndex<P>, pairs: seq<seq<Value>>,
                            triggerFrom: string -> Option<TriggerType>, parse: string -> Option<Literal>)
    requires pairs != [] && forall w :: w in pairs ==> |w| == 2
    requires PairKey(h, pairs[0], triggerFrom, parse).Some?
    ensures var k := PairKey(h, pairs[0], triggerFrom, parse).value;
            AllRemovable(h, plans, pairs, triggerFrom, parse) <==>
              k in plans && AllRemovable(h, plans - {k}, pairs[1..], triggerFrom, parse)
    ensures var k := PairKey(h, pairs[0], triggerFrom, parse).value;
            NamedKeys(h, pairs, triggerFrom, parse) == {k} + NamedKeys(h, pairs[1..], triggerFrom, parse)
  {
    var tail := pairs[1..];
    assert forall i :: 0 <= i < |tail| ==> tail[i] == pairs[i + 1];
    var k := PairKey(h, pairs[0], triggerFrom, parse).value;
    if AllRemovable(h, plans, pairs, triggerFrom, parse) {
      forall i | 0 <= i < |tail| ensures PairKey(h, tail[i], triggerFrom, parse).value in plans - {k} {
        assert PairKey(h, pairs[0], triggerFrom, parse) != PairKey(h, pairs[i + 1], triggerFrom, parse);
      }
      forall i, j | 0 <= i < j < |tail| ensures PairKey(h, tail[i], triggerFrom, parse) != PairKey(h, tail[j], triggerFrom, parse) {
        assert PairKey(h, pairs[i + 1], triggerFrom, parse) != PairKey(h, pairs[j + 1], triggerFrom, parse);
      }
    }
    if k in plans && AllRemovable(h, plans - {k}, tail, triggerFrom, parse) {
      forall i | 0 <= i < |pairs| ensures PairKey(h, pairs[i], triggerFrom, parse).Some? && PairKey(h, pairs[i], triggerFrom, parse).value in plans {
        if i > 0 { assert pairs[i] == tail[i - 1]; }
      }
      forall i, j | 0 <= i < j < |pairs| ensures PairKey(h, pairs[i], triggerFrom, parse) != PairKey(h, pairs[j], triggerFrom, parse) {
        assert pairs[j] == tail[j - 1];
        if i > 0 { assert pairs[i] == tail[i - 1]; }
      }
    }
    var ks := NamedKeys(h, pairs, triggerFrom, parse);
    var kt := NamedKeys(h, tail, triggerFrom, parse);
    forall x | x in ks ensures x in {k} + kt {
      var i :| 0 <= i < |pairs| && PairKey(h, pairs[i], triggerFrom, parse).Some? && PairKey(h, pairs[i], triggerFrom, parse).value == x;
      if i > 0 { assert pairs[i] == tail[i - 1]; }
    }
    forall x | x in {k} + kt ensures x in ks {
      if x != k {
        var i :| 0 <= i < |tail| && PairKey(h, tail[i], triggerFrom, parse).Some? && PairKey(h, tail[i], triggerFrom, parse).value == x;
        assert tail[i] == pairs[i + 1];
      }
    }
  }

  /** The run succeeds exactly when every pair can be read, names a trigger
      that has plans, and no trigger is named twice (the second time its
      plans are already gone); then the plans of exactly those triggers
      are removed. */
  lemma {:induction false} ProcessSucceeds<P>(h: Host, plans: PlanIndex<P>, pairs: seq<seq<Value>>,
                                              triggerFrom: string -> Option<TriggerType>, parse: string -> Option<Literal>)
    requires ValidIndex(plans)
    requires forall w :: w in pairs ==> |w| == 2
    ensures var r := Process(h, plans, pairs, triggerFrom, parse);
            r.answer == Ok(true) <==> AllRemovable(h, plans, pairs, triggerFrom, parse)
    ensures var r := Process(h, plans, pairs, triggerFrom, parse);
            r.answer == Ok(true) ==> r.plans == plans - NamedKeys(h, pairs, triggerFrom, parse)
    decreases |pairs|
  {
    if pairs == [] {
      assert NamedKeys(h, pairs, triggerFrom, parse) == {};
    } else {
      var w := pairs[0];
      var tail := pairs[1..];
      assert forall x :: x in tail ==> x in pairs;
      var t := TriggerOf(w[0], triggerFrom);
      if t.Ok? && LiteralOf(w[1], parse).Some? {
        var k := PairKey(h, w, triggerFrom, parse).value;
        AllRemovableCons(h, plans, pairs, triggerFrom, parse);
        if k in plans {
          ProcessSucceeds(h, plans - {k}, tail, triggerFrom, parse);
          assert plans - {k} - NamedKeys(h, tail, triggerFrom, parse) == plans - NamedKeys(h, pairs, triggerFrom, parse);
        }
      } else {
        assert PairKey(h, w, triggerFrom, parse).None?;
      }
    }
  }

  /** `allMatch` short-circuits: once a run has answered false or thrown,
      further pairs are not looked at, whatever they hold. */
  lemma {:induction false} LaterPairsUntouched<P>(h: Host, plans: PlanIndex<P>, pairs: seq<seq<Value>>, more: seq<seq<Value>>,
                                                  triggerFrom: string -> Option<TriggerType>, parse: string -> Option<Literal>)
    requires ValidIndex(plans)
    requires forall w :: w in pairs + more ==> |w| == 2
    requires Process(h, plans, pairs, triggerFrom, parse).answer != Ok(true)
    ensures Process(h, plans, pairs + more, triggerFrom, parse) == Process(h, plans, pairs, triggerFrom, parse)
    decreases |pairs|
  {
    var all := pairs + more;
    assert all[0] == pairs[0];
    assert all[1..] == pairs[1..] + more;
    var t := TriggerOf(pairs[0][0], triggerFrom);
    if t.Ok? {
      var (ok, rest) := RemoveOne(h, plans, t.value, pairs[0][1], parse);
      if ok {
        LaterPairsUntouched(h, rest, pairs[1..], more, triggerFrom, parse);
      }
    }
  }

  /** A run that answered true continues with the plans it left: pairs
      are processed one after another on the same plans. */
  lemma {:induction false} ProcessAppend<P>(h: Host, plans: PlanIndex<P>, pairs: seq<seq<Value>>, more: seq<seq<Value>>,
                                            triggerFrom: string -> Option<TriggerType>, parse: string -> Option<Literal>)
    requires ValidIndex(plans)
    requires forall w :: w in pairs + more ==> |w| == 2
    requires Process(h, plans, pairs, triggerFrom, parse).answer == Ok(true)
    ensures Process(h, plans, pairs + more, triggerFrom, parse)
         == Process(h, Process(h, plans, pairs, triggerFrom, parse).plans, more, triggerFrom, parse)
    decreases |pairs|
  {
    var all := pairs + more;
    if pairs == [] {
      assert all == more;
    } else {
      assert all[0] == pairs[0];
      assert all[1..] == pairs[1..] + more;
      var t := TriggerOf(pairs[0][0], triggerFrom);
      var (ok, rest) := RemoveOne(h, plans, t.value, pairs[0][1], parse);
      ProcessAppend(h, rest, pairs[1..], more, triggerFrom, parse);
    }
  }

  /** An unreadable trigger type after a run of removable pairs aborts the
      action with its error, and the plans of the pairs before it are gone
      for good. */
  lemma ErrorKeepsEarlierRemovals<P>(h: Host, plans: PlanIndex<P>, pairs: seq<seq<Value>>, w: seq<Value>,
                                     triggerFrom: string -> Option<TriggerType>, parse: string -> Option<Literal>)
    requires ValidIndex(plans)
    requires |w| == 2 && forall x :: x in pairs ==> |x| == 2
    requires AllRemovable(h, plans, pairs, triggerFrom, parse)
    requires TriggerOf(w[0], triggerFrom).Err?
    ensures Process(h, plans, pairs + [w], triggerFrom, parse)
         == Run(Err(TriggerOf(w[0], triggerFrom).error), plans - NamedKeys(h, pairs, triggerFrom, parse))
  {
    ProcessSucceeds(h, plans, pairs, triggerFrom, parse);
    assert forall x :: x in pairs + [w] ==> |x| == 2;
    ProcessAppend(h, plans, pairs, [w], triggerFrom, parse);
  }

  /** Naming the same trigger twice fails: its plans are gone by the time
      the second pair is looked at. */
  lemma SamePairTwiceFails<P>(h: Host, plans: PlanIndex<P>, w: seq<Value>,
                              triggerFrom: string -> Option<TriggerType>, parse: string -> Option<Literal>)
    requires ValidIndex(plans) && |w| == 2
    requires PairKey(h, w, triggerFrom, parse).Some?
    ensures var r := Process(h, plans, [w, w], triggerFrom, parse);
            r.answer == Ok(false) && r.plans == plans - {PairKey(h, w, triggerFrom, parse).value}
  {
    ProcessSucceeds(h, plans, [w, w], triggerFrom, parse);
    assert !AllRemovable(h, plans, [w, w], triggerFrom, parse);
  }
}

=== FILE: terms.dfy ===
/** The term model of the agent language: raw host values, variables,
    literals and evaluate-variables, with the hash codes that the
    interpreter uses as its notion of equality.

    Java hash codes come from host objects (`Object.hashCode`, `CPath`,
    Guava's term hasher) that are not part of this model. They are therefore
    parameters, bundled in a `Host` record of functions: every statement
    proved here holds for every choice of those functions.
 */
module Terms {
  import opened Wrappers

  /** A functor path such as `main/parsefunctor`, one string per segment. */
  type Path = seq<string>

  /** A host value wrapped by a raw term or held by a variable. A literal
      used as a value (`CRawTerm.from(literal)`) is `Boxed`. */
  datatype Value =
    | Atom(id: int)
    | Text(text: string)
    | Flag(flag: bool)
    | Boxed(literal: Literal)

  /** The variable classes: a plain variable, a mutex variable, a constant,
      and a relocate variable that refers to the variable of the enclosing
      context it writes back to. The reference is the name `target` under
      which that variable lives in the enclosing context, so a write through
      it is seen by every holder of the reference. */
  datatype VarKind = Plain | Mutex | Constant | Relocate(target: Path)

  /** A named slot with at most one binding; `None` means unallocated. */
  datatype Variable = Variable(name: Path, value: Option<Value>, kind: VarKind) {
    predicate Allocated() {
      value.Some?
    }
  }

  /** The term variants (`ITerm` implementations). */
  datatype Term =
    | Raw(value: Option<Value>, functor: Path)                 // CRawTerm
    | Var(variable: Variable)                                  // IVariable
    | Lit(literal: Literal)                                    // CLiteral
    | Evaluate(template: Variable, parameters: seq<Term>)      // CVariableEvaluate

  /** CLiteral: the at flag, the negation flag, the functor path and the
      ordered argument list. */
  datatype Literal = Literal(at: bool, negated: bool, functor: Path, args: seq<Term>)

  /** The instance variables of an execution context, keyed by name. */
  type Context = map<Path, Variable>

  /** Every variable of the context is stored under its own name. */
  predicate WellFormedContext(ctx: Context) {
    forall k :: k in ctx ==> ctx[k].name == k
  }

  /** One item fed to Guava's term hasher. */
  datatype HashInput = HInt(i: int) | HBool(b: bool) | HText(s: string)

  /** The host functions the term model depends on. */
  datatype Host = Host(
    digest: seq<HashInput> -> int,        // the term hasher: a digest of everything put into it
    pathHash: Path -> int,                // CPath.hashCode
    atomHash: int -> int,                 // hashCode of numbers and other opaque objects
    textHash: string -> int,              // String.hashCode
    flagHash: bool -> int,                // Boolean.hashCode
    variableHash: Path -> int,            // hash code of a variable with this name
    variableStructureHash: Path -> int,   // structure hash of a variable with this name
    show: Value -> string,                // toString of a host value
    pathFrom: string -> Path              // CPath.from: parse a path string
  )

  /** The hasher never maps two different inputs to one hash code. Real
      hashers do collide; this is an assumption some lemmas make explicit. */
  ghost predicate InjectiveDigest(h: Host) {
    forall x, y :: h.digest(x) == h.digest(y) ==> x == y
  }

  /** `fqnfunctor()`: the full functor path of any term. */
  function Fqn(t: Term): Path {
    match t
    case Raw(_, f) => f
    case Var(v) => v.name
    case Lit(l) => l.functor
    case Evaluate(v, _) => v.name
  }

  /** `raw()`: the host value behind a term. A literal is its own value. */
  function RawValue(t: Term): Option<Value> {
    match t
    case Raw(v, _) => v
    case Var(v) => v.value
    case Lit(l) => Some(Boxed(l))
    case Evaluate(v, _) => v.value
  }

  /** `CPath.path()`: the segments joined with `/`. */
  function PathText(p: Path): string
    decreases |p|
  {
    if |p| == 0 then "" else if |p| == 1 then p[0] else p[0] + "/" + PathText(p[1..])
  }

  // --- hash codes ---------------------------------------------------------------------------------

  /** `hashCode()` of a term. */
  function TermHash(h: Host, t: Term): int
    decreases t
  {
    match t
    case Raw(v, _) => if v.None? then 0 else ValueHash(h, v.value)
    case Var(v) => h.variableHash(v.name)
    case Lit(l) => LiteralHash(h, l)
    case Evaluate(v, _) => h.variableHash(v.name)
  }

  /** `hashCode()` of a host value; a boxed literal hashes as the literal. */
  function ValueHash(h: Host, v: Value): int
    decreases v
  {
    match v
    case Atom(i) => h.atomHash(i)
    case Text(s) => h.textHash(s)
    case Flag(b) => h.flagHash(b)
    case Boxed(l) => LiteralHash(h, l)
  }

  /** The hash of a literal: functor hash, negation, at flag and every
      ordered argument's hash, in this order, through the term hasher. */
  function LiteralHash(h: Host, l: Literal): int
    decreases l, 1
  {
    h.digest(LiteralHashInput(h, l))
  }

  function LiteralHashInput(h: Host, l: Literal): seq<HashInput>
    decreases l, 0
  {
    [HInt(h.pathHash(l.functor)), HBool(l.negated), HBool(l.at)]
      + seq(|l.args|, i requires 0 <= i < |l.args| => HInt(TermHash(h, l.args[i])))
  }

  /** `structurehash()`: raw terms and evaluate-variables contribute 0, a
      variable a value that depends on its name only, and a literal the
      digest of its arguments' structure hashes, its negation and its
      functor text. */
  function StructureHash(h: Host, t: Term): int
    decreases t
  {
    match t
    case Raw(_, _) => 0
    case Var(v) => h.variableStructureHash(v.name)
    case Lit(l) => LiteralStructureHash(h, l)
    case Evaluate(_, _) => 0
  }

  function LiteralStructureHash(h: Host, l: Literal): int
    decreases l, 1
  {
    h.digest(StructureHashInput(h, l))
  }

  function StructureHashInput(h: Host, l: Literal): seq<HashInput>
    decreases l, 0
  {
    seq(|l.args|, i requires 0 <= i < |l.args| => HInt(StructureHash(h, l.args[i])))
      + [HBool(l.negated), HText(PathText(l.functor))]
  }

  // --- equality -----------------------------------------------------------------------------------

  /** `a.equals(b)`: every term class compares hash codes. A literal or an
      evaluate-variable only equals a term of its own class; a raw term also
      equals an allocated variable whose value has the raw term's hash. */
  predicate TermEquals(h: Host, a: Term, b: Term) {
    match a
    case Lit(_) => b.Lit? && TermHash(h, a) == TermHash(h, b)
    case Evaluate(_, _) => b.Evaluate? && TermHash(h, a) == TermHash(h, b)
    case Var(_) => b.Var? && TermHash(h, a) == TermHash(h, b)
    case Raw(_, _) =>
      (b.Var? && b.variable.value.Some? && TermHash(h, a) == ValueHash(h, b.variable.value.value))
      || TermHash(h, a) == TermHash(h, b)
  }

  /** CLiteral.equals between two literals. */
  predicate LiteralEquals(h: Host, a: Literal, b: Literal) {
    TermEquals(h, Lit(a), Lit(b))
  }

  // --- variables in terms -------------------------------------------------------------------------

  /** `hasVariable()`: variables and evaluate-variables have one, raw terms
      never, a literal iff one of its ordered arguments has one. */
  predicate TermHasVariable(t: Term)
    decreases t
  {
    match t
    case Raw(_, _) => false
    case Var(_) => true
    case Lit(l) => LiteralHasVariable(l)
    case Evaluate(_, _) => true
  }

  predicate LiteralHasVariable(l: Literal)
    decreases l
  {
    exists i :: 0 <= i < |l.args| && TermHasVariable(l.args[i])
  }

  /** The names of the variables that occur as arguments, at any literal
      depth (evaluate-variables are not descended into). */
  function VarNames(l: Literal): set<Path>
    decreases l
  {
    set i, n | 0 <= i < |l.args| && n in TermVarNames(l.args[i]) :: n
  }

  function TermVarNames(t: Term): set<Path>
    decreases t
  {
    match t
    case Raw(_, _) => {}
    case Var(v) => {v.name}
    case Lit(l) => VarNames(l)
    case Evaluate(_, _) => {}
  }

  /** Some argument, at any literal depth, is an evaluate-variable. */
  predicate HasEvaluate(l: Literal)
    decreases l
  {
    exists i :: 0 <= i < |l.args| && TermHasEvaluate(l.args[i])
  }

  predicate TermHasEvaluate(t: Term)
    decreases t
  {
    match t
    case Evaluate(_, _) => true
    case Lit(l) => HasEvaluate(l)
    case _ => false
  }

  // --- properties ---------------------------------------------------------------------------------

  /** With a collision-free hasher, literal equality is exactly agreement on
      both flags, the functor hash and the ORDERED sequence of argument
      hashes: argument position matters. */
  lemma LiteralEqualsCharacterised(h: Host, a: Literal, b: Literal)
    requires InjectiveDigest(h)
    ensures LiteralEquals(h, a, b) <==>
      && a.at == b.at && a.negated == b.negated
      && h.pathHash(a.functor) == h.pathHash(b.functor)
      && |a.args| == |b.args|
      && forall i :: 0 <= i < |a.args| ==> TermHash(h, a.args[i]) == TermHash(h, b.args[i])
  {
    var ia, ib := LiteralHashInput(h, a), LiteralHashInput(h, b);
    assert TermHash(h, Lit(a)) == LiteralHash(h, a) == h.digest(ia);
    assert TermHash(h, Lit(b)) == LiteralHash(h, b) == h.digest(ib);
    if LiteralEquals(h, a, b) {
      assert ia == ib;
      assert |ia| == 3 + |a.args| && |ib| == 3 + |b.args|;
      assert ia[0] == ib[0] && ia[1] == ib[1] && ia[2] == ib[2];
      forall i | 0 <= i < |a.args|
        ensures TermHash(h, a.args[i]) == TermHash(h, b.args[i])
      {
        assert ia[3 + i] == ib[3 + i];
      }
    }
    if && a.at == b.at && a.negated == b.negated
       && h.pathHash(a.functor) == h.pathHash(b.functor)
       && |a.args| == |b.args|
       && forall i :: 0 <= i < |a.args| ==> TermHash(h, a.args[i]) == TermHash(h, b.args[i])
    {
      assert ia == ib;
      assert TermHash(h, Lit(a)) == TermHash(h, Lit(b));
      assert TermEquals(h, Lit(a), Lit(b));
    }
  }

  /** Swapping two arguments of different hash gives an unequal literal. */
  lemma SwappedArgumentsNotEqual(h: Host, at: bool, negated: bool, f: Path, x: Term, y: Term)
    requires InjectiveDigest(h)
    requires TermHash(h, x) != TermHash(h, y)
    ensures !LiteralEquals(h, Literal(at, negated, f, [x, y]), Literal(at, negated, f, [y, x]))
  {
    var a, b := Literal(at, negated, f, [x, y]), Literal(at, negated, f, [y, x]);
    LiteralEqualsCharacterised(h, a, b);
    assert TermHash(h, a.args[0]) != TermHash(h, b.args[0]);
  }

  /** Two terms have the same shape when they differ at most in bound
      values and in at flags: raw terms and evaluate-variables are
      interchangeable, variables must have the same name, literals the same
      negation, functor and argument count with same-shaped arguments. */
  predicate SameShape(a: Term, b: Term)
    decreases a
  {
    match a
    case Raw(_, _) => b.Raw? || b.Evaluate?
    case Evaluate(_, _) => b.Raw? || b.Evaluate?
    case Var(x) => b.Var? && b.variable.name == x.name
    case Lit(l) => b.Lit? && SameLiteralShape(l, b.literal)
  }

  predicate SameLiteralShape(a: Literal, b: Literal)
    decreases a
  {
    && a.negated == b.negated
    && a.functor == b.functor
    && |a.args| == |b.args|
    && forall i :: 0 <= i < |a.args| ==> SameShape(a.args[i], b.args[i])
  }

  /** The structure hash sees only the shape: literals that differ in ground
      values or in their at flag have the same structure hash. */
  lemma {:induction false} SameShapeStructureHash(h: Host, a: Term, b: Term)
    requires SameShape(a, b)
    ensures StructureHash(h, a) == StructureHash(h, b)
    decreases a
  {
    match a
    case Raw(_, _) =>
    case Evaluate(_, _) =>
    case Var(_) =>
    case Lit(l) => SameLiteralShapeStructureHash(h, l, b.literal);
  }

  lemma {:induction false} SameLiteralShapeStructureHash(h: Host, a: Literal, b: Literal)
    requires SameLiteralShape(a, b)
    ensures LiteralStructureHash(h, a) == LiteralStructureHash(h, b)
    decreases a
  {
    forall i | 0 <= i < |a.args|
      ensures StructureHash(h, a.args[i]) == StructureHash(h, b.args[i])
    {
      SameShapeStructureHash(h, a.args[i], b.args[i]);
    }
    assert StructureHashInput(h, a) == StructureHashInput(h, b);
  }
}

=== FILE: unifier.dfy ===
/** CUnifier of the older interpreter package: the unification of a query
    literal against the belief base, and the guarded selection of one
    binding set that is then written into the execution context.

    The pipeline: candidates with the query's negation and functor and equal
    value and annotation hashes are zipped position by position with the
    query (`HashUnify`); binding sets of the wrong size are dropped; when
    nothing survives, a recursive fallback runs, which is a stub producing
    one empty set per candidate. The first set (or the first that passes the
    guard on a duplicated context) is committed.
 */
module Unifier {
  import opened Wrappers
  import opened Terms
  import opened HashUnify

  /** A belief: a literal with its annotation literals. The query is one
      too. */
  datatype Belief = Belief(literal: Literal, annotations: seq<Literal>)

  /** `valuehash()` and `annotationhash()` of the older literal class, which
      is not part of this model. */
  datatype BeliefHashes = BeliefHashes(value: Belief -> int, annotation: Belief -> int)

  // --- flattening -----------------------------------------------------------------------------------

  /** `CCommon.recursiveterm` for one term: a literal is replaced by its
      arguments, recursively; any other term stands for itself. */
  function FlattenTerm(t: Term): (r: seq<Term>)
    decreases t
    ensures forall x :: x in r ==> !x.Lit?
    ensures !t.Lit? ==> r == [t]
  {
    if t.Lit? then FlattenArgs(t.literal.args) else [t]
  }

  /** `CCommon.recursiveterm` over an argument list. */
  function FlattenArgs(ts: seq<Term>): (r: seq<Term>)
    decreases ts
    ensures forall x :: x in r ==> !x.Lit?
  {
    if ts == [] then [] else FlattenTerm(ts[0]) + FlattenArgs(ts[1..])
  }

  /** Flattening distributes over concatenation. */
  lemma {:induction false} FlattenArgsAppend(a: seq<Term>, b: seq<Term>)
    ensures FlattenArgs(a + b) == FlattenArgs(a) + FlattenArgs(b)
    decreases |a|
  {
    if a == [] {
      assert a + b == b;
    } else {
      assert (a + b)[1..] == a[1..] + b;
      FlattenArgsAppend(a[1..], b);
    }
  }

  /** An argument list without literals is its own flattening. */
  lemma {:induction false} FlattenArgsFlat(ts: seq<Term>)
    requires forall t :: t in ts ==> !t.Lit?
    ensures FlattenArgs(ts) == ts
    decreases |ts|
  {
    if ts != [] {
      FlattenArgsFlat(ts[1..]);
      assert ts == [ts[0]] + ts[1..];
    }
  }

  /** `CCommon.recursiveliteral` over annotations: every annotation's
      arguments, flattened, in order. */
  function FlattenLiterals(ls: seq<Literal>): (r: seq<Term>)
    ensures forall x :: x in r ==> !x.Lit?
  {
    if ls == [] then [] else FlattenArgs(ls[0].args) + FlattenLiterals(ls[1..])
  }

  // --- candidates and binding sets -----------------------------------------------------------------

  /** The belief base view `parallelStream(negated, functor)`. */
  predicate SameHead(q: Belief, b: Belief) {
    b.literal.negated == q.literal.negated && b.literal.functor == q.literal.functor
  }

  /** The beliefs with the query's negation and functor, in order. */
  function Candidates(beliefs: seq<Belief>, q: Belief): (r: seq<Belief>)
    ensures |r| <= |beliefs|
    ensures forall b :: b in r <==> b in beliefs && SameHead(q, b)
  {
    if beliefs == [] then []
    else
      assert beliefs == [beliefs[0]] + beliefs[1..];
      (if SameHead(q, beliefs[0]) then [beliefs[0]] else []) + Candidates(beliefs[1..], q)
  }

  /** The bindings one candidate gives: the zip of the flattened arguments
      and the zip of the flattened annotations, joined into one set. */
  function BindingsFor(h: Host, q: Belief, b: Belief): (r: seq<Binding>)
    ensures DistinctNames(r)
    ensures forall n :: HasName(r, n) <==>
      HasName(ExactBindings(h, FlattenArgs(q.literal.args), FlattenArgs(b.literal.args)), n)
      || HasName(ExactBindings(h, FlattenLiterals(q.annotations), FlattenLiterals(b.annotations)), n)
    ensures forall x :: x in r ==>
      x in AllBindings(FlattenArgs(b.literal.args), FlattenArgs(q.literal.args))
      || x in AllBindings(FlattenLiterals(b.annotations), FlattenLiterals(q.annotations))
    ensures forall n :: (Lookup(r, n) ==
      var byArgs := Lookup(ExactBindings(h, FlattenArgs(q.literal.args), FlattenArgs(b.literal.args)), n);
      if byArgs.Some? then byArgs
      else Lookup(ExactBindings(h, FlattenLiterals(q.annotations), FlattenLiterals(b.annotations)), n))
  {
    AddAll(AddAll([], ExactBindings(h, FlattenArgs(q.literal.args), FlattenArgs(b.literal.args))),
           ExactBindings(h, FlattenLiterals(q.annotations), FlattenLiterals(b.annotations)))
  }

  /** For flat literals, a query variable is bound to the candidate's
      argument at the variable's first position once every position matched. */
  lemma QueryVariableBindsCandidateArgument(h: Host, q: Belief, b: Belief, i: nat)
    requires forall t :: t in q.literal.args ==> !t.Lit?
    requires forall t :: t in b.literal.args ==> !t.Lit?
    requires i < |q.literal.args| && i < |b.literal.args| && q.literal.args[i].Var?
    requires forall j :: 0 <= j < i && q.literal.args[j].Var? ==>
      q.literal.args[j].variable.name != q.literal.args[i].variable.name
    requires forall j :: 0 <= j < |q.literal.args| && j < |b.literal.args| ==>
      Matches(h, b.literal.args[j], q.literal.args[j])
    ensures Lookup(BindingsFor(h, q, b), q.literal.args[i].variable.name) == Some(b.literal.args[i])
    ensures Binding(q.literal.args[i].variable.name, b.literal.args[i]) in BindingsFor(h, q, b)
  {
    FlattenArgsFlat(q.literal.args);
    FlattenArgsFlat(b.literal.args);
    QueryVariableBindsSourceTerm(h, q.literal.args, b.literal.args, i);
    LookupFound(BindingsFor(h, q, b), q.literal.args[i].variable.name);
  }

  /** A candidate of the exact stage: same head and equal hashes. */
  predicate ExactCandidate(hs: BeliefHashes, q: Belief, b: Belief) {
    SameHead(q, b) && hs.value(b) == hs.value(q) && hs.annotation(b) == hs.annotation(q)
  }

  /** `unifyexact(agent, literal, n)`: per exact candidate, in order, its
      binding set, kept when it has exactly `n` variables. Each set depends on
      its own candidate only: the query is copied afresh per candidate, and
      the copy is taken to keep the argument order. */
  function UnifyExact(h: Host, hs: BeliefHashes, beliefs: seq<Belief>, q: Belief, n: nat): (r: seq<seq<Binding>>)
    ensures |r| <= |beliefs|
    ensures forall s :: s in r ==> |s| == n
    ensures forall s :: s in r <==>
      exists b :: b in beliefs && ExactCandidate(hs, q, b) && BindingsFor(h, q, b) == s && |s| == n
  {
    if beliefs == [] then []
    else
      var b := beliefs[0];
      assert beliefs == [b] + beliefs[1..];
      var s := BindingsFor(h, q, b);
      (if ExactCandidate(hs, q, b) && |s| == n then [s] else []) + UnifyExact(h, hs, beliefs[1..], q, n)
  }

  /** `unifyrecursive(agent, literal, n)`: the per-candidate stub always
      yields the empty set, so there is one empty set per same-head
      candidate when `n` is 0 and nothing otherwise. */
  function UnifyRecursive(beliefs: seq<Belief>, q: Belief, n: nat): (r: seq<seq<Binding>>)
    ensures n == 0 ==> |r| == |Candidates(beliefs, q)| && forall s :: s in r ==> s == []
    ensures n != 0 ==> r == []
  {
    var c := Candidates(beliefs, q);
    seq(|c|, i requires 0 <= i < |c| => RecursiveStub(q, c[i])) [..if n == 0 then |c| else 0]
  }

  /** The private two-literal `unifyrecursive`: an empty set, always. */
  function RecursiveStub(q: Belief, b: Belief): seq<Binding> {
    []
  }

  /** `unify(agent, literal, n)`: the exact stage, falling back to the stub
      when it yields nothing. */
  function UnifyAll(h: Host, hs: BeliefHashes, beliefs: seq<Belief>, q: Belief, n: nat): (r: seq<seq<Binding>>)
    ensures forall s :: s in r ==> |s| == n
    ensures UnifyExact(h, hs, beliefs, q, n) != [] ==> r == UnifyExact(h, hs, beliefs, q, n)
    ensures UnifyExact(h, hs, beliefs, q, n) == [] ==> r == UnifyRecursive(beliefs, q, n)
  {
    var e := UnifyExact(h, hs, beliefs, q, n);
    if e != [] then e else UnifyRecursive(beliefs, q, n)
  }

  /** With a requested count of 0, any same-head belief makes unification
      succeed, whatever its arguments are. */
  lemma ZeroCountAcceptsAnyCandidate(h: Host, hs: BeliefHashes, beliefs: seq<Belief>, q: Belief)
    requires exists b :: b in beliefs && SameHead(q, b)
    ensures UnifyAll(h, hs, beliefs, q, 0) != []
  {
    var b :| b in beliefs && SameHead(q, b);
    assert b in Candidates(beliefs, q);
  }

  /** A belief with another head never contributes. */
  lemma OtherHeadIgnored(h: Host, hs: BeliefHashes, beliefs: seq<Belief>, q: Belief, n: nat, b: Belief)
    requires !SameHead(q, b)
    ensures UnifyAll(h, hs, beliefs + [b], q, n) == UnifyAll(h, hs, beliefs, q, n)
  {
    UnifyExactAppendOther(h, hs, beliefs, q, n, b);
    CandidatesAppendOther(beliefs, q, b);
  }

  lemma {:induction false} UnifyExactAppendOther(h: Host, hs: BeliefHashes, beliefs: seq<Belief>, q: Belief, n: nat, b: Belief)
    requires !SameHead(q, b)
    ensures UnifyExact(h, hs, beliefs + [b], q, n) == UnifyExact(h, hs, beliefs, q, n)
    decreases |beliefs|
  {
    if beliefs == [] {
      assert UnifyExact(h, hs, [], q, n) == [];
      assert [b][1..] == [];
    } else {
      assert (beliefs + [b])[1..] == beliefs[1..] + [b];
      UnifyExactAppendOther(h, hs, beliefs[1..], q, n, b);
    }
  }

  lemma {:induction false} CandidatesAppendOther(beliefs: seq<Belief>, q: Belief, b: Belief)
    requires !SameHead(q, b)
    ensures Candidates(beliefs + [b], q) == Candidates(beliefs, q)
    decreases |beliefs|
  {
    if beliefs == [] {
      assert [b][1..] == [];
    } else {
      assert (beliefs + [b])[1..] == beliefs[1..] + [b];
      CandidatesAppendOther(beliefs[1..], q, b);
    }
  }

  // --- committing a binding set --------------------------------------------------------------------

  /** `updatecontext`: every bound variable's context variable is set to
      the bound term's value; a name missing from the context dereferences
      null. */
  function UpdateContext(ctx: Context, bs: seq<Binding>): (r: Result<Context>)
    ensures r.Ok? <==> forall i :: 0 <= i < |bs| ==> bs[i].name in ctx
    ensures r.Ok? ==> r.value.Keys == ctx.Keys
    ensures r.Ok? ==> forall n :: n in ctx && !HasName(bs, n) ==> r.value[n] == ctx[n]
    ensures r.Err? ==> r.error == NullPointer
  {
    if bs == [] then Ok(ctx)
    else if bs[0].name !in ctx then Err(NullPointer)
    else
      var b := bs[0];
      var rest := UpdateContext(ctx[b.name := ctx[b.name].(value := RawValue(b.value))], bs[1..]);
      assert forall i :: 1 <= i < |bs| ==> bs[i] == bs[1..][i - 1];
      assert forall n :: HasName(bs[1..], n) ==> HasName(bs, n) by {
        forall n | HasName(bs[1..], n) ensures HasName(bs, n) {
          var i :| 0 <= i < |bs[1..]| && bs[1..][i].name == n;
          assert bs[i + 1].name == n;
        }
      }
      assert HasName(bs, b.name) by { assert bs[0].name == b.name; }
      rest
  }

  /** In a set (distinct names) every bound variable ends up holding its
      bound value. */
  lemma {:induction false} UpdateContextWrites(ctx: Context, bs: seq<Binding>, i: nat)
    requires DistinctNames(bs) && i < |bs|
    requires UpdateContext(ctx, bs).Ok?
    ensures UpdateContext(ctx, bs).value[bs[i].name].value == RawValue(bs[i].value)
    ensures UpdateContext(ctx, bs).value[bs[i].name].name == ctx[bs[i].name].name
    decreases |bs|
  {
    var b := bs[0];
    var c := ctx[b.name := ctx[b.name].(value := RawValue(b.value))];
    if i == 0 {
      assert !HasName(bs[1..], b.name) by {
        forall j | 0 <= j < |bs[1..]| ensures bs[1..][j].name != b.name {
          assert bs[1..][j] == bs[j + 1];
        }
      }
    } else {
      assert bs[1..][i - 1] == bs[i];
      UpdateContextWrites(c, bs[1..], i - 1);
    }
  }

  /** The value of the guard's return list (the raw values of the returned
      terms): exactly one value that is a boolean. A single null value fails
      the unboxing and a single non-boolean value fails the cast. */
  function Passes(ret: seq<Option<Value>>): (r: Result<bool>)
    ensures r == Ok(true) <==> ret == [Some(Flag(true))]
    ensures r == Ok(false) <==> |ret| != 1 || ret[0] == Some(Flag(false))
    ensures r == Err(NullPointer) <==> |ret| == 1 && ret[0].None?
    ensures r == Err(ClassCast) <==> |ret| == 1 && ret[0].Some? && !ret[0].value.Flag?
  {
    if |ret| != 1 then Ok(false)
    else if ret[0].None? then Err(NullPointer)
    else if ret[0].value.Flag? then Ok(ret[0].value.flag)
    else Err(ClassCast)
  }

  /** The guard run on a duplicate of the context updated with one set. */
  function Check(guard: Context -> seq<Option<Value>>, ctx: Context, s: seq<Binding>): Result<bool> {
    var c :- UpdateContext(ctx, s);
    Passes(guard(c))
  }

  /** `filter(...).findFirst()` on an ordered stream: the index of the
      first set from `from` on whose check passes; a failing check before it
      aborts. */
  function FirstPassing(guard: Context -> seq<Option<Value>>, ctx: Context, sets: seq<seq<Binding>>, from: nat): (r: Result<Option<nat>>)
    requires from <= |sets|
    decreases |sets| - from
    ensures r.Ok? && r.value.Some? ==>
      && from <= r.value.value < |sets|
      && Check(guard, ctx, sets[r.value.value]) == Ok(true)
      && forall j :: from <= j < r.value.value ==> Check(guard, ctx, sets[j]) == Ok(false)
    ensures r.Ok? && r.value.None? ==> forall j :: from <= j < |sets| ==> Check(guard, ctx, sets[j]) == Ok(false)
    ensures r.Err? ==> exists j :: from <= j < |sets| && Check(guard, ctx, sets[j]).Err?
                                   && forall k :: from <= k < j ==> Check(guard, ctx, sets[k]) == Ok(false)
  {
    if from == |sets| then Ok(None)
    else
      var c := Check(guard, ctx, sets[from]);
      if c.Err? then Err(c.error)
      else if c.value then Ok(Some(from))
      else FirstPassing(guard, ctx, sets, from + 1)
  }

  /** The inputs of one unification call. */
  datatype Query = Query(beliefs: seq<Belief>, literal: Belief, count: nat)

  /** `sequentialunify` as written: the selected set falls back to the
      EMPTY set when no set passes the guard, and an empty selection is read
      as "no match". A set that legitimately has no variables is therefore
      rejected even when its guard passes. */
  function SequentialUnifyAsWritten(h: Host, hs: BeliefHashes, q: Query, ctx: Context,
                                    guard: Option<Context -> seq<Option<Value>>>): (r: Result<(bool, Context)>)
    ensures UnifyAll(h, hs, q.beliefs, q.literal, q.count) == [] ==> r == Ok((false, ctx))
    ensures r.Ok? && !r.value.0 ==> r.value.1 == ctx
    ensures r.Ok? && r.value.0 ==> exists s :: s in UnifyAll(h, hs, q.beliefs, q.literal, q.count)
                                              && UpdateContext(ctx, s) == Ok(r.value.1)
    ensures guard.Some? && q.count == 0 ==> r.Err? || !r.value.0
  {
    var sets := UnifyAll(h, hs, q.beliefs, q.literal, q.count);
    if sets == [] then Ok((false, ctx))
    else if guard.None? then
      var c :- UpdateContext(ctx, sets[0]);
      Ok((true, c))
    else
      var first :- FirstPassing(guard.value, ctx, sets, 0);
      var chosen := if first.Some? then sets[first.value] else [];
      if chosen == [] then Ok((false, ctx))
      else Ok((true, UpdateContext(ctx, chosen).value))
  }

  /** `sequentialunify` with the selection kept as an option: the first set
      whose guard passes is committed, empty or not. */
  function SequentialUnify(h: Host, hs: BeliefHashes, q: Query, ctx: Context,
                           guard: Option<Context -> seq<Option<Value>>>): (r: Result<(bool, Context)>)
    ensures UnifyAll(h, hs, q.beliefs, q.literal, q.count) == [] ==> r == Ok((false, ctx))
    ensures r.Ok? && !r.value.0 ==> r.value.1 == ctx
    ensures var sets := UnifyAll(h, hs, q.beliefs, q.literal, q.count);
            r.Ok? && r.value.0 ==> exists i :: 0 <= i < |sets| && UpdateContext(ctx, sets[i]) == Ok(r.value.1)
                                             && (guard.Some? ==> Check(guard.value, ctx, sets[i]) == Ok(true)
                                                                 && forall j :: 0 <= j < i ==> Check(guard.value, ctx, sets[j]) == Ok(false))
                                             && (guard.None? ==> i == 0)
    ensures var sets := UnifyAll(h, hs, q.beliefs, q.literal, q.count);
            guard.Some? && r.Ok? && !r.value.0 ==> forall j :: 0 <= j < |sets| ==> Check(guard.value, ctx, sets[j]) == Ok(false)
  {
    var sets := UnifyAll(h, hs, q.beliefs, q.literal, q.count);
    if sets == [] then Ok((false, ctx))
    else if guard.None? then
      var c :- UpdateContext(ctx, sets[0]);
      Ok((true, c))
    else
      var first :- FirstPassing(guard.value, ctx, sets, 0);
      if first.None? then Ok((false, ctx))
      else Ok((true, UpdateContext(ctx, sets[first.value]).value))
  }

  /** The two selections agree whenever the chosen set is non-empty, and
      the written one can only lose matches: when it commits, so does the
      corrected one, to the same context. */
  lemma AsWrittenOnlyLosesMatches(h: Host, hs: BeliefHashes, q: Query, ctx: Context, guard: Option<Context -> seq<Option<Value>>>)
    ensures var w, c := SequentialUnifyAsWritten(h, hs, q, ctx, guard), SequentialUnify(h, hs, q, ctx, guard);
            (w.Ok? && w.value.0 ==> w == c) && (w.Err? ==> c.Err?) && (c.Ok? && !c.value.0 ==> w == c)
  {
    var sets := UnifyAll(h, hs, q.beliefs, q.literal, q.count);
    if sets != [] && guard.Some? {
      var first := FirstPassing(guard.value, ctx, sets, 0);
      if first.Ok? && first.value.Some? {
        var i := first.value.value;
        assert Check(guard.value, ctx, sets[i]) == Ok(true);
        assert UpdateContext(ctx, sets[i]).Ok?;
      }
    }
  }

  /** The finding: one belief equal to a ground query, a count of 0 and a
      guard that always holds. The written version answers false, the
      corrected one true; without a guard the written version answers true. */
  lemma GuardedZeroCountRejected(h: Host, hs: BeliefHashes, b: Belief, ctx: Context)
    ensures var q := Query([b], b, 0);
            var always: Context -> seq<Option<Value>> := _ => [Some(Flag(true))];
            && SequentialUnifyAsWritten(h, hs, q, ctx, Some(always)) == Ok((false, ctx))
            && SequentialUnify(h, hs, q, ctx, Some(always)) == Ok((true, ctx))
            && SequentialUnifyAsWritten(h, hs, q, ctx, None) == Ok((true, ctx))
  {
    var q := Query([b], b, 0);
    var always: Context -> seq<Option<Value>> := _ => [Some(Flag(true))];
    var sets := UnifyAll(h, hs, q.beliefs, q.literal, q.count);
    assert Candidates([b], b) == [b] by {
      assert Candidates([b][1..], b) == [];
    }
    assert sets != [] && forall s :: s in sets ==> s == [];
    assert sets[0] == [];
    assert Check(always, ctx, sets[0]) == Ok(true);
    assert FirstPassing(always, ctx, sets, 0) == Ok(Some(0));
  }

  /** `parallelunify`: the guard may run on every set concurrently, so an
      error of any set's check is reported; otherwise `findFirst` still
      returns the first passing set in list order. */
  function ParallelUnify(h: Host, hs: BeliefHashes, q: Query, ctx: Context,
                         guard: Option<Context -> seq<Option<Value>>>): (r: Result<(bool, Context)>)
    ensures r.Ok? && !r.value.0 ==> r.value.1 == ctx
  {
    var sets := UnifyAll(h, hs, q.beliefs, q.literal, q.count);
    var failed := if guard.Some? then FirstError(guard.value, ctx, sets) else None;
    if failed.Some? then Err(failed.value)
    else SequentialUnifyAsWritten(h, hs, q, ctx, guard)
  }

  /** The error of the first set whose check fails, if any. */
  function FirstError(guard: Context -> seq<Option<Value>>, ctx: Context, sets: seq<seq<Binding>>): (r: Option<Error>)
    ensures r.None? <==> forall s :: s in sets ==> Check(guard, ctx, s).Ok?
  {
    if sets == [] then None
    else
      var c := Check(guard, ctx, sets[0]);
      assert sets == [sets[0]] + sets[1..];
      if c.Err? then Some(c.error) else FirstError(guard, ctx, sets[1..])
  }

  /** When no guard check fails, the parallel variant picks the same set as
      the sequential one. */
  lemma ParallelAgreesWithSequential(h: Host, hs: BeliefHashes, q: Query, ctx: Context, guard: Option<Context -> seq<Option<Value>>>)
    requires guard.Some? ==> forall s :: s in UnifyAll(h, hs, q.beliefs, q.literal, q.count) ==> Check(guard.value, ctx, s).Ok?
    ensures ParallelUnify(h, hs, q, ctx, guard) == SequentialUnifyAsWritten(h, hs, q, ctx, guard)
  {
  }
}

=== FILE: variables.dfy ===
/** CRelocateMutexVariable, a variable that writes its value back to a
    variable of an enclosing context, and CVariableEvaluate, a variable
    whose value is turned into a literal when the plan runs. */
module Variables {
  import opened Wrappers
  import opened Terms
  import Literals

  // --- relocate variables -------------------------------------------------------------------------

  /* The variable a relocate variable refers to lives in an enclosing
     context `outer`, under the name the relocate variable keeps as its
     target. Writing through the reference updates `outer`; reading through
     it reads `outer`'s current variable. */

  /** `new CRelocateMutexVariable(variable)`: a relocate variable named by
      the target's last path segment, holding the target's current value. */
  function RelocateOf(h: Host, target: Variable): (r: Variable)
    ensures r.kind == Relocate(target.name)
    ensures r.value == target.value
    ensures r.name == h.pathFrom(Literals.Suffix(target.name))
  {
    Variable(h.pathFrom(Literals.Suffix(target.name)), target.value, Relocate(target.name))
  }

  /** `new CRelocateMutexVariable(functor, variable)`: the same with an
      explicit name. */
  function RelocateNamed(name: Path, target: Variable): (r: Variable)
    ensures r.kind == Relocate(target.name)
    ensures r.value == target.value && r.name == name
  {
    Variable(name, target.value, Relocate(target.name))
  }

  /** `set(value)` on a variable: only the value changes. */
  function Set(v: Variable, value: Option<Value>): (r: Variable)
    ensures r.name == v.name && r.kind == v.kind && r.value == value
  {
    v.(value := value)
  }

  /** `relocate()`: a constant target is left untouched; any other target
      receives the relocate variable's current value. The enclosing context
      after the call is returned; the variable `relocate()` returns is its
      entry under the target name. Nothing else in the context changes. */
  function RelocateTarget(rv: Variable, outer: Context): (r: Context)
    requires rv.kind.Relocate? && rv.kind.target in outer
    ensures r.Keys == outer.Keys
    ensures forall n :: n in outer && n != rv.kind.target ==> r[n] == outer[n]
    ensures var t := rv.kind.target;
            r[t].name == outer[t].name && r[t].kind == outer[t].kind
            && r[t].value == if outer[t].kind == Constant then outer[t].value else rv.value
  {
    var t := rv.kind.target;
    if outer[t].kind == Constant then outer else outer[t := Set(outer[t], rv.value)]
  }

  /** Relocating a fresh relocate variable writes back the value it was
      created with, so the enclosing context comes back unchanged. */
  lemma RelocateRoundTrip(h: Host, outer: Context, n: Path, name: Path)
    requires WellFormedContext(outer) && n in outer
    ensures RelocateTarget(RelocateOf(h, outer[n]), outer) == outer
    ensures RelocateTarget(RelocateNamed(name, outer[n]), outer) == outer
  {
  }

  /** Setting a value and relocating: the target ends with that value,
      unless it is a constant. */
  lemma RelocateAfterSet(rv: Variable, value: Option<Value>, outer: Context)
    requires rv.kind.Relocate? && rv.kind.target in outer
    ensures var t := rv.kind.target;
            RelocateTarget(Set(rv, value), outer)[t].value == if outer[t].kind == Constant then outer[t].value else value
  {
  }

  /** `shallowcopy(prefix?)`: the name gets the prefix in front; target
      and current value are kept. */
  function ShallowCopy(rv: Variable, prefix: Option<Path>): (r: Variable)
    requires rv.kind.Relocate?
    ensures r.kind == rv.kind && r.value == rv.value
    ensures r.name == if prefix.Some? then prefix.value + rv.name else rv.name
  {
    Variable(if prefix.Some? then prefix.value + rv.name else rv.name, rv.value, rv.kind)
  }

  /** `shallowcopysuffix()`: a new relocate variable under the SAME full
      name (the name is not cut to its suffix) whose value is read afresh
      through the reference, so it is the target's CURRENT value. */
  function ShallowCopySuffix(rv: Variable, outer: Context): (r: Variable)
    requires rv.kind.Relocate? && rv.kind.target in outer
    ensures r.kind == rv.kind && r.name == rv.name
    ensures r.value == outer[rv.kind.target].value
  {
    Variable(rv.name, outer[rv.kind.target].value, rv.kind)
  }

  /** A suffix shallow copy sees what went through the reference and nothing
      else: a value set on the original is dropped while the target is
      unchanged, and is seen once `relocate()` has written it to a
      non-constant target. */
  lemma {:induction false} ShallowCopySuffixReadsTarget(rv: Variable, value: Option<Value>, outer: Context)
    requires rv.kind.Relocate? && rv.kind.target in outer
    ensures ShallowCopySuffix(Set(rv, value), outer) == ShallowCopySuffix(rv, outer)
    ensures outer[rv.kind.target].kind != Constant ==>
      ShallowCopySuffix(rv, RelocateTarget(Set(rv, value), outer)).value == value
  {
    var t := rv.kind.target;
    var after := RelocateTarget(Set(rv, value), outer);
    assert t in after;
  }

  /** `deepcopy(prefix?)` as written: the prefix is APPENDED to the name
      (`m_functor.append(prefix)`), the reverse of `shallowcopy`. */
  function DeepCopyAsWritten(rv: Variable, prefix: Option<Path>): (r: Variable)
    requires rv.kind.Relocate?
    ensures r.kind == rv.kind && r.value == rv.value
    ensures r.name == if prefix.Some? then rv.name + prefix.value else rv.name
  {
    Variable(if prefix.Some? then rv.name + prefix.value else rv.name, rv.value, rv.kind)
  }

  /** With name `x` and prefix `p` the deep copy is named `x/p` while the
      shallow copy is named `p/x`. */
  lemma DeepCopyPrefixReversed(target: Variable)
    ensures var rv := RelocateNamed(["x"], target);
            DeepCopyAsWritten(rv, Some(["p"])).name == ["x", "p"]
            != ShallowCopy(rv, Some(["p"])).name
  {
    var rv := RelocateNamed(["x"], target);
    assert ShallowCopy(rv, Some(["p"])).name == ["p", "x"];
  }

  /** The corrected deep copy puts the prefix in front, as every other copy
      does: the deep and the shallow copy of a relocate variable agree. */
  function DeepCopy(rv: Variable, prefix: Option<Path>): (r: Variable)
    requires rv.kind.Relocate?
    ensures r == ShallowCopy(rv, prefix)
    ensures prefix.None? ==> r == rv
  {
    Variable(if prefix.Some? then prefix.value + rv.name else rv.name, rv.value, rv.kind)
  }

  /** `deepcopysuffix()`: the name cut to its last segment, target and value
      kept. */
  function DeepCopySuffix(h: Host, rv: Variable): (r: Variable)
    requires rv.kind.Relocate?
    ensures r.kind == rv.kind && r.value == rv.value
    ensures r.name == h.pathFrom(Literals.Functor(Literal(false, false, rv.name, [])))
  {
    Variable(h.pathFrom(Literals.Suffix(rv.name)), rv.value, rv.kind)
  }

  // --- evaluate-variables -------------------------------------------------------------------------

  /** `CCommon.replaceFromContext`: the context variable of the same name;
      a name missing from the context is an illegal-argument error. */
  function ReplaceFromContext(ctx: Context, v: Variable): (r: Result<Variable>)
    ensures r.Ok? <==> v.name in ctx
    ensures r.Ok? ==> r.value == ctx[v.name]
    ensures r.Err? ==> r.error == IllegalArgument
  {
    if v.name in ctx then Ok(ctx[v.name]) else Err(IllegalArgument)
  }

  /** `fromLiteral`: the literal itself, or, when parameters are given, a
      literal with its flags and functor and the parameters as arguments;
      unified against the context either way. */
  function FromLiteral(l: Literal, params: seq<Term>, ctx: Context): (r: Literal)
    ensures r.at == l.at && r.negated == l.negated && r.functor == l.functor
    ensures |r.args| == if |params| == 0 then |l.args| else |params|
    ensures |params| == 0 ==> forall i :: 0 <= i < |l.args| ==> r.args[i] == Literals.UnifyArg(l.args[i], ctx)
    ensures |params| > 0 ==> forall i :: 0 <= i < |params| ==> r.args[i] == Literals.UnifyArg(params[i], ctx)
  {
    if |params| == 0 then Literals.Unify(l, ctx)
    else Literals.Unify(Literal(l.at, l.negated, l.functor, params), ctx)
  }

  /** `evaluate(context)`: the template variable is resolved in the context
      and must be allocated. A string value is parsed as a functor with the
      parameters as arguments; otherwise, if the TEMPLATE holds a literal,
      the resolved value is used as a literal (a cast that fails on any other
      value). Every other value is an illegal state. */
  function EvaluateLiteral(h: Host, e: Term, ctx: Context): (r: Result<Literal>)
    requires e.Evaluate?
    ensures e.template.name !in ctx ==> r == Err(IllegalArgument)
    ensures e.template.name in ctx && !ctx[e.template.name].Allocated() ==> r == Err(IllegalState)
    ensures r.Ok? ==> e.template.name in ctx && ctx[e.template.name].Allocated()
    ensures e.template.name in ctx && ctx[e.template.name].Allocated() && ctx[e.template.name].value.value.Text? ==>
      var s := ctx[e.template.name].value.value.text;
      && r.Ok?
      && r.value.at == (Literals.AT in s) && r.value.negated == (Literals.NEGATION in s)
      && r.value.functor == h.pathFrom(Literals.Strip(s))
      && |r.value.args| == |e.parameters|
      && forall i :: 0 <= i < |e.parameters| ==> r.value.args[i] == Literals.UnifyArg(e.parameters[i], ctx)
    ensures r.Ok? && !ctx[e.template.name].value.value.Text? ==>
      e.template.value.Some? && e.template.value.value.Boxed? && ctx[e.template.name].value.value.Boxed?
    ensures e.template.name in ctx && ctx[e.template.name].Allocated() && ctx[e.template.name].value.value.Boxed?
            && e.template.value.Some? && e.template.value.value.Boxed? ==>
      r == Ok(FromLiteral(ctx[e.template.name].value.value.literal, e.parameters, ctx))
    ensures r.Err? && r.error == ClassCast <==>
      && e.template.name in ctx && ctx[e.template.name].Allocated()
      && !ctx[e.template.name].value.value.Text? && !ctx[e.template.name].value.value.Boxed?
      && e.template.value.Some? && e.template.value.value.Boxed?
  {
    var v :- ReplaceFromContext(ctx, e.template);
    if !v.Allocated() then Err(IllegalState)
    else match v.value.value
      case Text(s) => Ok(Literals.Unify(Literals.FromString(h, s, e.parameters), ctx))
      case Boxed(l) =>
        if e.template.value.Some? && e.template.value.value.Boxed?
        then Ok(FromLiteral(l, e.parameters, ctx))
        else Err(IllegalState)
      case _ =>
        if e.template.value.Some? && e.template.value.value.Boxed?
        then Err(ClassCast)
        else Err(IllegalState)
  }

  /** The literal an evaluate-variable yields is already unified: unifying
      it again against the same context changes nothing, and its remaining
      variables are exactly the unbound ones of the context (or come from
      nested evaluate-variables). */
  lemma EvaluateIsUnified(h: Host, e: Term, ctx: Context)
    requires e.Evaluate? && WellFormedContext(ctx)
    ensures var r := EvaluateLiteral(h, e, ctx);
            r.Ok? ==> Literals.Unify(r.value, ctx) == r.value
  {
    var r := EvaluateLiteral(h, e, ctx);
    if r.Ok? {
      var v := ctx[e.template.name];
      match v.value.value
      case Text(s) => Literals.UnifyIdempotent(Literals.FromString(h, s, e.parameters), ctx);
      case Boxed(l) =>
        if |e.parameters| == 0 {
          Literals.UnifyIdempotent(l, ctx);
        } else {
          Literals.UnifyIdempotent(Literal(l.at, l.negated, l.functor, e.parameters), ctx);
        }
    }
  }

  /** The variable parameters, in order. */
  function VariableParameters(ps: seq<Term>): (r: seq<Variable>)
    ensures |r| <= |ps|
    ensures forall v :: v in r <==> Var(v) in ps
    ensures |ps| == 1 ==> r == if ps[0].Var? then [ps[0].variable] else []
  {
    if ps == [] then []
    else
      assert ps == [ps[0]] + ps[1..];
      (if ps[0].Var? then [ps[0].variable] else []) + VariableParameters(ps[1..])
  }

  /** The variable parameters of a concatenation are those of each part,
      in order: with the single-parameter case this fixes the order
      completely, which is the parameters' own order. */
  lemma {:induction false} VariableParametersAppend(a: seq<Term>, b: seq<Term>)
    ensures VariableParameters(a + b) == VariableParameters(a) + VariableParameters(b)
    decreases |a|
  {
    if a == [] {
      assert a + b == b;
    } else {
      assert (a + b)[0] == a[0] && (a + b)[1..] == a[1..] + b;
      VariableParametersAppend(a[1..], b);
    }
  }

  /** `variables()`: the template variable followed by every parameter that
      is a variable, in parameter order (the parallel stream is ordered and
      `concat` keeps the encounter order). */
  function Variables(e: Term): (r: seq<Variable>)
    requires e.Evaluate?
    ensures |r| >= 1 && r[0] == e.template
    ensures forall v :: v in r[1..] <==> Var(v) in e.parameters
    ensures forall a, b :: e.parameters == a + b ==> r[1..] == VariableParameters(a) + VariableParameters(b)
  {
    VariableParametersAppendAll(e.parameters);
    [e.template] + VariableParameters(e.parameters)
  }

  lemma VariableParametersAppendAll(ps: seq<Term>)
    ensures forall a, b :: ps == a + b ==> VariableParameters(ps) == VariableParameters(a) + VariableParameters(b)
  {
    forall a, b | ps == a + b
      ensures VariableParameters(ps) == VariableParameters(a) + VariableParameters(b)
    {
      VariableParametersAppend(a, b);
    }
  }

  /** An evaluate-variable hashes and copies as its template: equal
      templates give equal evaluate-variables whatever the parameters. */
  lemma EvaluateEqualsByTemplate(h: Host, v: Variable, p: seq<Term>, q: seq<Term>)
    ensures TermEquals(h, Evaluate(v, p), Evaluate(v, q))
    ensures StructureHash(h, Evaluate(v, p)) == 0 && TermHasVariable(Evaluate(v, p))
    ensures RawValue(Evaluate(v, p)) == v.value && Fqn(Evaluate(v, p)) == v.name
  {
  }
}

=== FILE: wrappers.dfy ===
/** Failure-carrying result types shared by the whole model.

    The interpreter reports most failures as a false fuzzy value, but a few
    operations throw; those exceptions are modelled as `Err` values carrying
    an `Error` tag instead of a precondition that rules the input out.
 */
module Wrappers {

  /** A value that may be absent; `None` plays the role of a Java `null`. */
  datatype Option<+T> = None | Some(value: T)

  /** The exceptions the modelled code can raise. */
  datatype Error =
    | IllegalState        // CIllegalStateException, e.g. reading an unallocated term
    | IllegalArgument     // Enum.valueOf on an unknown name
    | ClassCast           // a raw value of an unexpected Java type
    | NullPointer         // dereferencing a missing context variable
    | DivisionByZero      // integer division by zero (ArithmeticException)

  datatype Result<+T> = Ok(value: T) | Err(error: Error) {

    predicate IsFailure() {
      Err?
    }

    function PropagateFailure<U>(): Result<U>
      requires Err?
    {
      Err(error)
    }

    function Extract(): T
      requires Ok?
    {
      value
    }
  }
}
